=== FILE: README.md ===
# Match Prediction Assistant — a Dafny model of the prediction core

This project models the core of the Match Prediction Assistant, a Spring Boot
service that predicts football matches with a locally hosted language model.
The model covers four parts of the service:

- **The RAG prediction pipeline (AiPredictionService).** It retrieves context
  from the vector store (ChromaDB) and from the match table: head-to-head
  statistics and the recent form of both teams. It then builds the augmented
  prompt, asks the model, parses the `HOME_WIN:` / `DRAW:` / `AWAY_WIN:` /
  `REASONING:` reply, marks and saves the prediction, and stores it back in
  the vector store.
- **The contextual prediction service (ContextualAiService).** It covers role
  personas, tone instructions, conversation memory per session, the prompt,
  the parameters JSON, and the parse with its neutral fallback.
- **The rules of ChromaDbService.** These are the winner and outcome of a
  match, the analytics tallies and their top-N ranking, the document ids, and
  what the service answers while it is not connected.
- **The two controllers and two CRUD services.** The chat controller answers
  with a cascade of keyword rules and a "team vs team" prediction reply. The
  team-prediction controller reuses or creates a fixture and then runs the
  RAG prediction. MatchService and TeamService keep their tables in memory.

Each Java class whose methods update state is a Dafny `class`:

| Java class | Dafny class | state kept |
|---|---|---|
| MatchService | `Matches.MatchService` | match table as a `map` |
| TeamService | `Teams.TeamService` | team table as a `map` |
| ChromaDbService | `ChromaDb.ChromaDbService` | connected flag; log of `add` calls |
| AiPredictionService | `RagPipeline.AiPredictionService` | saved predictions |
| ContextualAiService | `ContextualAi.ContextualAiService` | conversation rows; saved predictions |

Pure computations are functions, and loops in the Java code are methods with
loop invariants proved against those functions. These modules model the Java
library calls the code depends on:

- `JavaString`: `trim`, `isBlank`, `split` with trailing-empty removal,
  `replace`, `contains`, ASCII case mapping.
- `Numbers`: `%d`, `%.Nf`, and the `BigDecimal(String)` grammar.

The following are inputs, not modelled behaviour:

- the language model: a function from prompt to reply or failure;
- the vector store: a value answering queries and counts;
- the repository query results: the upcoming matches, a team's matches and
  the matches between two teams (a session's recent context is computed from
  the conversation rows the service keeps);
- the clock and generated UUIDs.

The model follows what the code does, including where that is easy to
mistake for something else:

- **No rescaling.** Parsed probabilities are not rescaled to sum to 100.
- **No truncation.** Reasoning text is not truncated.
- **Malformed numbers fail.** A malformed number after `HOME_WIN:` makes the
  RAG prediction fail, with the rejected text as the message and the
  "Error generating RAG prediction: " prefix. It does not fall back to
  defaults. The contextual service does fall back.
- **Saves validate.** Every save checks the entity's bean-validation
  constraints first, and there is no enclosing transaction. A rejected row is
  an error with the constraint's message and is not stored; rows saved
  earlier in the same request stay saved.

## Model

Paths below are relative to `match-predictor/src/main/java/com/example/matchpredictor/`;
in the table they are written out in full.

| member | source | states |
|---|---|---|
| RagParser.FieldOf | match-predictor/src/main/java/com/example/matchpredictor/service/AiPredictionService.java:346-351 | a line is read as a probability field only when it starts with that field's prefix; a line with none of the three prefixes is no field |
| RagParser.Step | match-predictor/src/main/java/com/example/matchpredictor/service/AiPredictionService.java:343-357 | one trimmed line fails exactly when it is a field line whose value BigDecimal rejects; a field line leaves the reasoning untouched; any other line outside the reasoning leaves the state unchanged |
| RagParser.StepField | match-predictor/src/main/java/com/example/matchpredictor/service/AiPredictionService.java:346-351 | a field line sets exactly its own probability, to the BigDecimal value of its text; the other two keep their values |
| RagParser.TextStep | match-predictor/src/main/java/com/example/matchpredictor/service/AiPredictionService.java:352-357 | a reasoning or continuation line never changes the three probabilities; the flag turns on at a REASONING line and stays on; the reasoning grows by the REASONING line's text without its marker, trimmed, or by " " and a later line, and outside the reasoning a non-REASONING line changes nothing |
| RagParser.ScanLine | match-predictor/src/main/java/com/example/matchpredictor/service/AiPredictionService.java:344-357 | the loop body computes the one-line step of the parse |
| RagParser.ParseAiResponse | match-predictor/src/main/java/com/example/matchpredictor/service/AiPredictionService.java:330-374 | the parsing loop over the split reply computes RagPrediction, so it fails exactly on a malformed field line and otherwise yields the last field values and the collected reasoning |
| RagParser.RagPrediction | match-predictor/src/main/java/com/example/matchpredictor/service/AiPredictionService.java:360-373 | fails exactly when some line is a field line with an unparsable value; otherwise about the given match, confidence 0.75, each probability the value of the last line naming it or its default, and the reasoning FinalReasoning of the text collected from the first REASONING line on |
| RagParser.FinalReasoning | match-predictor/src/main/java/com/example/matchpredictor/service/AiPredictionService.java:360-365 | the collected reasoning, trimmed, when it is not blank; otherwise the fallback sentence followed by the whole reply; never blank |
| RagParser.ScanFailsIffMalformed | match-predictor/src/main/java/com/example/matchpredictor/service/AiPredictionService.java:341-358 | the parse fails if and only if some line of the reply is a field line with an unparsable value |
| RagParser.ScanErrorSticks | match-predictor/src/main/java/com/example/matchpredictor/service/AiPredictionService.java:343-358 | once a line has failed, the lines after it do not change the outcome (the exception leaves the loop) |
| RagParser.LastFieldLineWins | match-predictor/src/main/java/com/example/matchpredictor/service/AiPredictionService.java:334-351 | each probability is its default when no line names it, and otherwise the value of the last line that names it |
| RagParser.DefaultsSumToHundred | match-predictor/src/main/java/com/example/matchpredictor/service/AiPredictionService.java:334-336 | a reply without field lines parses, and its probabilities are 33.33, 33.34 and 33.33, summing to 100 |
| RagParser.NoFieldLineNoText | match-predictor/src/main/java/com/example/matchpredictor/service/AiPredictionService.java:346-351 | with no line starting with a field prefix, no field value text is found |
| RagParser.NoReasoningLineFallback | match-predictor/src/main/java/com/example/matchpredictor/service/AiPredictionService.java:362-365 | a reply with no REASONING line gets the fallback reasoning quoting the full reply |
| RagParser.NothingCollected | match-predictor/src/main/java/com/example/matchpredictor/service/AiPredictionService.java:338-357 | without a REASONING line nothing is collected and the reasoning flag never turns on |
| RagParser.ScanCollects | match-predictor/src/main/java/com/example/matchpredictor/service/AiPredictionService.java:352-357 | the reasoning the loop builds is Collected: from the first REASONING line on, its text without the marker, trimmed, then " " and each later non-field line; the flag is on exactly when some line opens the reasoning |
| RagParser.CollectedSnoc | match-predictor/src/main/java/com/example/matchpredictor/service/AiPredictionService.java:352-357 | one more line adds its piece once the reasoning has started, starts the collection on a REASONING line, and adds nothing before |
| MatchStats.Between | match-predictor/src/main/java/com/example/matchpredictor/repository/MatchRepository.java:34-35 | the head-to-head query answers exactly the matches pairing the two teams in either orientation |
| MatchStats.Involving | match-predictor/src/main/java/com/example/matchpredictor/repository/MatchRepository.java:27-28 | a team's matches are exactly those where it is home or away |
| MatchStats.HeadToHeadText | match-predictor/src/main/java/com/example/matchpredictor/service/AiPredictionService.java:197-242 | no previous matches gives the fixed "No previous matches found" block; otherwise the header, then "Total matches: " with the count of all matches found, FINISHED or not, and the text ends with the win, draw and goal shares of the home team's tally |
| MatchStats.HeadToHeadStats | match-predictor/src/main/java/com/example/matchpredictor/service/AiPredictionService.java:197-242 | the tallying loop over the head-to-head matches builds HeadToHeadText |
| MatchStats.RecordMatch | match-predictor/src/main/java/com/example/matchpredictor/service/AiPredictionService.java:214-225 | one loop step: an unfinished match changes nothing, and a finished one adds the goals and one win, draw or loss from the first team's side |
| MatchStats.TallyCountsFinished | match-predictor/src/main/java/com/example/matchpredictor/service/AiPredictionService.java:213-228 | wins + draws + losses equals the number of FINISHED matches, never more than the matches found |
| MatchStats.TallyMirrors | match-predictor/src/main/java/com/example/matchpredictor/service/AiPredictionService.java:215-224 | tallying from the other team's side swaps wins with losses and the two goal totals |
| MatchStats.SharesIffFinished | match-predictor/src/main/java/com/example/matchpredictor/service/AiPredictionService.java:228-239 | the win/draw shares and average goals appear if and only if at least one match is FINISHED |
| MatchStats.HeadToHeadOpensWithTitle | match-predictor/src/main/java/com/example/matchpredictor/service/AiPredictionService.java:203-207 | both the empty and the full head-to-head block start with the HEAD-TO-HEAD title |
| MatchStats.SortNewestFirst | match-predictor/src/main/java/com/example/matchpredictor/service/AiPredictionService.java:265 | sorting puts the latest kickoff first, is a permutation of its input, and is stable: the matches of each kickoff time keep their input order |
| MatchStats.InsertKeepsDateOrder | match-predictor/src/main/java/com/example/matchpredictor/service/AiPredictionService.java:265 | inserting a match keeps the order among the matches of each kickoff time and puts it after those of its own time |
| MatchStats.RecentFinished | match-predictor/src/main/java/com/example/matchpredictor/service/AiPredictionService.java:262-267 | the form uses min(5, finished) matches, newest first, all FINISHED and all from the team's matches |
| MatchStats.RecentAreLatest | match-predictor/src/main/java/com/example/matchpredictor/service/AiPredictionService.java:264-266 | no FINISHED match left out of the form is later than one kept in it |
| MatchStats.FormMatch | match-predictor/src/main/java/com/example/matchpredictor/service/AiPredictionService.java:276-296 | the loop body: the line for one match from the team's side and its W, D or L count |
| MatchStats.FormOf | match-predictor/src/main/java/com/example/matchpredictor/service/AiPredictionService.java:274-299 | the form loop and summary build the form block of the recent matches |
| MatchStats.TeamForm | match-predictor/src/main/java/com/example/matchpredictor/service/AiPredictionService.java:261-302 | getTeamForm builds TeamFormText: the "no recent matches" note or the form block |
| MatchStats.FormScanCounts | match-predictor/src/main/java/com/example/matchpredictor/service/AiPredictionService.java:276-299 | over finished matches the W/D/L counts add up to the matches listed and agree with the head-to-head tally rule |
| MatchStats.FormPointsBound | match-predictor/src/main/java/com/example/matchpredictor/service/AiPredictionService.java:298-299 | at most five matches are counted, so the points shown never exceed the "from 15" maximum |
| MatchStats.FormStats | match-predictor/src/main/java/com/example/matchpredictor/service/AiPredictionService.java:247-259 | getTeamFormStats is the home team's form, then the away team's, under their headers |
| RagPipeline.ChromaSection | match-predictor/src/main/java/com/example/matchpredictor/service/AiPredictionService.java:99-109 | the vector-store history part is empty or starts with the historical-context header |
| RagPipeline.SimilarSection | match-predictor/src/main/java/com/example/matchpredictor/service/AiPredictionService.java:121-138 | the similar-predictions part is empty or starts with its header |
| RagPipeline.Similar | match-predictor/src/main/java/com/example/matchpredictor/service/AiPredictionService.java:132-137 | the numbering loop lists the documents as "1. …", "2. …" under the header, unless there are none or the first says "not connected" |
| RagPipeline.NumberedNext | match-predictor/src/main/java/com/example/matchpredictor/service/AiPredictionService.java:134-136 | each loop step appends exactly the next numbered line |
| RagPipeline.RetrieveRelevantContext | match-predictor/src/main/java/com/example/matchpredictor/service/AiPredictionService.java:95-141 | the four retrieval steps build RelevantContext |
| RagPipeline.ContextCarriesHeadToHead | match-predictor/src/main/java/com/example/matchpredictor/service/AiPredictionService.java:111-114 | the retrieved context is never empty and always contains the head-to-head title; when the store is down it starts with it |
| RagPipeline.ContextSlot | match-predictor/src/main/java/com/example/matchpredictor/service/AiPredictionService.java:146-192 | the prompt quotes the retrieved context, or a no-data note when it is empty |
| RagPipeline.PromptFrame | match-predictor/src/main/java/com/example/matchpredictor/service/AiPredictionService.java:146-192 | the prompt opens with the fixture's details and contains the context slot |
| RagPipeline.PromptQuotesRetrievedContext | match-predictor/src/main/java/com/example/matchpredictor/service/AiPredictionService.java:50-54 | the prompt sent to the model contains the whole retrieved context |
| RagPipeline.CountRetrievedMatches | match-predictor/src/main/java/com/example/matchpredictor/service/AiPredictionService.java:304-307 | the count is between -1 and the number of "Match"/"match" occurrences, and equals that number when the context does not end in one |
| RagPipeline.ParametersJson | match-predictor/src/main/java/com/example/matchpredictor/service/AiPredictionService.java:73-76 | the parameters are a JSON object with the rag prefix |
| RagPipeline.ParametersInjective | match-predictor/src/main/java/com/example/matchpredictor/service/AiPredictionService.java:73-76 | different retrieved-match counts give different parameter strings |
| RagPipeline.Generated | match-predictor/src/main/java/com/example/matchpredictor/service/AiPredictionService.java:56-76 | the try block succeeds exactly when the model answers and the reply parses; the result carries the fixture, "llama3.2-RAG", confidence 0.75, non-blank reasoning and the retrieval parameters; a model failure keeps its message |
| RagPipeline.Generate | match-predictor/src/main/java/com/example/matchpredictor/service/AiPredictionService.java:54-76 | the prompt, model call, parse and marks compute Generated |
| RagPipeline.Generation | match-predictor/src/main/java/com/example/matchpredictor/service/AiPredictionService.java:44-90 | a successful prediction is about the requested fixture, carries the id it was saved under and meets every AiPrediction constraint; every failure carries the "Error generating RAG prediction: " prefix |
| RagPipeline.AiPredictionService.GeneratePrediction | match-predictor/src/main/java/com/example/matchpredictor/service/AiPredictionService.java:44-90 | an unknown match id fails with "Match not found" and saves nothing; otherwise the answer is Generation; a failure, including a row the constraints reject, saves nothing anywhere; a success is saved under a fresh id and sent to the vector store when connected |
| RagPipeline.AiPredictionService.PredictFixture | match-predictor/src/main/java/com/example/matchpredictor/service/AiPredictionService.java:50-89 | the pipeline on a found fixture: Generation, with the save and the store-back only on success; a rejected row fails inside the try with the RAG error prefix |
| RagPipeline.AiPredictionService.Save | match-predictor/src/main/java/com/example/matchpredictor/service/AiPredictionService.java:79-82 | a row that breaks an AiPrediction constraint fails with that constraint's message and nothing is saved or stored; otherwise it is saved under a fresh id and then stored in the vector store when connected; every saved row meets the constraints |
| RagPipeline.PredictionStats | match-predictor/src/main/java/com/example/matchpredictor/service/AiPredictionService.java:377-387 | the "no evaluated predictions" message exactly when nothing is evaluated; otherwise an "Accuracy: " line whose number is not negative |
| RagPipeline.AccuracyAtMostHundred | match-predictor/src/main/java/com/example/matchpredictor/service/AiPredictionService.java:385-386 | with no more correct than evaluated predictions, the accuracy shown never exceeds 100.00 |
| ContextualAi.RolePersona | match-predictor/src/main/java/com/example/matchpredictor/service/ContextualAiService.java:156-165 | coach, fan and statistician pick their personas ignoring case; null or anything else gives the analyst |
| ContextualAi.ToneInstruction | match-predictor/src/main/java/com/example/matchpredictor/service/ContextualAiService.java:167-176 | casual, detailed and brief pick their instructions ignoring case; null or anything else gives the professional tone |
| ContextualAi.PersonaAndToneIgnoreCase | match-predictor/src/main/java/com/example/matchpredictor/service/ContextualAiService.java:159-170 | upper-, lower- and mixed-case spellings select the same persona and tone |
| ContextualAi.Reverse | match-predictor/src/main/java/com/example/matchpredictor/service/ContextualAiService.java:95 | Collections.reverse in place: the array afterwards is the reversal of its old contents |
| ContextualAi.ReversedTwice | match-predictor/src/main/java/com/example/matchpredictor/service/ContextualAiService.java:95 | reversing twice restores the history order |
| ContextualAi.SessionRows | match-predictor/src/main/java/com/example/matchpredictor/repository/ConversationContextRepository.java:18-19 | exactly the rows of the session |
| ContextualAi.RecentContext | match-predictor/src/main/java/com/example/matchpredictor/service/ContextualAiService.java:91 | the session's latest min(5, n) rows, newest first: row k is the k-th newest row of the session |
| ContextualAi.ConversationHistory | match-predictor/src/main/java/com/example/matchpredictor/service/ContextualAiService.java:231-233 | exactly the rows of the session, newest first: row k is the k-th newest row of the session |
| ContextualAi.SavedExchangeIsRecalled | match-predictor/src/main/java/com/example/matchpredictor/service/ContextualAiService.java:66-68 | the exchange just saved is the newest row recalled for its session |
| ContextualAi.Summary | match-predictor/src/main/java/com/example/matchpredictor/service/ContextualAiService.java:100-102 | a response of at most 200 characters is kept; a longer one becomes exactly its first 200 characters followed by "..." |
| ContextualAi.WriteExchanges | match-predictor/src/main/java/com/example/matchpredictor/service/ContextualAiService.java:96-105 | the history loop writes each exchange in order |
| ContextualAi.RecallHistory | match-predictor/src/main/java/com/example/matchpredictor/service/ContextualAiService.java:91-107 | the recalled rows, reversed to oldest first, inside the memory markers, or nothing when there are none |
| ContextualAi.NewestRecalledLast | match-predictor/src/main/java/com/example/matchpredictor/service/ContextualAiService.java:94-106 | the newest exchange is written last, just before the closing marker |
| ContextualAi.ComposeShape | match-predictor/src/main/java/com/example/matchpredictor/service/ContextualAiService.java:86-110 | the prompt opens with the persona and contains the history and the tone instruction |
| ContextualAi.PromptShape | match-predictor/src/main/java/com/example/matchpredictor/service/ContextualAiService.java:83-154 | the contextual prompt opens with the role persona, contains the tone instruction and, when there is history, the newest exchange just before the closing marker |
| ContextualAi.BuildContextualPrompt | match-predictor/src/main/java/com/example/matchpredictor/service/ContextualAiService.java:83-154 | the prompt builder computes ContextualPrompt |
| ContextualAi.Unquoted | match-predictor/src/main/java/com/example/matchpredictor/service/ContextualAiService.java:182 | every double quote becomes a single quote and nothing else changes |
| ContextualAi.ParametersIgnoreGeneratedSession | match-predictor/src/main/java/com/example/matchpredictor/service/ContextualAiService.java:178-184 | without a session id in the request the parameters record an empty sessionId, not the generated one, while the session uses the generated id |
| ContextualAi.SlotOf | match-predictor/src/main/java/com/example/matchpredictor/service/ContextualAiService.java:199-208 | a line names a slot only when its upper-cased text starts with that slot's marker |
| ContextualAi.ReadStep | match-predictor/src/main/java/com/example/matchpredictor/service/ContextualAiService.java:197-211 | one line fails exactly when its slot value is unparsable; a line naming no slot changes nothing; a REASONING line sets the reasoning to its text after the marker and leaves the values; any other line leaves the reasoning |
| ContextualAi.ReadLine | match-predictor/src/main/java/com/example/matchpredictor/service/ContextualAiService.java:198-210 | the loop body computes the one-line step |
| ContextualAi.ReadFailsIffAny | match-predictor/src/main/java/com/example/matchpredictor/service/ContextualAiService.java:196-211 | reading fails if and only if some line is unreadable |
| ContextualAi.ReadErrorSticks | match-predictor/src/main/java/com/example/matchpredictor/service/ContextualAiService.java:196-211 | after the first failing line the rest of the reply does not matter |
| ContextualAi.ReadStepValue | match-predictor/src/main/java/com/example/matchpredictor/service/ContextualAiService.java:199-207 | a line naming a value slot sets that slot to the BigDecimal of its text; the other slots keep their values |
| ContextualAi.LastValueLineWins | match-predictor/src/main/java/com/example/matchpredictor/service/ContextualAiService.java:196-207 | each probability is its starting value when no line names it, and otherwise the value of the last line that names it |
| ContextualAi.ReadCarries | match-predictor/src/main/java/com/example/matchpredictor/service/ContextualAiService.java:191-207 | the three probabilities are the last named values or the defaults 33.33, 33.34 and 33.33 |
| ContextualAi.LastReasoningLineWins | match-predictor/src/main/java/com/example/matchpredictor/service/ContextualAiService.java:195-210 | the reasoning is the text of the last REASONING line, or the whole reply when there is none |
| ContextualAi.ContextualParse | match-predictor/src/main/java/com/example/matchpredictor/service/ContextualAiService.java:186-228 | about the fixture; either the neutral fallback or confidence 0.75 with each probability the value of the last line naming it or its default, and the reasoning the text of the last REASONING line or else the whole reply |
| ContextualAi.ParseContextualResponse | match-predictor/src/main/java/com/example/matchpredictor/service/ContextualAiService.java:186-228 | the parsing loop with its catch computes ContextualParse: the fallback on an unreadable line, otherwise the last values and reasoning |
| ContextualAi.AllOrNothing | match-predictor/src/main/java/com/example/matchpredictor/service/ContextualAiService.java:188-225 | confidence 0.75 exactly when no line is unreadable; otherwise the whole result is the fallback |
| ContextualAi.HomeWinNeedsSpace | match-predictor/src/main/java/com/example/matchpredictor/service/ContextualAiService.java:199 | a "HOME_WIN:" line without the space after the colon is ignored |
| ContextualAi.NoSlotWithoutSpace | match-predictor/src/main/java/com/example/matchpredictor/service/ContextualAiService.java:199-207 | such a line names no slot at all |
| ContextualAi.ReasoningDefaultsToReply | match-predictor/src/main/java/com/example/matchpredictor/service/ContextualAiService.java:195-210 | without a REASONING line the reasoning is the whole reply |
| ContextualAi.ContextualAiService.GenerateContextualPrediction | match-predictor/src/main/java/com/example/matchpredictor/service/ContextualAiService.java:36-80 | unknown match: "Match not found", nothing saved; model failure: the contextual error prefix, nothing saved; a context row the constraints reject: that message, nothing saved; a prediction row they reject: that message, the context row stays saved; otherwise the exchange is saved to the session and the parsed prediction, marked "llama3.2" with the parameters, is saved under a fresh id |
| ContextualAi.ContextualAiService.Record | match-predictor/src/main/java/com/example/matchpredictor/service/ContextualAiService.java:66-75 | a rejected context row saves nothing; a rejected prediction row keeps the appended context row and saves no prediction; both with the contextual error prefix; otherwise the exchange is appended and the prediction saved under a fresh id |
| ContextualAi.UserContextNeedsSession | match-predictor/src/main/java/com/example/matchpredictor/service/ContextualAiService.java:47-53 | the conversation row of a request is rejected exactly when the session id is blank, with "Session ID is required"; its user message is never blank |
| ChromaDb.OutcomeAgreesWithWinner | match-predictor/src/main/java/com/example/matchpredictor/service/ChromaDbService.java:454-468 | the outcome says draw, home win or away win exactly by the score comparison, and agrees with the winner's name |
| ChromaDb.Merge | match-predictor/src/main/java/com/example/matchpredictor/service/ChromaDbService.java:293-295 | counting a key adds one to that key only and one to the total |
| ChromaDb.MergeKeys | match-predictor/src/main/java/com/example/matchpredictor/service/ChromaDbService.java:293-295 | the counted keys grow by the key, and keys stay distinct |
| ChromaDb.SortByCount | match-predictor/src/main/java/com/example/matchpredictor/service/ChromaDbService.java:472 | the entries in descending count order, a permutation of the tally |
| ChromaDb.TopRanked | match-predictor/src/main/java/com/example/matchpredictor/service/ChromaDbService.java:470-477 | min(limit, entries) entries, descending, all from the tally, none smaller than an entry left out |
| ChromaDb.EntryTexts | match-predictor/src/main/java/com/example/matchpredictor/service/ChromaDbService.java:474 | one "name (count)" text per entry, in order |
| ChromaDb.TopEntries | match-predictor/src/main/java/com/example/matchpredictor/service/ChromaDbService.java:470-477 | "None" for an empty tally; otherwise the top entries joined by ", " |
| ChromaDb.SummarizeCounts | match-predictor/src/main/java/com/example/matchpredictor/service/ChromaDbService.java:288-305 | the analytics count every prediction once, each team appearance and league once, and correct ≤ evaluated ≤ predictions |
| ChromaDb.SummarizeKeysDistinct | match-predictor/src/main/java/com/example/matchpredictor/service/ChromaDbService.java:288-305 | each team and league is counted under one entry |
| ChromaDb.ChromaDbService.TallyPredictions | match-predictor/src/main/java/com/example/matchpredictor/service/ChromaDbService.java:288-305 | the counting loop computes the analytics tallies |
| ChromaDb.Performance | match-predictor/src/main/java/com/example/matchpredictor/service/ChromaDbService.java:326-328 | "Not enough data" exactly when nothing is evaluated; "Good" exactly when the accuracy is above 60 percent |
| ChromaDb.Report | match-predictor/src/main/java/com/example/matchpredictor/service/ChromaDbService.java:306-329 | no predictions: average confidence 0; nothing evaluated: accuracy "0.0" and "Not enough data" |
| ChromaDb.AnalyticsEntry | match-predictor/src/main/java/com/example/matchpredictor/service/ChromaDbService.java:308-339 | the analytics document goes to the analytics collection under its fixed id, and its report counts every prediction once, with correct ≤ evaluated ≤ predictions |
| ChromaDb.PredictionDocIdInjective | match-predictor/src/main/java/com/example/matchpredictor/service/ChromaDbService.java:168 | different prediction ids give different document ids |
| ChromaDb.MatchDocIdInjective | match-predictor/src/main/java/com/example/matchpredictor/service/ChromaDbService.java:224 | different match ids give different document ids |
| ChromaDb.DocIdSchemesDisjoint | match-predictor/src/main/java/com/example/matchpredictor/service/ChromaDbService.java:168-339 | prediction, match and analytics document ids never coincide |
| ChromaDb.DocumentIdsDistinct | match-predictor/src/main/java/com/example/matchpredictor/service/ChromaDbService.java:161-339 | no two stored documents of different rows share an id |
| ChromaDb.PredictionEntries | match-predictor/src/main/java/com/example/matchpredictor/service/ChromaDbService.java:130-135 | one document per prediction, in order: entry k is prediction k's document under "prediction_" and its id |
| ChromaDb.MatchEntries | match-predictor/src/main/java/com/example/matchpredictor/service/ChromaDbService.java:138-146 | one document per match, in order: entry k is match k's document, with its outcome and winner, under "match_" and its id |
| ChromaDb.ChromaDbService.Init | match-predictor/src/main/java/com/example/matchpredictor/service/ChromaDbService.java:30-156 | reachable: connected, then every prediction, every FINISHED match and the analytics document are added in that order; unreachable: disconnected and nothing sent |
| ChromaDb.ChromaDbService.StorePredictions | match-predictor/src/main/java/com/example/matchpredictor/service/ChromaDbService.java:130-135 | the loading loop adds one prediction document per prediction, in order, only when connected |
| ChromaDb.ChromaDbService.StoreMatchHistories | match-predictor/src/main/java/com/example/matchpredictor/service/ChromaDbService.java:138-146 | the loading loop adds one match document per match, in order, only when connected |
| ChromaDb.ChromaDbService.StorePrediction | match-predictor/src/main/java/com/example/matchpredictor/service/ChromaDbService.java:161-216 | connected: exactly one prediction document is added; otherwise nothing |
| ChromaDb.ChromaDbService.StoreMatchHistory | match-predictor/src/main/java/com/example/matchpredictor/service/ChromaDbService.java:220-270 | connected: exactly one match document is added; otherwise nothing |
| ChromaDb.ChromaDbService.GenerateAnalytics | match-predictor/src/main/java/com/example/matchpredictor/service/ChromaDbService.java:275-346 | connected: exactly the analytics document of the predictions is added; otherwise nothing |
| ChromaDb.ChromaDbService.SearchSimilarPredictions | match-predictor/src/main/java/com/example/matchpredictor/service/ChromaDbService.java:351-374 | not connected: the single "not connected" entry; a failed query: none; otherwise the store's documents |
| ChromaDb.ChromaDbService.GetPredictionsByTeam | match-predictor/src/main/java/com/example/matchpredictor/service/ChromaDbService.java:501-503 | the similar-prediction search for the team's analysis query |
| ChromaDb.ChromaDbService.GetHistoricalContext | match-predictor/src/main/java/com/example/matchpredictor/service/ChromaDbService.java:379-412 | not connected: the "no historical context" text; no documents: the "no relevant" text; otherwise the header and each document followed by a blank line |
| ChromaDb.ChromaDbService.PredictionCount | match-predictor/src/main/java/com/example/matchpredictor/service/ChromaDbService.java:481-489 | 0 when not connected, otherwise the store's count |
| ChromaDb.ChromaDbService.MatchHistoryCount | match-predictor/src/main/java/com/example/matchpredictor/service/ChromaDbService.java:491-499 | 0 when not connected, otherwise the store's count |
| ChromaDb.ChromaDbService.GetAnalytics | match-predictor/src/main/java/com/example/matchpredictor/service/ChromaDbService.java:417-451 | not connected: the flag and message only; connected: both counts, the latest analytics document exactly when the query answers with one, and the error entry exactly when the query fails |
| ChromaDb.ChromaDbService.GetStatusMessage | match-predictor/src/main/java/com/example/matchpredictor/service/ChromaDbService.java:505-511 | the "not connected" message, or the "ChromaDB connected - " line with the prediction count and the match-history count (StatusText) |
| ChromaDb.StatusTextTellsCounts | match-predictor/src/main/java/com/example/matchpredictor/service/ChromaDbService.java:509-510 | two status lines are equal exactly when both counts are equal |
| SimpleChat.MentionedTeam | match-predictor/src/main/java/com/example/matchpredictor/controller/SimpleChatController.java:112-123 | the loop finds the first team, in listing order, whose lower-cased name the message contains |
| SimpleChat.FirstWhere | match-predictor/src/main/java/com/example/matchpredictor/controller/SimpleChatController.java:137-147 | findFirst: none exactly when no element matches; otherwise the earliest match |
| SimpleChat.TeamListing | match-predictor/src/main/java/com/example/matchpredictor/controller/SimpleChatController.java:63-76 | no teams gives the "No teams found" reply; otherwise exactly "Available teams: " followed by the first ten teams' entries joined by ", ", then " and N more..." with N the teams beyond ten when there are more than ten |
| SimpleChat.MatchListing | match-predictor/src/main/java/com/example/matchpredictor/controller/SimpleChatController.java:79-92 | no upcoming matches gives the "No upcoming matches" reply; otherwise exactly "Upcoming matches:" followed by the first five entries "home vs away (league)", one per line |
| SimpleChat.TeamListingShape | match-predictor/src/main/java/com/example/matchpredictor/controller/SimpleChatController.java:69-75 | a non-empty team listing opens with its header, holds each of the first ten entries, ends with the " and N more..." tail or the last entry shown, and so is never the "No teams found" reply |
| SimpleChat.MatchListingShape | match-predictor/src/main/java/com/example/matchpredictor/controller/SimpleChatController.java:85-91 | a non-empty match listing opens with its header, holds each of the first five entries, ends with the last one shown, and so is never the "No upcoming matches" reply |
| SimpleChat.SuggestedNames | match-predictor/src/main/java/com/example/matchpredictor/controller/SimpleChatController.java:150-153 | the names suggested are those of the first five teams, in order |
| SimpleChat.UnknownTeamsReply | match-predictor/src/main/java/com/example/matchpredictor/controller/SimpleChatController.java:148-154 | exactly "I couldn't find both teams in the database. Available teams: " followed by the suggested names joined by ", "; it names each of the first five teams and is not the scheduled-match reply |
| SimpleChat.PredictionReply | match-predictor/src/main/java/com/example/matchpredictor/controller/SimpleChatController.java:133-196 | the scheduled-match reply for the fixture found exactly when both names resolve and a fixture between them is upcoming; both known without a fixture: the general reply for the two teams; an unknown name: the unknown-teams reply |
| SimpleChat.GeneralReply | match-predictor/src/main/java/com/example/matchpredictor/controller/SimpleChatController.java:185-195 | the general reply opens with "No scheduled match found between A and B, but here's my general analysis:" and is not the scheduled reply |
| SimpleChat.SecondQuery | match-predictor/src/main/java/com/example/matchpredictor/controller/SimpleChatController.java:103-105 | the second team name has no question mark |
| SimpleChat.GenerateResponse | match-predictor/src/main/java/com/example/matchpredictor/controller/SimpleChatController.java:47-131 | the cascade of keyword checks computes Reply: greeting, help, team listing, match listing, prediction, mention or default, in that order |
| SimpleChat.AnswerByName | match-predictor/src/main/java/com/example/matchpredictor/controller/SimpleChatController.java:111-130 | the team-mention step and the default reply compute NameReply |
| SimpleChat.SendMessage | match-predictor/src/main/java/com/example/matchpredictor/controller/SimpleChatController.java:31-45 | a missing or blank message gets the fixed prompt; otherwise Reply to the lower-cased message |
| SimpleChat.RespondToPrediction | match-predictor/src/main/java/com/example/matchpredictor/controller/SimpleChatController.java:95-108 | a "vs" message split in two parts is answered by PredictionReply of the two parts |
| SimpleChat.RespondByName | match-predictor/src/main/java/com/example/matchpredictor/controller/SimpleChatController.java:111-130 | a message no keyword catches is answered by name mention or the default |
| SimpleChat.TrimEmptyIffBlank | match-predictor/src/main/java/com/example/matchpredictor/controller/SimpleChatController.java:34 | trim gives the empty string exactly when every character is at most a space |
| SimpleChat.NotBlankIffTrimmed | match-predictor/src/main/java/com/example/matchpredictor/controller/SimpleChatController.java:34 | a message passes the entities' not-blank constraint exactly when its trimmed text is not empty |
| SimpleChat.ReplyIgnoresCase | match-predictor/src/main/java/com/example/matchpredictor/controller/SimpleChatController.java:34-40 | the upper-cased message is refused or answered exactly like the original |
| SimpleChat.PredictionNeedsVs | match-predictor/src/main/java/com/example/matchpredictor/controller/SimpleChatController.java:49-105 | a prediction is only attempted for a message containing "vs" that no earlier rule caught, and the second name has no "?" |
| SimpleChat.GreetingShadowsPrediction | match-predictor/src/main/java/com/example/matchpredictor/controller/SimpleChatController.java:49-51 | "who will win this: arsenal vs chelsea" contains "hi", so it gets the greeting and no prediction |
| SimpleChat.EmptyQueryFindsFirstTeam | match-predictor/src/main/java/com/example/matchpredictor/controller/SimpleChatController.java:137-141 | an empty name resolves to the first team, since every name contains "" |
| SimpleChat.FindTeamIgnoresCase | match-predictor/src/main/java/com/example/matchpredictor/controller/SimpleChatController.java:138-145 | the name lookup does not depend on case |
| SimpleChat.ScheduledReplyIgnoresOrder | match-predictor/src/main/java/com/example/matchpredictor/controller/SimpleChatController.java:157-182 | naming the two teams of a scheduled fixture in either order gives the same reply |
| Domain.FindFixtureBetween | match-predictor/src/main/java/com/example/matchpredictor/controller/TeamPredictionController.java:83-92 | none exactly when no upcoming match pairs the teams; otherwise the earliest such match |
| Domain.FindFixtureSymmetric | match-predictor/src/main/java/com/example/matchpredictor/controller/TeamPredictionController.java:85-90 | the lookup does not depend on which team is named first |
| Domain.FinishedOnly | match-predictor/src/main/java/com/example/matchpredictor/service/AiPredictionService.java:264 | exactly the matches whose status is FINISHED, each as often as in the input |
| Domain.FinishedOnlySnoc | match-predictor/src/main/java/com/example/matchpredictor/service/AiPredictionService.java:263-265 | the filter keeps the input order: one more match at the end adds it at the end exactly when it is finished |
| Domain.TeamViolation | match-predictor/src/main/java/com/example/matchpredictor/entity/Team.java:19-27 | a team may be stored exactly when its name is not blank and at most 100 characters and its country is not blank and at most 50; a blank name reports "Team name is required" |
| Domain.MatchViolation | match-predictor/src/main/java/com/example/matchpredictor/entity/Match.java:37-44 | a match may be stored exactly when its league is not blank and at most 100 characters and its venue, if any, is at most 100; a blank league reports "League is required" |
| Domain.PredictionViolation | match-predictor/src/main/java/com/example/matchpredictor/entity/AiPrediction.java:28-56 | a prediction may be stored exactly when the three probabilities lie in 0.00 to 100.00, the reasoning is not blank and the confidence, if any, lies in 0.00 to 1.00 |
| Domain.ContextViolation | match-predictor/src/main/java/com/example/matchpredictor/entity/ConversationContext.java:17-23 | a conversation row may be stored exactly when its session id and user message are not blank; a blank session id reports "Session ID is required" |
| TeamPrediction.PlanFor | match-predictor/src/main/java/com/example/matchpredictor/controller/TeamPredictionController.java:34-64 | refused exactly when a team is missing or both are the same team (a missing home team is reported first); a reused fixture is upcoming and pairs the teams; a created one is valid, from the home team's side, and only when none is scheduled |
| TeamPrediction.Chosen | match-predictor/src/main/java/com/example/matchpredictor/controller/TeamPredictionController.java:52-65 | a created fixture gets the next match id and the requested teams |
| TeamPrediction.CreatedFixtureNeedsShortName | match-predictor/src/main/java/com/example/matchpredictor/controller/TeamPredictionController.java:57-63 | the fixture the controller creates is rejected exactly when the home team's name is longer than 92 characters, since its venue is that name plus " Stadium", and then with the venue message |
| TeamPrediction.Answer | match-predictor/src/main/java/com/example/matchpredictor/controller/TeamPredictionController.java:67-80 | a 200 answer carries a prediction about that fixture with the saved id |
| TeamPrediction.PredictBetweenTeams | match-predictor/src/main/java/com/example/matchpredictor/controller/TeamPredictionController.java:34-81 | a refusal changes nothing; a fixture the Match constraints reject ends in a 500 "Error: " answer with that message and nothing changed; a reused fixture leaves the match table alone; a created one is added under the next id; a 200 answer is always about the two requested teams, and its prediction is saved under the next prediction id and added to the vector store when connected; a failed prediction saves and stores nothing |
| TeamPrediction.ProvideFixture | match-predictor/src/main/java/com/example/matchpredictor/controller/TeamPredictionController.java:49-65 | a fixture the Match constraints reject is an error carrying that message and the table is unchanged; otherwise the fixture used is a stored row: the scheduled one, or the one just created |
| TeamPrediction.Predict | match-predictor/src/main/java/com/example/matchpredictor/controller/TeamPredictionController.java:67-80 | the prediction call with its failure turned into the 500 answer; a 200 answer's prediction is saved under the next prediction id and added to the vector store when connected; any other answer saves and stores nothing |
| TeamPrediction.ExistingFixtureIgnoresOrder | match-predictor/src/main/java/com/example/matchpredictor/controller/TeamPredictionController.java:83-92 | swapping home and away finds the same scheduled fixture |
| TeamPrediction.SameTeamRefused | match-predictor/src/main/java/com/example/matchpredictor/controller/TeamPredictionController.java:45-47 | asking for a team against itself gets 400 "Teams must be different" |
| Matches.CreateMatchError | match-predictor/src/main/java/com/example/matchpredictor/service/MatchService.java:60-69 | a draft is accepted exactly when both teams are present and different; a missing team is reported as such |
| Matches.MatchService.GetMatchById | match-predictor/src/main/java/com/example/matchpredictor/service/MatchService.java:28-30 | present exactly when the id is stored, and then the stored match |
| Matches.MatchService.CreateMatch | match-predictor/src/main/java/com/example/matchpredictor/service/MatchService.java:60-77 | a draft missing or repeating a team changes nothing; one whose row breaks a Match constraint fails with that message and changes nothing; an accepted one is stored under a fresh id with status SCHEDULED when none was given; every stored row meets the constraints |
| Matches.MatchService.UpdateMatch | match-predictor/src/main/java/com/example/matchpredictor/service/MatchService.java:80-94 | unknown id: not found, nothing changes; details that break a Match constraint: that message, nothing changes; otherwise the details replace the row under the same id |
| Matches.MatchService.UpdateMatchResult | match-predictor/src/main/java/com/example/matchpredictor/service/MatchService.java:97-106 | unknown id: not found; otherwise the scores are set and the match becomes FINISHED |
| Matches.MatchService.DeleteMatch | match-predictor/src/main/java/com/example/matchpredictor/service/MatchService.java:109-114 | unknown id: not found, nothing changes; otherwise exactly that row is removed |
| Teams.InsertByName | match-predictor/src/main/java/com/example/matchpredictor/repository/TeamRepository.java:25-26 | inserting keeps the list sorted by name and adds exactly one team |
| Teams.TeamService.GetAllTeams | match-predictor/src/main/java/com/example/matchpredictor/service/TeamService.java:17-19 | every stored team exactly once, sorted by name, and nothing else |
| Teams.TeamService.GetTeamById | match-predictor/src/main/java/com/example/matchpredictor/service/TeamService.java:22-24 | present exactly when the id is stored, and then the stored team |
| Teams.TeamService.CreateTeam | match-predictor/src/main/java/com/example/matchpredictor/service/TeamService.java:37-42 | a taken name fails with "already exists" and changes nothing; a team that breaks a Team constraint fails with that message and changes nothing; otherwise the team is stored under a fresh id; names stay unique |
| Teams.TeamService.UpdateTeam | match-predictor/src/main/java/com/example/matchpredictor/service/TeamService.java:45-55 | unknown id: not found; an updated row that breaks a Team constraint: that message, nothing changes; otherwise name, country, logo and founding year are replaced and the id kept |
| Teams.TeamService.DeleteTeam | match-predictor/src/main/java/com/example/matchpredictor/service/TeamService.java:58-63 | unknown id: not found, nothing changes; otherwise exactly that row is removed |
| JavaString.Trim | match-predictor/src/main/java/com/example/matchpredictor/service/AiPredictionService.java:344 | the result is s with a run of characters at most a space stripped from each end, and has no such character at either end; a string without such characters is unchanged |
| JavaString.TrimIdempotent | match-predictor/src/main/java/com/example/matchpredictor/service/AiPredictionService.java:344 | trimming twice is trimming once |
| JavaString.Split | match-predictor/src/main/java/com/example/matchpredictor/service/AiPredictionService.java:341 | no separator: the whole string; otherwise the pieces with trailing empty pieces removed (SplitRestores states what the pieces rebuild) |
| JavaString.SplitAllJoins | match-predictor/src/main/java/com/example/matchpredictor/service/AiPredictionService.java:341 | joining all the pieces with the separator gives back the string |
| JavaString.SplitRestores | match-predictor/src/main/java/com/example/matchpredictor/service/AiPredictionService.java:341 | the kept pieces joined by the separator, followed by one separator per dropped trailing piece, give back the string; at most one piece more than separators |
| JavaString.SplitCountsOccurrences | match-predictor/src/main/java/com/example/matchpredictor/service/AiPredictionService.java:306 | split gives at most one piece more than there are separators, exactly that when the last piece is not empty |
| JavaString.ReplaceChar | match-predictor/src/main/java/com/example/matchpredictor/service/ContextualAiService.java:182 | replacing one character by another changes exactly that character everywhere |
| JavaString.ReplaceRemovesChar | match-predictor/src/main/java/com/example/matchpredictor/controller/SimpleChatController.java:104 | replacing a character by nothing leaves no occurrence of it |
| JavaString.IndexOf | match-predictor/src/main/java/com/example/matchpredictor/controller/SimpleChatController.java:114 | the first occurrence, or -1 exactly when there is none |
| JavaString.LowerOfUpper | match-predictor/src/main/java/com/example/matchpredictor/controller/SimpleChatController.java:40 | lower-casing an upper-cased string equals lower-casing it directly |
| Numbers.DigitsRoundTrip | match-predictor/src/main/java/com/example/matchpredictor/service/AiPredictionService.java:208 | the decimal digits of a number read back as that number |
| Numbers.IntToStringInjective | match-predictor/src/main/java/com/example/matchpredictor/service/AiPredictionService.java:74-75 | %d gives different text for different numbers |
| Numbers.ParseIntText | match-predictor/src/main/java/com/example/matchpredictor/service/AiPredictionService.java:347 | BigDecimal reads the %d text of an integer back as that integer |
| Numbers.ParseDecimal | match-predictor/src/main/java/com/example/matchpredictor/service/AiPredictionService.java:347-351 | empty text is rejected; an accepted value has the sign its text shows (ParsePointText states the value of "d.f" text) |
| Numbers.ParsePointText | match-predictor/src/main/java/com/example/matchpredictor/service/AiPredictionService.java:347-351 | BigDecimal reads "d.f" text, digits around a point, as the number its digits spell divided by 10 to the number of fraction digits |
| Numbers.RoundHalfUp | match-predictor/src/main/java/com/example/matchpredictor/service/AiPredictionService.java:230-238 | the quotient rounded half up: within half a unit of the exact ratio |
| Numbers.FormatFixed | match-predictor/src/main/java/com/example/matchpredictor/service/AiPredictionService.java:386 | the fixed-point text is never empty and starts with "-" exactly for a negative value (FormatFixedParsesBack ties the digits to num / den) |
| Numbers.FormatFixedValue | match-predictor/src/main/java/com/example/matchpredictor/service/AiPredictionService.java:386 | the text reads back as the half-up rounded magnitude, negated for a negative value |
| Numbers.FormatFixedParsesBack | match-predictor/src/main/java/com/example/matchpredictor/service/AiPredictionService.java:386 | the text always parses, and its value is within half a unit in its last place of num / den |

## Left out

- The language model call (Ollama) is a function parameter from prompt to reply or failure. The HTTP client, the model options and the network are not modelled.
- ChromaDB is reached through reflection in the source. Here it is the `VectorStore` input, which answers queries and counts, plus the connected flag. What the service sends is recorded as the sequence of `add` calls; embeddings and similarity ranking are not modelled.
- Repository query answers are inputs, in the order their queries promise: the upcoming matches, a team's matches and the matches between two teams. A session's recent context is computed by `ContextualAi.RecentContext` from the conversation rows. The query answers' SQL ordering by `matchDate` is not re-derived, and ties between equal kickoff times are not ordered. Conversation rows are kept in the order they were saved, which stands for their `createdAt` order.
- `LocalDateTime.now()`, `plusDays(7)`, `UUID.randomUUID()` and `createdAt` are parameters of the operations that use them.
- BigDecimal values are modelled as exact reals. Their scale is not kept, and the accepted text grammar is digits with an optional point, sign and exponent.
- `%.0f`, `%.1f` and `%.2f` on doubles are modelled by exact half-up rounding of the rational value. Binary floating-point error is not modelled. `String.format` uses the default locale, so on a JVM whose locale writes a decimal comma (for example German or French) the text has a comma where the model has a point; the model assumes a locale with a decimal point.
- An exception's message is modelled as the text that failed: the rejected number or the model's failure message. Java's own exception wording (e.g. NumberFormatException's) is not reproduced.
- `toLowerCase` and `toUpperCase` are modelled on ASCII letters only. Unicode case mapping is not modelled.
- Null ids, null team names and other null fields the code would dereference are not modelled. Null appears only where the code tests for it: status, venue, founded year, role, tone, additional context and session id.
- Logging (`System.out.println`) and the controllers' other endpoints are left out.
- RagPipeline.CountRetrievedMatches: the count is only bounded by the number of "Match"/"match" occurrences, and equals it when the context does not end in one. The exact count with trailing empty pieces removed is not stated.
- RagPipeline.PredictionStats: the accuracy is computed exactly from the two counts rather than as a double. The contract states the two cases and a non-negative number, not the digits.
- Matches.MatchService.UpdateMatch copies the details' fields as given, including a null status. The JPA merge of detached team references is not modelled.
- ChromaDb.ChromaDbService.GetAnalytics: the latest analytics document is the store's answer and is passed through unchecked. A failed analytics query sets the `error` flag, which stands for the map's "error" entry (ChromaDbService.java:446-448). The entry's text, the exception's message, is not modelled, because the store's failures carry no message.
- ChromaDb.TopEntries: entries with equal counts come out in the order their keys were first counted. The source sorts a `HashMap` entry set (ChromaDbService.java:470-477), so its order among ties follows hash order, and the listed text can differ when counts tie.
- ChromaDb.PredictionEntries: the `String.format` prediction document and its metadata map (ChromaDbService.java:130-135 and 161-216) are a constructor value holding the prediction. The document's wording is not modelled; its id, collection and place among the `add` calls are.
- ChromaDb.MatchEntries: the `String.format` match document and its metadata map (ChromaDbService.java:138-146 and 220-270) are a constructor value holding the match. The document's wording is not modelled; its id, collection and place among the `add` calls are.
- ChromaDb.AnalyticsEntry: the analytics document text and metadata (ChromaDbService.java:308-339) are a constructor value holding the tallies and the report. The document's wording is not modelled; its fixed id, collection and the tallies it carries are.
- ContextualAi.Summary: lengths count characters (code points). Java's `length()` and `substring(0, 200)` count UTF-16 units, so a response with characters outside the Basic Multilingual Plane, such as emoji, is cut at a different place.
- Teams.TeamService.GetAllTeams: `ORDER BY t.name ASC` is modelled as code-point order of the names (`Teams.SortedByName`). The database collation, which may order case and accents differently, is not modelled.
- Numbers.ParseDecimal: the value is stated for plain "d.f" text (digits, an optional point and digits) by `Numbers.ParsePointText`, and for `%d` text by `Numbers.ParseIntText`. Signed and exponent forms are parsed, but no lemma states their value.
- Bean validation at save time (`Domain.TeamViolation`, `Domain.MatchViolation`, `Domain.PredictionViolation`, `Domain.ContextViolation`): a row breaking several constraints is reported with the first one in field order. Java's ConstraintViolationException lists every violated constraint, in its own wording and in no fixed order.
- `@Size` limits count characters (code points). Java counts UTF-16 units, so names with characters outside the Basic Multilingual Plane reach the limits at a different length.
- Constraints that exist only as database column lengths (`status` at 20, `logo` at 255, `modelVersion`, `tone` and `role` at 50, `sessionId` at 100) are not modelled. Nor is the database's own rejection of such rows.
- Teams.TeamService.DeleteTeam: the cascade to the team's home and away matches (`CascadeType.ALL` on Team.java:40-44), and from them to their predictions, is not modelled. The team is removed from the team table only.
- Matches.MatchService.DeleteMatch: the cascade to the match's AI and user predictions (`CascadeType.ALL` on Match.java:59-67) is not modelled. The match is removed from the match table only.

=== FILE: chroma_db.dfy ===
/** The rules of ChromaDbService around the vector store: winner and outcome
    classification, the top-N ranking of tallies, the analytics tallies, the
    document ids, and the results it gives while not connected. The store is
    foreign: the documents a query returns and the counts it reports are a
    `VectorStore` parameter, and what the service sends to it is recorded as
    the sequence of `add` calls made. */
module ChromaDb {
  import opened Common
  import opened JavaString
  import opened Numbers
  import opened Domain

  // ---------------------------------------------------------------------
  // Winner and outcome of a finished match
  // ---------------------------------------------------------------------

  /** getWinner: the name of the side that scored more, else "Draw". */
  function Winner(m: Match): string {
    if m.homeScore > m.awayScore then m.homeTeam.name
    else if m.awayScore > m.homeScore then m.awayTeam.name
    else "Draw"
  }

  /** determineOutcome, with d = home score - away score. */
  function Outcome(m: Match): string {
    var d := m.homeScore - m.awayScore;
    if d > 0 then "Home win by " + IntToString(d) + " goal(s)"
    else if d < 0 then "Away win by " + IntToString(-d) + " goal(s)"
    else "Draw"
  }

  /** The number written in a win outcome: the text between "Home win by " or
      "Away win by " and " goal(s)". */
  function OutcomeGoals(outcome: string): string
    requires |outcome| >= 20
  {
    outcome[12..|outcome| - 8]
  }

  /** The outcome and the winner classify a match the same way, and the goal
      count in a win outcome reads back as the absolute goal difference. */
  lemma OutcomeAgreesWithWinner(m: Match)
    ensures Outcome(m) == "Draw" <==> m.homeScore == m.awayScore
    ensures StartsWith(Outcome(m), "Home win by ") <==> m.homeScore > m.awayScore
    ensures StartsWith(Outcome(m), "Away win by ") <==> m.homeScore < m.awayScore
    ensures StartsWith(Outcome(m), "Home win by ") ==> Winner(m) == m.homeTeam.name
    ensures StartsWith(Outcome(m), "Away win by ") ==> Winner(m) == m.awayTeam.name
    ensures Outcome(m) == "Draw" ==> Winner(m) == "Draw"
    ensures Outcome(m) != "Draw" ==>
      |Outcome(m)| >= 20 && ParseDecimal(OutcomeGoals(Outcome(m))) == Some(Magnitude(m.homeScore - m.awayScore) as real)
  {
    var d := m.homeScore - m.awayScore;
    var o := Outcome(m);
    if d != 0 {
      var n := Magnitude(d);
      var prefix := if d > 0 then "Home win by " else "Away win by ";
      assert o == prefix + IntToString(n) + " goal(s)";
      assert OutcomeGoals(o) == IntToString(n);
      ParseIntText(n);
      assert o[..12] == prefix;
      assert o != "Draw" by { assert |o| >= 20; }
    } else {
      assert !StartsWith(o, "Home win by ") && !StartsWith(o, "Away win by ");
    }
  }

  // ---------------------------------------------------------------------
  // Tallies (HashMap<String, Integer> updated with merge(key, 1, sum))
  // ---------------------------------------------------------------------

  /** Entries in first-insertion order. */
  type Tally = seq<(string, nat)>

  predicate DistinctKeys(t: Tally) {
    forall i, j :: 0 <= i < j < |t| ==> t[i].0 != t[j].0
  }

  /** The count held for `key`, 0 when absent. */
  function CountOf(t: Tally, key: string): nat {
    if t == [] then 0 else (if t[0].0 == key then t[0].1 else 0) + CountOf(t[1..], key)
  }

  /** The sum of all counts. */
  function Total(t: Tally): nat {
    if t == [] then 0 else t[0].1 + Total(t[1..])
  }

  function Keys(t: Tally): set<string> {
    set i | 0 <= i < |t| :: t[i].0
  }

  /** merge(key, 1, Integer::sum): one more for `key`, nothing else changes. */
  function Merge(t: Tally, key: string): (r: Tally)
    ensures CountOf(r, key) == CountOf(t, key) + 1
    ensures forall k :: k != key ==> CountOf(r, k) == CountOf(t, k)
    ensures Total(r) == Total(t) + 1
  {
    if t == [] then [(key, 1)]
    else if t[0].0 == key then [(key, t[0].1 + 1)] + t[1..]
    else
      var rest := Merge(t[1..], key);
      assert ([t[0]] + rest)[1..] == rest;
      [t[0]] + rest
  }

  lemma KeysCons(x: (string, nat), t: Tally)
    ensures Keys([x] + t) == {x.0} + Keys(t)
  {
    var r := [x] + t;
    assert r[0].0 == x.0;
    forall k | k in Keys(r) ensures k in {x.0} + Keys(t) {
      var i :| 0 <= i < |r| && r[i].0 == k;
      if i > 0 { assert t[i - 1].0 == k; }
    }
    forall k | k in Keys(t) ensures k in Keys(r) {
      var i :| 0 <= i < |t| && t[i].0 == k;
      assert r[i + 1].0 == k;
    }
  }

  lemma DistinctCons(x: (string, nat), t: Tally)
    requires DistinctKeys(t) && x.0 !in Keys(t)
    ensures DistinctKeys([x] + t)
  {
    var r := [x] + t;
    forall i, j | 0 <= i < j < |r| ensures r[i].0 != r[j].0 {
      assert r[j] == t[j - 1] && t[j - 1].0 in Keys(t);
      if i > 0 { assert r[i] == t[i - 1]; }
    }
  }

  /** Merging adds `key` to the keys and keeps every key held once. */
  lemma {:induction false} MergeKeys(t: Tally, key: string)
    ensures Keys(Merge(t, key)) == Keys(t) + {key}
    ensures DistinctKeys(t) ==> DistinctKeys(Merge(t, key))
  {
    if t == [] {
    } else if t[0].0 == key {
      KeysCons(t[0], t[1..]);
      KeysCons((key, t[0].1 + 1), t[1..]);
      assert t == [t[0]] + t[1..];
      if DistinctKeys(t) {
        assert DistinctKeys(t[1..]) by {
          forall i, j | 0 <= i < j < |t[1..]| ensures t[1..][i].0 != t[1..][j].0 {
            assert t[1..][i] == t[i + 1] && t[1..][j] == t[j + 1];
          }
        }
        assert key !in Keys(t[1..]) by {
          forall i | 0 <= i < |t[1..]| ensures t[1..][i].0 != key {
            assert t[1..][i] == t[i + 1];
          }
        }
        DistinctCons((key, t[0].1 + 1), t[1..]);
      }
    } else {
      MergeKeys(t[1..], key);
      var rest := Merge(t[1..], key);
      KeysCons(t[0], t[1..]);
      KeysCons(t[0], rest);
      assert t == [t[0]] + t[1..];
      if DistinctKeys(t) {
        assert DistinctKeys(t[1..]) by {
          forall i, j | 0 <= i < j < |t[1..]| ensures t[1..][i].0 != t[1..][j].0 {
            assert t[1..][i] == t[i + 1] && t[1..][j] == t[j + 1];
          }
        }
        assert t[0].0 !in Keys(t[1..]) by {
          forall i | 0 <= i < |t[1..]| ensures t[1..][i].0 != t[0].0 {
            assert t[1..][i] == t[i + 1];
          }
        }
        DistinctCons(t[0], rest);
      }
    }
  }

  // ---------------------------------------------------------------------
  // Top-N ranking (getTopEntries)
  // ---------------------------------------------------------------------

  predicate ByCountDescending(t: Tally) {
    forall i, j :: 0 <= i < j < |t| ==> t[i].1 >= t[j].1
  }

  /** An entry counting at least as much as every entry of a ranked list can
      go in front of it. */
  lemma RankedCons(x: (string, nat), rest: Tally)
    requires ByCountDescending(rest)
    requires forall j :: 0 <= j < |rest| ==> x.1 >= rest[j].1
    ensures ByCountDescending([x] + rest)
  {
    var r := [x] + rest;
    forall i, j | 0 <= i < j < |r| ensures r[i].1 >= r[j].1 {
      assert r[j] == rest[j - 1];
      if i > 0 { assert r[i] == rest[i - 1]; }
    }
  }

  /** Places `e` after every entry whose count is not below its own, so
      entries with equal counts keep their order. */
  function InsertByCount(s: Tally, e: (string, nat)): (r: Tally)
    requires ByCountDescending(s)
    ensures ByCountDescending(r)
    ensures multiset(r) == multiset(s) + multiset{e}
  {
    if s == [] then [e]
    else if s[0].1 < e.1 then
      RankedCons(e, s);
      [e] + s
    else
      var rest := InsertByCount(s[1..], e);
      assert s == [s[0]] + s[1..];
      forall j | 0 <= j < |rest| ensures s[0].1 >= rest[j].1 {
        assert rest[j] in multiset(rest);
        assert rest[j] == e || rest[j] in multiset(s[1..]);
      }
      RankedCons(s[0], rest);
      [s[0]] + rest
  }

  /** Stream.sorted(comparingByValue().reversed()): a stable sort by count,
      highest first. */
  function SortByCount(t: Tally): (r: Tally)
    ensures ByCountDescending(r)
    ensures multiset(r) == multiset(t)
  {
    if t == [] then []
    else
      var r := InsertByCount(SortByCount(t[..|t| - 1]), t[|t| - 1]);
      assert t == t[..|t| - 1] + [t[|t| - 1]];
      r
  }

  /** The at most `limit` highest entries, highest first: each comes from the
      tally, and no entry left out counts more than one kept. */
  function TopRanked(t: Tally, limit: nat): (r: Tally)
    ensures |r| == if |t| < limit then |t| else limit
    ensures ByCountDescending(r)
    ensures forall e :: e in r ==> e in t
    ensures forall e, x :: e in t && e !in r && x in r ==> x.1 >= e.1
  {
    var s := SortByCount(t);
    var r := if |s| <= limit then s else s[..limit];
    assert |s| == |multiset(s)| == |multiset(t)| == |t|;
    forall e | e in r ensures e in t {
      assert e in multiset(s);
    }
    forall e, x | e in t && e !in r && x in r ensures x.1 >= e.1 {
      assert e in multiset(t);
      var k :| 0 <= k < |s| && s[k] == e;
      var i :| 0 <= i < |r| && r[i] == x;
      assert k >= |r|;
    }
    r
  }

  function EntryText(e: (string, nat)): string {
    e.0 + " (" + NatToString(e.1) + ")"
  }

  function EntryTexts(t: Tally): (r: seq<string>)
    ensures |r| == |t|
    ensures forall i :: 0 <= i < |t| ==> r[i] == EntryText(t[i])
  {
    if t == [] then [] else [EntryText(t[0])] + EntryTexts(t[1..])
  }

  /** getTopEntries: "key (count)" for the top `limit` entries, joined with
      ", ", or "None" when there is none. */
  function TopEntries(t: Tally, limit: nat): (r: string)
    ensures t == [] || limit == 0 ==> r == "None"
    ensures t != [] && limit > 0 ==> r == Join(EntryTexts(TopRanked(t, limit)), ", ")
  {
    var top := TopRanked(t, limit);
    if top == [] then "None" else Join(EntryTexts(top), ", ")
  }

  // ---------------------------------------------------------------------
  // Analytics (generateAnalytics)
  // ---------------------------------------------------------------------

  /** The running totals of the analytics loop. */
  datatype Tallies = Tallies(
    predictions: nat,
    teams: Tally,
    leagues: Tally,
    confidenceSum: real,
    evaluated: nat,
    correct: nat)

  /** One iteration of the analytics loop. */
  function Tallied(a: Tallies, p: AiPrediction): Tallies {
    Tallies(
      a.predictions + 1,
      Merge(Merge(a.teams, p.fixture.homeTeam.name), p.fixture.awayTeam.name),
      Merge(a.leagues, p.fixture.league),
      a.confidenceSum + (if p.confidence.Some? then p.confidence.value else 0.0),
      a.evaluated + (if p.isCorrect.Some? then 1 else 0),
      a.correct + (if p.isCorrect == Some(true) then 1 else 0))
  }

  /** The totals after the loop has visited `ps` in order. */
  function Summarize(ps: seq<AiPrediction>): Tallies {
    if ps == [] then Tallies(0, [], [], 0.0, 0, 0)
    else Tallied(Summarize(ps[..|ps| - 1]), ps[|ps| - 1])
  }

  /** Counting one more prediction is one more step. */
  lemma SummarizeNext(ps: seq<AiPrediction>, i: nat)
    requires i < |ps|
    ensures Summarize(ps[..i + 1]) == Tallied(Summarize(ps[..i]), ps[i])
  {
    assert ps[..i + 1][..i] == ps[..i];
  }

  /** How often `name` appears as home or away team among the predictions. */
  function Appearances(ps: seq<AiPrediction>, name: string): nat {
    if ps == [] then 0
    else
      var p := ps[|ps| - 1];
      Appearances(ps[..|ps| - 1], name)
        + (if p.fixture.homeTeam.name == name then 1 else 0)
        + (if p.fixture.awayTeam.name == name then 1 else 0)
  }

  /** How many predictions are for a match of `league`. */
  function InLeague(ps: seq<AiPrediction>, league: string): nat {
    if ps == [] then 0
    else InLeague(ps[..|ps| - 1], league) + (if ps[|ps| - 1].fixture.league == league then 1 else 0)
  }

  /** Each prediction adds one to its league and one to each of its two
      teams, and only evaluated predictions can be correct. */
  lemma {:induction false} SummarizeCounts(ps: seq<AiPrediction>)
    ensures Summarize(ps).predictions == |ps|
    ensures Total(Summarize(ps).teams) == 2 * |ps|
    ensures Total(Summarize(ps).leagues) == |ps|
    ensures forall name :: CountOf(Summarize(ps).teams, name) == Appearances(ps, name)
    ensures forall league :: CountOf(Summarize(ps).leagues, league) == InLeague(ps, league)
    ensures Summarize(ps).correct <= Summarize(ps).evaluated <= |ps|
  {
    if ps != [] {
      SummarizeCounts(ps[..|ps| - 1]);
    }
  }

  /** The team and league tallies hold each name once. */
  lemma {:induction false} SummarizeKeysDistinct(ps: seq<AiPrediction>)
    ensures DistinctKeys(Summarize(ps).teams) && DistinctKeys(Summarize(ps).leagues)
  {
    if ps != [] {
      var a := Summarize(ps[..|ps| - 1]);
      var p := ps[|ps| - 1];
      SummarizeKeysDistinct(ps[..|ps| - 1]);
      MergeKeys(a.teams, p.fixture.homeTeam.name);
      MergeKeys(Merge(a.teams, p.fixture.homeTeam.name), p.fixture.awayTeam.name);
      MergeKeys(a.leagues, p.fixture.league);
    }
  }

  /** The verdict of the analytics document. */
  function Performance(correct: nat, evaluated: nat): (r: string)
    ensures r == "Not enough data" <==> evaluated == 0
    ensures r == "Good" <==> evaluated > 0 && correct * 100 > 60 * evaluated
  {
    if evaluated == 0 then "Not enough data"
    else if correct * 100 > 60 * evaluated then "Good"
    else "Needs improvement"
  }

  /** The figures of the analytics document. */
  datatype AnalyticsReport = AnalyticsReport(
    totalPredictions: nat,
    averageConfidence: real,
    evaluated: nat,
    correct: nat,
    accuracy: string,
    topTeams: string,
    topLeagues: string,
    performance: string)

  function Report(a: Tallies): (r: AnalyticsReport)
    ensures a.predictions == 0 ==> r.averageConfidence == 0.0
    ensures a.evaluated == 0 ==> r.accuracy == "0.0" && r.performance == "Not enough data"
  {
    AnalyticsReport(
      a.predictions,
      if a.predictions == 0 then 0.0 else a.confidenceSum / (a.predictions as real),
      a.evaluated,
      a.correct,
      if a.evaluated == 0 then "0.0" else FormatFixed(a.correct * 100, a.evaluated, 1),
      TopEntries(a.teams, 3),
      TopEntries(a.leagues, 3),
      Performance(a.correct, a.evaluated))
  }

  // ---------------------------------------------------------------------
  // Documents and their ids
  // ---------------------------------------------------------------------

  datatype Collection = PredictionCollection | MatchHistoryCollection | AnalyticsCollection

  /** What a stored document describes. */
  datatype Document =
    | PredictionDocument(prediction: AiPrediction)
    | MatchDocument(fixture: Match, outcome: string, winner: string)
    | AnalyticsDocument(report: AnalyticsReport)

  /** One `add` call: the collection, the document id and the document. */
  datatype Entry = Entry(collection: Collection, id: string, document: Document)

  const AnalyticsId := "analytics_latest"

  function PredictionEntry(p: AiPrediction): Entry {
    Entry(PredictionCollection, PredictionDocId(p.id), PredictionDocument(p))
  }

  function MatchEntry(m: Match): Entry {
    Entry(MatchHistoryCollection, MatchDocId(m.id), MatchDocument(m, Outcome(m), Winner(m)))
  }

  /** The document id of a prediction row, "prediction_" and its id. */
  function PredictionDocId(id: int): string {
    "prediction_" + IntToString(id)
  }

  /** The document id of a match row, "match_" and its id. */
  function MatchDocId(id: int): string {
    "match_" + IntToString(id)
  }

  /** The analytics document: the report of the tallies, stored in the
      analytics collection under its fixed id. */
  function AnalyticsEntry(ps: seq<AiPrediction>): (r: Entry)
    ensures r.collection == AnalyticsCollection && r.id == AnalyticsId && r.document.AnalyticsDocument?
    ensures r.document.report.totalPredictions == |ps|
    ensures r.document.report.correct <= r.document.report.evaluated <= |ps|
  {
    SummarizeCounts(ps);
    Entry(AnalyticsCollection, AnalyticsId, AnalyticsDocument(Report(Summarize(ps))))
  }

  /** A prediction's document id tells its row id back. */
  lemma PredictionDocIdInjective(a: int, b: int)
    ensures PredictionDocId(a) == PredictionDocId(b) ==> a == b
  {
    var pi, qi := PredictionDocId(a), PredictionDocId(b);
    if pi == qi {
      assert pi[11..] == IntToString(a) && qi[11..] == IntToString(b);
      IntToStringInjective(a, b);
    }
  }

  /** A match's document id tells its row id back. */
  lemma MatchDocIdInjective(c: int, d: int)
    ensures MatchDocId(c) == MatchDocId(d) ==> c == d
  {
    var mi, ni := MatchDocId(c), MatchDocId(d);
    if mi == ni {
      assert mi[6..] == IntToString(c) && ni[6..] == IntToString(d);
      IntToStringInjective(c, d);
    }
  }

  /** The three id schemes never meet. */
  lemma DocIdSchemesDisjoint(a: int, c: int)
    ensures PredictionDocId(a) != MatchDocId(c)
    ensures PredictionDocId(a) != AnalyticsId && MatchDocId(c) != AnalyticsId
  {
    var pi, mi := PredictionDocId(a), MatchDocId(c);
    assert pi[1] == 'r' && mi[1] == 'a';
    assert AnalyticsId[1] == 'n';
  }

  /** Document ids determine the row they came from: two predictions (or two
      matches) share an id only when their ids are equal, and the three id
      schemes never meet. */
  lemma DocumentIdsDistinct(p: AiPrediction, q: AiPrediction, m: Match, n: Match)
    ensures PredictionEntry(p).id == PredictionEntry(q).id ==> p.id == q.id
    ensures MatchEntry(m).id == MatchEntry(n).id ==> m.id == n.id
    ensures PredictionEntry(p).id != MatchEntry(m).id
    ensures PredictionEntry(p).id != AnalyticsId && MatchEntry(m).id != AnalyticsId
  {
    PredictionDocIdInjective(p.id, q.id);
    MatchDocIdInjective(m.id, n.id);
    DocIdSchemesDisjoint(p.id, m.id);
  }

  function PredictionEntries(ps: seq<AiPrediction>): (r: seq<Entry>)
    ensures |r| == |ps|
    ensures forall k :: 0 <= k < |r| ==> r[k] == PredictionEntry(ps[k])
  {
    if ps == [] then [] else PredictionEntries(ps[..|ps| - 1]) + [PredictionEntry(ps[|ps| - 1])]
  }

  function MatchEntries(ms: seq<Match>): (r: seq<Entry>)
    ensures |r| == |ms|
    ensures forall k :: 0 <= k < |r| ==> r[k] == MatchEntry(ms[k])
  {
    if ms == [] then [] else MatchEntries(ms[..|ms| - 1]) + [MatchEntry(ms[|ms| - 1])]
  }

  // ---------------------------------------------------------------------
  // The service
  // ---------------------------------------------------------------------

  /** What the vector store answers: the documents a query in a collection
      returns for a text and a result count (None when the call fails or
      yields no document list), and the count a collection reports (None when
      the call fails). */
  datatype VectorStore = VectorStore(
    query: (Collection, string, nat) -> Option<seq<string>>,
    count: Collection -> Option<int>)

  const NotConnected := "ChromaDB not connected"
  const ConnectedOpening := "ChromaDB connected - "

  /** The connected status line with both collection counts. */
  function StatusText(predictions: int, matches: int): string {
    ConnectedOpening + (IntToString(predictions) + (PredictionsWord + (IntToString(matches) + MatchesWord)))
  }

  const PredictionsWord := " predictions, "
  const MatchesWord := " matches in history"

  /** The status line tells both counts: different counts never give the
      same line. */
  lemma StatusTextTellsCounts(p1: int, m1: int, p2: int, m2: int)
    ensures StatusText(p1, m1) == StatusText(p2, m2) <==> p1 == p2 && m1 == m2
  {
    if StatusText(p1, m1) == StatusText(p2, m2) {
      var rest1 := PredictionsWord + (IntToString(m1) + MatchesWord);
      var rest2 := PredictionsWord + (IntToString(m2) + MatchesWord);
      DropCommonPrefix(ConnectedOpening, IntToString(p1) + rest1, IntToString(p2) + rest2);
      IntTextsBeforeSpace(p1, p2, rest1, rest2);
      DropCommonPrefix(PredictionsWord, IntToString(m1) + MatchesWord, IntToString(m2) + MatchesWord);
      IntTextsBeforeSpace(m1, m2, MatchesWord, MatchesWord);
    }
  }

  const NoHistoricalContext := "No historical context available."
  /** The marker the RAG service looks for to drop an empty history. */
  const NoRelevant := "No relevant"
  const NoRelevantContext := NoRelevant + " historical context found."
  const HistoryHeader := "=== HISTORICAL CONTEXT FROM CHROMADB ===\n\n"

  function HistoryQuery(homeTeam: string, awayTeam: string): string {
    "matches between " + homeTeam + " and " + awayTeam + ", their results and performance patterns"
  }

  /** Each document followed by a blank line. */
  function HistoryBlocks(docs: seq<string>): string {
    if docs == [] then [] else HistoryBlocks(docs[..|docs| - 1]) + docs[|docs| - 1] + "\n\n"
  }

  /** The analytics map of getAnalytics. `error` stands for the "error"
      entry the map gets when the analytics query throws. */
  datatype AnalyticsView = AnalyticsView(
    connected: bool,
    message: Option<string>,
    predictionCount: Option<int>,
    matchHistoryCount: Option<int>,
    summary: Option<string>,
    error: bool)

  const AnalyticsQuery := "latest analytics summary"

  class ChromaDbService {
    var connected: bool
    /** Every `add` call sent to the store, oldest first. */
    var added: seq<Entry>

    constructor()
      ensures !connected && added == []
    {
      connected := false;
      added := [];
    }

    /** init and initializeCollections: when the store is reachable, the
        service is connected and loads every prediction, every FINISHED match
        and the analytics document; otherwise it stays disconnected and sends
        nothing. */
    method Init(reachable: bool, predictions: seq<AiPrediction>, matches: seq<Match>)
      modifies this
      ensures connected == reachable
      ensures reachable ==> added == old(added) + PredictionEntries(predictions)
                                   + MatchEntries(FinishedOnly(matches)) + [AnalyticsEntry(predictions)]
      ensures !reachable ==> added == old(added)
    {
      connected := reachable;
      if !connected {
        return;
      }
      StorePredictions(predictions);
      StoreMatchHistories(FinishedOnly(matches));
      GenerateAnalytics(predictions);
    }

    /** The loading loop over all predictions. */
    method StorePredictions(predictions: seq<AiPrediction>)
      modifies this
      ensures connected == old(connected)
      ensures connected ==> added == old(added) + PredictionEntries(predictions)
      ensures !connected ==> added == old(added)
    {
      for i := 0 to |predictions|
        invariant connected == old(connected)
        invariant connected ==> added == old(added) + PredictionEntries(predictions[..i])
        invariant !connected ==> added == old(added)
      {
        assert predictions[..i + 1][..i] == predictions[..i];
        StorePrediction(predictions[i]);
      }
      assert predictions[..|predictions|] == predictions;
    }

    /** The loading loop over the finished matches. */
    method StoreMatchHistories(matches: seq<Match>)
      modifies this
      ensures connected == old(connected)
      ensures connected ==> added == old(added) + MatchEntries(matches)
      ensures !connected ==> added == old(added)
    {
      for i := 0 to |matches|
        invariant connected == old(connected)
        invariant connected ==> added == old(added) + MatchEntries(matches[..i])
        invariant !connected ==> added == old(added)
      {
        assert matches[..i + 1][..i] == matches[..i];
        StoreMatchHistory(matches[i]);
      }
      assert matches[..|matches|] == matches;
    }

    /** storePrediction: adds the document "prediction_<id>" when connected. */
    method StorePrediction(p: AiPrediction)
      modifies this
      ensures connected == old(connected)
      ensures connected ==> added == old(added) + [PredictionEntry(p)]
      ensures !connected ==> added == old(added)
    {
      if connected {
        added := added + [PredictionEntry(p)];
      }
    }

    /** storeMatchHistory: adds the document "match_<id>" when connected. */
    method StoreMatchHistory(m: Match)
      modifies this
      ensures connected == old(connected)
      ensures connected ==> added == old(added) + [MatchEntry(m)]
      ensures !connected ==> added == old(added)
    {
      if connected {
        added := added + [MatchEntry(m)];
      }
    }

    /** generateAnalytics: tallies every prediction and, when connected, adds
        the report as "analytics_latest". */
    method GenerateAnalytics(predictions: seq<AiPrediction>)
      modifies this
      ensures connected == old(connected)
      ensures connected ==> added == old(added) + [AnalyticsEntry(predictions)]
      ensures !connected ==> added == old(added)
    {
      if !connected {
        return;
      }
      var summary := TallyPredictions(predictions);
      added := added + [Entry(AnalyticsCollection, AnalyticsId, AnalyticsDocument(Report(summary)))];
    }

    /** The counting loop of generateAnalytics, proved to compute Summarize. */
    static method TallyPredictions(predictions: seq<AiPrediction>) returns (summary: Tallies)
      ensures summary == Summarize(predictions)
    {
      var teamCount: Tally := [];
      var leagueCount: Tally := [];
      var totalConfidence := 0.0;
      var correct, evaluated := 0, 0;
      for i := 0 to |predictions|
        invariant Tallies(i, teamCount, leagueCount, totalConfidence, evaluated, correct)
                  == Summarize(predictions[..i])
      {
        var p := predictions[i];
        SummarizeNext(predictions, i);
        ghost var next := Summarize(predictions[..i + 1]);
        teamCount := Merge(teamCount, p.fixture.homeTeam.name);
        teamCount := Merge(teamCount, p.fixture.awayTeam.name);
        leagueCount := Merge(leagueCount, p.fixture.league);
        assert teamCount == next.teams && leagueCount == next.leagues;
        if p.confidence.Some? {
          totalConfidence := totalConfidence + p.confidence.value;
        }
        assert totalConfidence == next.confidenceSum;
        if p.isCorrect.Some? {
          evaluated := evaluated + 1;
          if p.isCorrect.value {
            correct := correct + 1;
          }
        }
        assert evaluated == next.evaluated && correct == next.correct;
      }
      assert predictions[..|predictions|] == predictions;
      summary := Tallies(|predictions|, teamCount, leagueCount, totalConfidence, evaluated, correct);
    }

    /** searchSimilarPredictions: the store's documents when connected (none
        when the query fails); the single sentinel entry otherwise. */
    function SearchSimilarPredictions(query: string, limit: nat, store: VectorStore): (r: seq<string>)
      reads this
      ensures !connected ==> r == [NotConnected]
      ensures connected && store.query(PredictionCollection, query, limit).None? ==> r == []
      ensures connected && store.query(PredictionCollection, query, limit).Some? ==>
        r == store.query(PredictionCollection, query, limit).value
    {
      if !connected then [NotConnected]
      else
        match store.query(PredictionCollection, query, limit)
        case None => []
        case Some(docs) => docs
    }

    /** getPredictionsByTeam. */
    function GetPredictionsByTeam(teamName: string, limit: nat, store: VectorStore): (r: seq<string>)
      reads this
      ensures r == SearchSimilarPredictions(teamName + " predictions analysis", limit, store)
      ensures !connected ==> r == [NotConnected]
    {
      SearchSimilarPredictions(teamName + " predictions analysis", limit, store)
    }

    /** getHistoricalContext: asks the match history for the top 5 documents
        and lists them under a header, each followed by a blank line. */
    method GetHistoricalContext(homeTeam: string, awayTeam: string, store: VectorStore) returns (r: string)
      ensures !connected ==> r == NoHistoricalContext
      ensures connected ==>
        var docs := store.query(MatchHistoryCollection, HistoryQuery(homeTeam, awayTeam), 5);
        if docs.None? || docs.value == [] then r == NoRelevantContext
        else r == HistoryHeader + HistoryBlocks(docs.value)
    {
      if !connected {
        return NoHistoricalContext;
      }
      var docs := store.query(MatchHistoryCollection, HistoryQuery(homeTeam, awayTeam), 5);
      if docs.None? || docs.value == [] {
        return NoRelevantContext;
      }
      var context := HistoryHeader;
      for i := 0 to |docs.value|
        invariant context == HistoryHeader + HistoryBlocks(docs.value[..i])
      {
        assert docs.value[..i + 1][..i] == docs.value[..i];
        context := context + docs.value[i] + "\n\n";
      }
      assert docs.value[..|docs.value|] == docs.value;
      r := context;
    }

    /** getPredictionCount: the store's count when connected, else 0. */
    function PredictionCount(store: VectorStore): (r: int)
      reads this
      ensures !connected ==> r == 0
      ensures connected && store.count(PredictionCollection).Some? ==> r == store.count(PredictionCollection).value
    {
      if connected && store.count(PredictionCollection).Some? then store.count(PredictionCollection).value else 0
    }

    /** getMatchHistoryCount: the store's count when connected, else 0. */
    function MatchHistoryCount(store: VectorStore): (r: int)
      reads this
      ensures !connected ==> r == 0
      ensures connected && store.count(MatchHistoryCollection).Some? ==> r == store.count(MatchHistoryCollection).value
    {
      if connected && store.count(MatchHistoryCollection).Some? then store.count(MatchHistoryCollection).value else 0
    }

    /** getAnalytics: connected=false and a message when not connected;
        otherwise both counts and, when the store has one, the latest
        analytics document; a failed query adds the error entry instead. */
    function GetAnalytics(store: VectorStore): (r: AnalyticsView)
      reads this
      ensures r.connected == connected
      ensures !connected ==> r == AnalyticsView(false, Some(NotConnected), None, None, None, false)
      ensures connected ==> r.message.None?
                            && r.predictionCount == Some(PredictionCount(store))
                            && r.matchHistoryCount == Some(MatchHistoryCount(store))
      ensures connected ==> (r.error <==> store.query(AnalyticsCollection, AnalyticsQuery, 1).None?)
      ensures r.error ==> r.summary.None?
      ensures r.summary.Some? <==>
                connected && store.query(AnalyticsCollection, AnalyticsQuery, 1).Some?
                && store.query(AnalyticsCollection, AnalyticsQuery, 1).value != []
      ensures r.summary.Some? ==> r.summary.value == store.query(AnalyticsCollection, AnalyticsQuery, 1).value[0]
    {
      if !connected then AnalyticsView(false, Some(NotConnected), None, None, None, false)
      else
        var latest := store.query(AnalyticsCollection, AnalyticsQuery, 1);
        AnalyticsView(true, None, Some(PredictionCount(store)), Some(MatchHistoryCount(store)),
                      if latest.Some? && latest.value != [] then Some(latest.value[0]) else None,
                      latest.None?)
    }

    /** getStatusMessage. */
    function GetStatusMessage(store: VectorStore): (r: string)
      reads this
      ensures !connected ==> r == NotConnected
      ensures connected ==> StartsWith(r, ConnectedOpening)
      ensures connected ==> r == StatusText(PredictionCount(store), MatchHistoryCount(store))
    {
      if !connected then NotConnected
      else
        var r := StatusText(PredictionCount(store), MatchHistoryCount(store));
        assert r[..|ConnectedOpening|] == ConnectedOpening;
        r
    }
  }
}

=== FILE: common.dfy ===
/** Option and Result values used where the Java code returns null, an
    Optional, or throws a RuntimeException. */
module Common {

  datatype Option<+T> = None | Some(value: T)

  /** `Err(message)` stands for a RuntimeException carrying `message`. */
  datatype Result<+T> = Ok(value: T) | Err(message: string)
}

=== FILE: contextual_ai.dfy ===
/** ContextualAiService: predictions whose prompt carries a persona chosen by
    role, a tone instruction, and the last five exchanges of the same
    conversation session (the service's memory). Its reply parser differs
    from the RAG one: prefixes are matched case-insensitively, only the last
    REASONING line is kept, and one unreadable value discards everything the
    reply said. The conversation table is a sequence in save order; the
    language model is a function from prompt to reply, and the UUID drawn
    for a request without a session is a parameter. */
module ContextualAi {
  import opened Common
  import opened JavaString
  import opened Numbers
  import opened Domain
  import opened RagParser
  import Matches

  // ---------------------------------------------------------------------
  // Persona and tone
  // ---------------------------------------------------------------------

  const CoachPersona := "You are an experienced football coach analyzing this match from a tactical perspective.  Focus on formations, player matchups, and strategic advantages."
  const FanPersona := "You are an enthusiastic football fan providing an engaging and passionate prediction. Share your excitement and gut feelings about the match."
  const StatisticianPersona := "You are a data-driven sports statistician.  Base your analysis primarily on historical data, head-to-head records, and statistical trends."
  const AnalystPersona := "You are a professional football analyst providing expert match predictions based on comprehensive analysis. "

  /** getRolePersona: the persona for the lower-cased role; a missing role is
      "analyst", and any role not listed gets the analyst persona. */
  function RolePersona(role: Option<string>): (r: string)
    ensures role.None? ==> r == AnalystPersona
    ensures role.Some? && ToLower(role.value) == "coach" ==> r == CoachPersona
    ensures role.Some? && ToLower(role.value) == "fan" ==> r == FanPersona
    ensures role.Some? && ToLower(role.value) == "statistician" ==> r == StatisticianPersona
    ensures role.Some? && ToLower(role.value) !in {"coach", "fan", "statistician"} ==> r == AnalystPersona
  {
    var name := ToLower(if role.None? then "analyst" else role.value);
    if name == "coach" then CoachPersona
    else if name == "fan" then FanPersona
    else if name == "statistician" then StatisticianPersona
    else AnalystPersona
  }

  const CasualTone := "Respond in a casual, friendly manner.  Use conversational language."
  const DetailedTone := "Provide an extremely detailed and thorough analysis. Leave no stone unturned."
  const BriefTone := "Keep your response concise and to the point. Focus only on key factors."
  const ProfessionalTone := "Maintain a professional and balanced tone in your analysis."

  /** getToneInstruction: the instruction for the lower-cased tone; a missing
      tone is "professional", and any tone not listed gets the professional
      instruction. */
  function ToneInstruction(tone: Option<string>): (r: string)
    ensures tone.None? ==> r == ProfessionalTone
    ensures tone.Some? && ToLower(tone.value) == "casual" ==> r == CasualTone
    ensures tone.Some? && ToLower(tone.value) == "detailed" ==> r == DetailedTone
    ensures tone.Some? && ToLower(tone.value) == "brief" ==> r == BriefTone
    ensures tone.Some? && ToLower(tone.value) !in {"casual", "detailed", "brief"} ==> r == ProfessionalTone
  {
    var name := ToLower(if tone.None? then "professional" else tone.value);
    if name == "casual" then CasualTone
    else if name == "detailed" then DetailedTone
    else if name == "brief" then BriefTone
    else ProfessionalTone
  }

  /** Role and tone are read without regard to case. */
  lemma PersonaAndToneIgnoreCase(s: string)
    ensures RolePersona(Some(ToUpper(s))) == RolePersona(Some(s)) == RolePersona(Some(ToLower(s)))
    ensures ToneInstruction(Some(ToUpper(s))) == ToneInstruction(Some(s)) == ToneInstruction(Some(ToLower(s)))
  {
    LowerOfUpper(s);
    ToLowerIdempotent(s);
  }

  // ---------------------------------------------------------------------
  // Conversation memory
  // ---------------------------------------------------------------------

  /** The sequence in reverse order. */
  function Reversed<T>(s: seq<T>): (r: seq<T>)
    ensures |r| == |s|
    ensures forall k :: 0 <= k < |s| ==> r[k] == s[|s| - 1 - k]
  {
    if s == [] then [] else Reversed(s[1..]) + [s[0]]
  }

  lemma ReversedTwice<T>(s: seq<T>)
    ensures Reversed(Reversed(s)) == s
  {
    var r := Reversed(Reversed(s));
    assert forall k :: 0 <= k < |s| ==> r[k] == s[k];
  }

  /** Reversing keeps the elements. */
  lemma ReversedElements<T>(s: seq<T>)
    ensures forall x :: x in Reversed(s) <==> x in s
  {
    var r := Reversed(s);
    forall x | x in s
      ensures x in r
    {
      var k :| 0 <= k < |s| && s[k] == x;
      assert r[|s| - 1 - k] == x;
    }
  }

  /** Collections.reverse on the history array. */
  method Reverse<T>(a: array<T>)
    modifies a
    ensures a[..] == Reversed(old(a[..]))
  {
    var i, j := 0, a.Length - 1;
    while i < j
      invariant 0 <= i <= j + 1 <= a.Length
      invariant i + j == a.Length - 1
      invariant forall k :: 0 <= k < i ==> a[k] == old(a[a.Length - 1 - k])
      invariant forall k :: j < k < a.Length ==> a[k] == old(a[a.Length - 1 - k])
      invariant forall k :: i <= k <= j ==> a[k] == old(a[k])
    {
      a[i], a[j] := a[j], a[i];
      i, j := i + 1, j - 1;
    }
    assert forall k :: 0 <= k < a.Length ==> a[k] == Reversed(old(a[..]))[k];
  }

  /** The rows of one session, in save order. */
  function SessionRows(rows: seq<ConversationContext>, sessionId: string): (r: seq<ConversationContext>)
    ensures |r| <= |rows|
    ensures forall c :: c in r <==> c in rows && c.sessionId == sessionId
  {
    if rows == [] then []
    else
      var last := rows[|rows| - 1];
      var r := SessionRows(rows[..|rows| - 1], sessionId);
      assert forall c :: c in rows <==> c in rows[..|rows| - 1] || c == last;
      if last.sessionId == sessionId then r + [last] else r
  }

  const MemoryLength := 5

  /** findRecentContext with a page of five: the session's latest rows,
      newest first. */
  function RecentContext(rows: seq<ConversationContext>, sessionId: string): (r: seq<ConversationContext>)
    ensures |r| <= MemoryLength
    ensures forall c :: c in r ==> c in rows && c.sessionId == sessionId
    ensures var mine := SessionRows(rows, sessionId);
            && |r| == (if |mine| < MemoryLength then |mine| else MemoryLength)
            && forall k :: 0 <= k < |r| ==> r[k] == mine[|mine| - 1 - k]
  {
    var mine := SessionRows(rows, sessionId);
    var r := Reversed(mine[if |mine| > MemoryLength then |mine| - MemoryLength else 0..]);
    assert forall c :: c in r ==> c in mine;
    r
  }

  /** getConversationHistory: every row of the session, newest first. */
  function ConversationHistory(rows: seq<ConversationContext>, sessionId: string): (r: seq<ConversationContext>)
    ensures forall c :: c in r <==> c in rows && c.sessionId == sessionId
    ensures var mine := SessionRows(rows, sessionId);
            |r| == |mine| && forall k :: 0 <= k < |r| ==> r[k] == mine[|mine| - 1 - k]
  {
    var mine := SessionRows(rows, sessionId);
    ReversedElements(mine);
    Reversed(mine)
  }

  /** A saved exchange is the first one the session's next prompt recalls. */
  lemma SavedExchangeIsRecalled(rows: seq<ConversationContext>, row: ConversationContext)
    ensures RecentContext(rows + [row], row.sessionId) != []
    ensures RecentContext(rows + [row], row.sessionId)[0] == row
  {
    var mine := SessionRows(rows + [row], row.sessionId);
    assert (rows + [row])[..|rows + [row]| - 1] == rows;
    assert mine == SessionRows(rows, row.sessionId) + [row];
  }

  // ---------------------------------------------------------------------
  // The contextual prompt
  // ---------------------------------------------------------------------

  const SummaryLength := 200

  /** A previous reply cut to its first 200 characters, with "..." when it
      was longer. */
  function Summary(response: string): (r: string)
    ensures |response| <= SummaryLength ==> r == response
    ensures |response| > SummaryLength ==>
      && |r| == SummaryLength + 3
      && StartsWith(response, r[..SummaryLength])
      && r[SummaryLength..] == "..."
  {
    if |response| > SummaryLength then
      var r := response[..SummaryLength] + "...";
      assert r[SummaryLength..] == "...";
      r
    else response
  }

  /** The lines one recalled exchange contributes. */
  function ExchangeText(c: ConversationContext): string {
    "User asked: " + c.userMessage + "\n"
    + (if c.aiResponse.Some? then "You responded: " + Summary(c.aiResponse.value) + "\n\n" else "")
  }

  function Exchanges(history: seq<ConversationContext>): string {
    if history == [] then []
    else Exchanges(history[..|history| - 1]) + ExchangeText(history[|history| - 1])
  }

  const HistoryOpen := "=== PREVIOUS CONVERSATION CONTEXT ===\n"
  const HistoryClose := "=== NOW CONTINUING THE CONVERSATION ===\n\n"

  function MatchDetails(fixture: Match): string {
    "Match Details:\n"
    + "- Home Team: " + fixture.homeTeam.name + " (" + fixture.homeTeam.country + ")\n"
    + "- Away Team: " + fixture.awayTeam.name + " (" + fixture.awayTeam.country + ")\n"
    + "- League: " + fixture.league + "\n"
    + "- Venue: " + (if fixture.venue.Some? then fixture.venue.value else "TBD") + "\n"
    + "- Date: " + fixture.matchDate.text + "\n"
  }

  /** The focus line, present only for a non-empty additional context. */
  function Focus(additional: Option<string>): string {
    if additional.Some? && additional.value != [] then "\nUser's specific focus: " + additional.value + "\n"
    else []
  }

  /** The closing request for the three probabilities and the reply format, line by line. */
  const FormatLines := [
    "\n",
    "Please provide:\n",
    "1. Home Win Probability (0-100)\n",
    "2. Draw Probability (0-100)\n",
    "3. Away Win Probability (0-100)\n",
    "4. Reasoning based on your role and the requested tone\n",
    "\n",
    "Format your response as:\n",
    "HOME_WIN:  [percentage]\n",
    "DRAW: [percentage]\n",
    "AWAY_WIN: [percentage]\n",
    "REASONING: [your analysis]\n",
    "\n",
    "Make sure the probabilities add up to 100.\n"
  ]

  const OutputFormat := Concat(FormatLines)

  function PromptClosing(fixture: Match, request: ContextualPredictionRequest): string {
    "\n\n" + MatchDetails(fixture) + Focus(request.additionalContext) + OutputFormat
  }

  /** The recalled exchanges, oldest first, between the two markers; empty
      when the session has none. */
  function HistoryBlock(recent: seq<ConversationContext>): string {
    if recent == [] then [] else HistoryOpen + Exchanges(Reversed(recent)) + HistoryClose
  }

  /** The order of the prompt's parts. */
  function Compose(persona: string, history: string, tone: string, closing: string): string {
    persona + "\n\n" + history + tone + closing
  }

  lemma ComposeShape(persona: string, history: string, tone: string, closing: string)
    ensures StartsWith(Compose(persona, history, tone, closing), persona + "\n\n")
    ensures Contains(Compose(persona, history, tone, closing), tone)
    ensures Contains(Compose(persona, history, tone, closing), history)
  {
    var p := Compose(persona, history, tone, closing);
    var head := persona + "\n\n";
    assert p == head + history + (tone + closing);
    assert p[..|head|] == head;
    ContainsInfix(head, history, tone + closing);
    assert p == (head + history) + tone + closing;
    ContainsInfix(head + history, tone, closing);
  }

  /** buildContextualPrompt, given the rows findRecentContext returned. */
  function ContextualPrompt(fixture: Match, request: ContextualPredictionRequest,
                            recent: seq<ConversationContext>): string
  {
    Compose(RolePersona(request.role), HistoryBlock(recent), ToneInstruction(request.tone),
            PromptClosing(fixture, request))
  }

  /** The prompt opens with the persona, states the tone, and recalls the
      session's exchanges oldest first, so the newest one comes last, right
      before the closing marker. */
  lemma PromptShape(fixture: Match, request: ContextualPredictionRequest, recent: seq<ConversationContext>)
    ensures StartsWith(ContextualPrompt(fixture, request, recent), RolePersona(request.role) + "\n\n")
    ensures Contains(ContextualPrompt(fixture, request, recent), ToneInstruction(request.tone))
    ensures recent != [] ==>
      Contains(ContextualPrompt(fixture, request, recent), ExchangeText(recent[0]) + HistoryClose)
  {
    var history := HistoryBlock(recent);
    ComposeShape(RolePersona(request.role), history, ToneInstruction(request.tone), PromptClosing(fixture, request));
    if recent != [] {
      NewestRecalledLast(recent);
      ContainsTransitive(ContextualPrompt(fixture, request, recent), history, ExchangeText(recent[0]) + HistoryClose);
    }
  }

  lemma NewestRecalledLast(recent: seq<ConversationContext>)
    requires recent != []
    ensures Contains(HistoryBlock(recent), ExchangeText(recent[0]) + HistoryClose)
  {
    var h := Reversed(recent);
    assert h[|h| - 1] == recent[0];
    var before := HistoryOpen + Exchanges(h[..|h| - 1]);
    assert HistoryBlock(recent) == before + (ExchangeText(recent[0]) + HistoryClose) + [];
    ContainsInfix(before, ExchangeText(recent[0]) + HistoryClose, []);
  }

  /** buildContextualPrompt: the persona, the recalled history, the tone,
      then the closing parts. */
  method BuildContextualPrompt(fixture: Match, request: ContextualPredictionRequest,
                               recent: seq<ConversationContext>) returns (prompt: string)
    ensures prompt == ContextualPrompt(fixture, request, recent)
  {
    prompt := RolePersona(request.role) + "\n\n";
    var history := RecallHistory(recent);
    prompt := prompt + history;
    prompt := prompt + ToneInstruction(request.tone);
    prompt := prompt + PromptClosing(fixture, request);
  }

  /** The history step: copies the recalled rows into an array, reverses it
      in place and writes the exchanges oldest first between the markers. */
  method RecallHistory(recent: seq<ConversationContext>) returns (text: string)
    ensures text == HistoryBlock(recent)
  {
    if recent == [] {
      return [];
    }
    var history := new ConversationContext[|recent|](i requires 0 <= i < |recent| => recent[i]);
    assert history[..] == recent;
    Reverse(history);
    var exchanges := WriteExchanges(history);
    text := HistoryOpen + exchanges + HistoryClose;
  }

  method WriteExchanges(history: array<ConversationContext>) returns (text: string)
    ensures text == Exchanges(history[..])
  {
    text := [];
    for i := 0 to history.Length
      invariant text == Exchanges(history[..i])
    {
      assert history[..i + 1][..i] == history[..i];
      text := text + ExchangeText(history[i]);
    }
    assert history[..history.Length] == history[..];
  }

  // ---------------------------------------------------------------------
  // Parameters
  // ---------------------------------------------------------------------

  /** The additional context with every double quote turned into a single
      quote, as it goes into the parameters JSON. */
  function Unquoted(s: string): (r: string)
    ensures |r| == |s| && '"' !in r
    ensures forall k :: 0 <= k < |s| ==> r[k] == if s[k] == '"' then '\'' else s[k]
  {
    ReplaceChar(s, '"', '\'');
    Replace(s, "\"", "'")
  }

  /** buildParametersJson: tone, role, additional context and the session id
      of the REQUEST (empty when it had none, even when one was generated). */
  function ParametersJson(request: ContextualPredictionRequest): string {
    "{\"tone\":\"" + (if request.tone.Some? then request.tone.value else "professional")
    + "\",\"role\":\"" + (if request.role.Some? then request.role.value else "analyst")
    + "\",\"additionalContext\":\""
    + (if request.additionalContext.Some? then Unquoted(request.additionalContext.value) else "")
    + "\",\"sessionId\":\"" + (if request.sessionId.Some? then request.sessionId.value else "") + "\"}"
  }

  /** A request without a session records an empty session id, whatever id
      the conversation was saved under. */
  lemma ParametersIgnoreGeneratedSession(request: ContextualPredictionRequest, generated: string)
    requires request.sessionId.None?
    ensures ParametersJson(request) == ParametersJson(request.(sessionId := Some("")))
    ensures SessionIdOf(request, generated) == generated
  {
  }

  /** The session of a request: its own id, else the generated one. */
  function SessionIdOf(request: ContextualPredictionRequest, generated: string): string {
    if request.sessionId.Some? then request.sessionId.value else generated
  }

  // ---------------------------------------------------------------------
  // The reply parser
  // ---------------------------------------------------------------------

  /** The four kinds of line parseAiResponse acts on. */
  datatype Slot = HomeSlot | DrawSlot | AwaySlot | ReasonSlot

  /** The upper-case prefix that marks each kind; note the space after
      "HOME_WIN:", which the other three do not have. */
  function Marker(slot: Slot): string {
    match slot
    case HomeSlot => "HOME_WIN: "
    case DrawSlot => "DRAW:"
    case AwaySlot => "AWAY_WIN:"
    case ReasonSlot => "REASONING:"
  }

  /** Where the value starts: the substring offsets of the source. */
  function Offset(slot: Slot): nat {
    match slot
    case HomeSlot => 9
    case DrawSlot => 5
    case AwaySlot => 9
    case ReasonSlot => 10
  }

  /** The kind of a trimmed line, by the first marker its upper-case form
      starts with. */
  function SlotOf(line: string): (r: Option<Slot>)
    ensures r.Some? ==> StartsWith(ToUpper(line), Marker(r.value)) && Offset(r.value) <= |line|
    ensures r.None? ==> forall slot :: !StartsWith(ToUpper(line), Marker(slot))
  {
    var up := ToUpper(line);
    if StartsWith(up, Marker(HomeSlot)) then Some(HomeSlot)
    else if StartsWith(up, Marker(DrawSlot)) then Some(DrawSlot)
    else if StartsWith(up, Marker(AwaySlot)) then Some(AwaySlot)
    else if StartsWith(up, Marker(ReasonSlot)) then Some(ReasonSlot)
    else None
  }

  /** line.substring(offset).trim().replace("%", "").trim() */
  function ValueText(line: string, offset: nat): string
    requires offset <= |line|
  {
    Trim(Replace(Trim(line[offset..]), "%", ""))
  }

  /** The variables of the loop: three probabilities and the reasoning,
      which starts as the whole reply. */
  datatype Reading = Reading(homeWin: real, draw: real, awayWin: real, reasoning: string)

  function Start(reply: string): Reading {
    Reading(DefaultHomeWin, DefaultDraw, DefaultAwayWin, reply)
  }

  /** A probability line whose value BigDecimal rejects. */
  predicate Unreadable(rawLine: string) {
    var line := Trim(rawLine);
    var slot := SlotOf(line);
    slot.Some? && slot.value != ReasonSlot && ParseDecimal(ValueText(line, Offset(slot.value))).None?
  }

  /** The text a line of kind `slot` carries: the reasoning after its
      marker, trimmed, or a probability's value text. */
  function SlotText(line: string, slot: Slot): string
    requires Offset(slot) <= |line|
  {
    if slot == ReasonSlot then Trim(line[Offset(slot)..]) else ValueText(line, Offset(slot))
  }

  /** One loop iteration on a raw line. A probability line sets its own
      probability to the value it carries; a REASONING line replaces the
      reasoning with its own text; any other line changes nothing. */
  function ReadStep(st: Reading, rawLine: string): (r: Result<Reading>)
    ensures r.Err? <==> Unreadable(rawLine)
    ensures SlotOf(Trim(rawLine)).None? ==> r == Ok(st)
    ensures r.Ok? && SlotOf(Trim(rawLine)) != Some(ReasonSlot) ==> r.value.reasoning == st.reasoning
    ensures SlotOf(Trim(rawLine)) == Some(ReasonSlot) ==>
      && r.Ok?
      && r.value.reasoning == SlotText(Trim(rawLine), ReasonSlot)
      && r.value.homeWin == st.homeWin && r.value.draw == st.draw && r.value.awayWin == st.awayWin
  {
    var line := Trim(rawLine);
    match SlotOf(line)
    case None => Ok(st)
    case Some(slot) =>
      if slot == ReasonSlot then Ok(st.(reasoning := SlotText(line, ReasonSlot)))
      else ValueStep(st, slot, line)
  }

  /** The probability of a value kind. */
  function Value(st: Reading, slot: Slot): real
    requires slot != ReasonSlot
  {
    match slot
    case HomeSlot => st.homeWin
    case DrawSlot => st.draw
    case AwaySlot => st.awayWin
  }

  /** A probability line: the parsed value replaces its probability, or
      the text BigDecimal rejects is the error. */
  function ValueStep(st: Reading, slot: Slot, line: string): (r: Result<Reading>)
    requires slot != ReasonSlot && Offset(slot) <= |line|
    ensures r.Err? <==> ParseDecimal(SlotText(line, slot)).None?
    ensures r.Ok? ==> Some(Value(r.value, slot)) == ParseDecimal(SlotText(line, slot))
    ensures r.Ok? ==> forall other :: other != ReasonSlot && other != slot ==> Value(r.value, other) == Value(st, other)
    ensures r.Ok? ==> r.value.reasoning == st.reasoning
  {
    var text := ValueText(line, Offset(slot));
    var v := ParseDecimal(text);
    if v.None? then Err(text) else Ok(Assign(st, slot, v.value))
  }

  /** The probability a value line of kind `slot` sets. */
  function Assign(st: Reading, slot: Slot, v: real): (r: Reading)
    requires slot != ReasonSlot
    ensures Value(r, slot) == v
    ensures forall other :: other != ReasonSlot && other != slot ==> Value(r, other) == Value(st, other)
    ensures r.reasoning == st.reasoning
  {
    if slot == HomeSlot then st.(homeWin := v)
    else if slot == DrawSlot then st.(draw := v)
    else st.(awayWin := v)
  }

  /** A value line sets its own probability; any other line leaves it
      alone. */
  lemma ReadStepValue(st: Reading, rawLine: string, slot: Slot)
    requires slot != ReasonSlot && ReadStep(st, rawLine).Ok?
    ensures SlotOf(Trim(rawLine)) == Some(slot) ==>
      Some(Value(ReadStep(st, rawLine).value, slot)) == ParseDecimal(SlotText(Trim(rawLine), slot))
    ensures SlotOf(Trim(rawLine)) != Some(slot) ==> Value(ReadStep(st, rawLine).value, slot) == Value(st, slot)
  {
    var line := Trim(rawLine);
    if SlotOf(line).Some? && SlotOf(line).value != ReasonSlot {
      assert ReadStep(st, rawLine) == ValueStep(st, SlotOf(line).value, line);
    }
  }

  /** The body of the loop on one line; proved to take ReadStep. */
  method ReadLine(st: Reading, rawLine: string) returns (r: Result<Reading>)
    ensures r == ReadStep(st, rawLine)
  {
    var line := Trim(rawLine);
    var slot := SlotOf(line);
    if slot.None? {
      return Ok(st);
    }
    if slot.value == ReasonSlot {
      assert Trim(line[10..]) == SlotText(line, ReasonSlot);
      return Ok(st.(reasoning := Trim(line[10..])));
    }
    assert ReadStep(st, rawLine) == ValueStep(st, slot.value, line);
    var text := ValueText(line, Offset(slot.value));
    var v := ParseDecimal(text);
    if v.None? {
      return Err(text);
    }
    if slot.value == HomeSlot {
      r := Ok(st.(homeWin := v.value));
    } else if slot.value == DrawSlot {
      r := Ok(st.(draw := v.value));
    } else {
      r := Ok(st.(awayWin := v.value));
    }
    assert r == Ok(Assign(st, slot.value, v.value));
  }

  /** The reading after the lines in order, from `start`; the first
      unreadable line stops it. */
  function Read(lines: seq<string>, start: Reading): Result<Reading> {
    if lines == [] then Ok(start)
    else
      match Read(lines[..|lines| - 1], start)
      case Err(text) => Err(text)
      case Ok(st) => ReadStep(st, lines[|lines| - 1])
  }

  const AnalysisPrefix := "AI analysis:  "

  /** The catch block: the defaults, the whole reply and confidence 0.50. */
  function Fallback(fixture: Match, reply: string): AiPrediction {
    AiPrediction(0, fixture, DefaultHomeWin, DefaultDraw, DefaultAwayWin, AnalysisPrefix + reply,
                 None, Some(0.50), None, None)
  }

  /** What parseAiResponse yields: the values read, with confidence 0.75, or
      the fallback as soon as any value is unreadable. Each probability
      comes from the last line that sets it, or keeps its default; the
      reasoning is the text of the last REASONING line, or the whole reply
      when there is none. */
  function ContextualParse(fixture: Match, reply: string): (r: AiPrediction)
    ensures r.fixture == fixture
    ensures r.confidence == Some(0.75) || r == Fallback(fixture, reply)
    ensures r.confidence == Some(0.75) ==>
      var lines := Split(reply, ["\n"]);
      && Carries(LastSlotText(lines, HomeSlot), r.homeWin, DefaultHomeWin)
      && Carries(LastSlotText(lines, DrawSlot), r.draw, DefaultDraw)
      && Carries(LastSlotText(lines, AwaySlot), r.awayWin, DefaultAwayWin)
      && r.reasoning == (if LastSlotText(lines, ReasonSlot).Some? then LastSlotText(lines, ReasonSlot).value else reply)
  {
    var lines := Split(reply, ["\n"]);
    match Read(lines, Start(reply))
    case Err(_) => Fallback(fixture, reply)
    case Ok(st) =>
      ReadCarries(lines, reply);
      LastReasoningLineWins(lines, reply);
      AiPrediction(0, fixture, st.homeWin, st.draw, st.awayWin, st.reasoning,
                   None, Some(0.75), None, None)
  }

  /** The text of the last line (trimmed) of kind `slot`, if any. */
  function LastSlotText(lines: seq<string>, slot: Slot): Option<string> {
    if lines == [] then None
    else
      var line := Trim(lines[|lines| - 1]);
      if SlotOf(line) == Some(slot) then Some(SlotText(line, slot))
      else LastSlotText(lines[..|lines| - 1], slot)
  }

  /** Each probability is the value on the last line of its kind, or the
      default when no line has that kind. */
  lemma {:induction false} LastValueLineWins(lines: seq<string>, reply: string, slot: Slot)
    requires slot != ReasonSlot && Read(lines, Start(reply)).Ok?
    ensures Carries(LastSlotText(lines, slot), Value(Read(lines, Start(reply)).value, slot), Value(Start(reply), slot))
  {
    if lines != [] {
      var init := lines[..|lines| - 1];
      var st := Read(init, Start(reply)).value;
      assert Read(lines, Start(reply)) == ReadStep(st, lines[|lines| - 1]);
      LastValueLineWins(init, reply, slot);
      ReadStepValue(st, lines[|lines| - 1], slot);
    }
  }

  /** The reasoning is the text of the last REASONING line, or the whole
      reply when no line has that kind. */
  lemma {:induction false} LastReasoningLineWins(lines: seq<string>, reply: string)
    requires Read(lines, Start(reply)).Ok?
    ensures Read(lines, Start(reply)).value.reasoning
            == if LastSlotText(lines, ReasonSlot).Some? then LastSlotText(lines, ReasonSlot).value else reply
  {
    if lines != [] {
      var init := lines[..|lines| - 1];
      var st := Read(init, Start(reply)).value;
      assert Read(lines, Start(reply)) == ReadStep(st, lines[|lines| - 1]);
      LastReasoningLineWins(init, reply);
    }
  }

  /** The three probabilities of a successful reading. */
  lemma ReadCarries(lines: seq<string>, reply: string)
    requires Read(lines, Start(reply)).Ok?
    ensures Carries(LastSlotText(lines, HomeSlot), Read(lines, Start(reply)).value.homeWin, DefaultHomeWin)
    ensures Carries(LastSlotText(lines, DrawSlot), Read(lines, Start(reply)).value.draw, DefaultDraw)
    ensures Carries(LastSlotText(lines, AwaySlot), Read(lines, Start(reply)).value.awayWin, DefaultAwayWin)
  {
    LastValueLineWins(lines, reply, HomeSlot);
    LastValueLineWins(lines, reply, DrawSlot);
    LastValueLineWins(lines, reply, AwaySlot);
  }

  /** parseAiResponse: the loop over the lines, proved to compute
      ContextualParse. */
  method ParseContextualResponse(fixture: Match, reply: string) returns (p: AiPrediction)
    ensures p == ContextualParse(fixture, reply)
  {
    var lines := Split(reply, ["\n"]);
    var st := Start(reply);
    for i := 0 to |lines|
      invariant Read(lines[..i], Start(reply)) == Ok(st)
    {
      ReadNext(lines, i, Start(reply));
      var next := ReadLine(st, lines[i]);
      if next.Err? {
        ReadErrorSticks(lines, i + 1, Start(reply));
        return Fallback(fixture, reply);
      }
      st := next.value;
    }
    assert lines[..|lines|] == lines;
    p := AiPrediction(0, fixture, st.homeWin, st.draw, st.awayWin, st.reasoning, None, Some(0.75), None, None);
  }

  /** Reading one more line is one more step. */
  lemma ReadNext(lines: seq<string>, i: nat, start: Reading)
    requires i < |lines| && Read(lines[..i], start).Ok?
    ensures Read(lines[..i + 1], start) == ReadStep(Read(lines[..i], start).value, lines[i])
  {
    TakeOneMore(lines, i);
    ReadSnoc(lines[..i], lines[i], start);
  }

  /** A prefix one longer is the prefix and the next line. */
  lemma TakeOneMore(lines: seq<string>, i: nat)
    requires i < |lines|
    ensures lines[..i + 1] == lines[..i] + [lines[i]]
  {
  }

  /** Reading a line after the others is one step from their reading. */
  lemma ReadSnoc(init: seq<string>, line: string, start: Reading)
    requires Read(init, start).Ok?
    ensures Read(init + [line], start) == ReadStep(Read(init, start).value, line)
  {
    var longer := init + [line];
    assert longer[..|longer| - 1] == init;
  }

  /** Once a prefix of the lines fails, the whole reading fails the same way. */
  lemma {:induction false} ReadErrorSticks(lines: seq<string>, n: nat, start: Reading)
    requires n <= |lines| && Read(lines[..n], start).Err?
    ensures Read(lines, start) == Read(lines[..n], start)
    decreases |lines| - n
  {
    if n == |lines| {
      assert lines[..n] == lines;
    } else {
      assert lines[..n + 1][..n] == lines[..n];
      ReadErrorSticks(lines, n + 1, start);
    }
  }

  lemma {:induction false} ReadFailsIffAny(lines: seq<string>, start: Reading)
    ensures Read(lines, start).Err? <==> AnyLine(lines, Unreadable)
  {
    if lines != [] {
      var init := lines[..|lines| - 1];
      ReadFailsIffAny(init, start);
      match Read(init, start)
      case Err(_) =>
      case Ok(st) =>
        assert Read(lines, start) == ReadStep(st, lines[|lines| - 1]);
    }
  }

  /** All or nothing: a single unreadable probability anywhere in the reply
      discards every value read and gives the fallback with confidence 0.50;
      otherwise the confidence is 0.75. */
  lemma AllOrNothing(fixture: Match, reply: string)
    ensures var lines := Split(reply, ["\n"]);
            (exists i :: 0 <= i < |lines| && Unreadable(lines[i])) <==>
              ContextualParse(fixture, reply) == Fallback(fixture, reply)
    ensures ContextualParse(fixture, reply).confidence == Some(0.75) <==>
              ContextualParse(fixture, reply) != Fallback(fixture, reply)
  {
    var lines := Split(reply, ["\n"]);
    ReadFailsIffAny(lines, Start(reply));
    AnyLineAt(lines, Unreadable);
  }

  /** "HOME_WIN:" must be followed by a space: a line like "HOME_WIN:45"
      (unlike "DRAW:45" or "AWAY_WIN:45") is ignored altogether. */
  lemma HomeWinNeedsSpace(st: Reading, rawLine: string)
    requires StartsWith(ToUpper(Trim(rawLine)), "HOME_WIN:")
    requires !StartsWith(ToUpper(Trim(rawLine)), Marker(HomeSlot))
    ensures ReadStep(st, rawLine) == Ok(st)
  {
    NoSlotWithoutSpace(Trim(rawLine));
  }

  /** A line whose upper-case form starts "HOME_WIN:" with no space after
      it has no kind. */
  lemma NoSlotWithoutSpace(line: string)
    requires StartsWith(ToUpper(line), "HOME_WIN:") && !StartsWith(ToUpper(line), Marker(HomeSlot))
    ensures SlotOf(line).None?
  {
    var up := ToUpper(line);
    StartsWithDiffers(up, "HOME_WIN:", Marker(DrawSlot));
    StartsWithDiffers(up, "HOME_WIN:", Marker(AwaySlot));
    StartsWithDiffers(up, "HOME_WIN:", Marker(ReasonSlot));
  }

  /** Without a REASONING line the reasoning is the whole reply. */
  lemma {:induction false} ReasoningDefaultsToReply(lines: seq<string>, reply: string)
    requires Read(lines, Start(reply)).Ok?
    requires forall line :: line in lines ==> SlotOf(Trim(line)) != Some(ReasonSlot)
    ensures Read(lines, Start(reply)).value.reasoning == reply
  {
    if lines != [] {
      var init := lines[..|lines| - 1];
      var last := lines[|lines| - 1];
      assert last in lines;
      assert forall line :: line in init ==> line in lines;
      ReasoningDefaultsToReply(init, reply);
      var st := Read(init, Start(reply)).value;
      assert Read(lines, Start(reply)) == ReadStep(st, last);
    }
  }

  // ---------------------------------------------------------------------
  // The service
  // ---------------------------------------------------------------------

  const ContextualModelVersion := "llama3.2"
  const ContextualFailure := "Error generating contextual prediction:  "

  /** The conversation row saved for a request, with the model's reply. */
  function UserContext(fixture: Match, request: ContextualPredictionRequest, sessionId: string,
                       reply: string): ConversationContext
  {
    ConversationContext(sessionId, "Predict match:  " + fixture.homeTeam.name + " vs " + fixture.awayTeam.name,
                        Some(reply), request.tone, request.role, fixture.id)
  }

  /** The conversation row is refused by its save exactly when the session
      id is blank: the user message always opens with "Predict match:". */
  lemma UserContextNeedsSession(fixture: Match, request: ContextualPredictionRequest, sessionId: string,
                                reply: string)
    ensures ContextViolation(UserContext(fixture, request, sessionId, reply))
            == if NotBlank(sessionId) then None else Some("Session ID is required")
  {
    assert UserContext(fixture, request, sessionId, reply).userMessage[0] == 'P';
  }

  /** The prediction row saved for a reply: parsed, under `id`, marked
      "llama3.2" and carrying the request's parameters. */
  function ContextualRow(fixture: Match, request: ContextualPredictionRequest, reply: string, id: int): AiPrediction {
    ContextualParse(fixture, reply).(id := id, modelVersion := Some(ContextualModelVersion),
                                     parameters := Some(ParametersJson(request)))
  }

  class ContextualAiService {
    /** The conversation table, in save order. */
    var contexts: seq<ConversationContext>
    /** The saved predictions by id. */
    var predictions: map<int, AiPrediction>
    var nextId: int

    /** Every prediction is saved under its own id, below the next id to
        hand out, and every saved row meets its entity's constraints. */
    ghost predicate Valid()
      reads this
    {
      && nextId >= 1
      && (forall id :: id in predictions ==> predictions[id].id == id && 1 <= id < nextId)
      && ContextsStorable(contexts)
      && PredictionsStorable(predictions)
    }

    constructor()
      ensures Valid() && contexts == [] && predictions == map[]
    {
      contexts := [];
      predictions := map[];
      nextId := 1;
    }

    /** generateContextualPrediction: an unknown match fails first; the
        prompt recalls the session's last five exchanges; a failed model
        call saves nothing; otherwise the exchange is saved to the
        conversation, and the parsed prediction, marked "llama3.2" with the
        request's parameters, is saved under a fresh id. Each save refuses
        a row that breaks its entity's constraints, and the failure carries
        the contextual prefix; a refused prediction leaves the exchange
        saved. */
    method GenerateContextualPrediction(request: ContextualPredictionRequest, matches: Matches.MatchService,
                                        generated: string, llm: string -> Result<string>)
      returns (r: Result<AiPrediction>)
      requires Valid()
      modifies this
      ensures Valid()
      ensures request.matchId !in matches.matches ==>
        && r == Err(Matches.NotFound(request.matchId))
        && contexts == old(contexts) && predictions == old(predictions)
      ensures request.matchId in matches.matches ==>
        var fixture := matches.matches[request.matchId];
        var sessionId := SessionIdOf(request, generated);
        var reply := llm(ContextualPrompt(fixture, request, RecentContext(old(contexts), sessionId)));
        && (reply.Err? ==>
              && r == Err(ContextualFailure + reply.message)
              && contexts == old(contexts) && predictions == old(predictions))
        && (reply.Ok? ==>
              var context := UserContext(fixture, request, sessionId, reply.value);
              var row := ContextualRow(fixture, request, reply.value, old(nextId));
              && (ContextViolation(context).Some? ==>
                    && r == Err(ContextualFailure + ContextViolation(context).value)
                    && contexts == old(contexts) && predictions == old(predictions))
              && (ContextViolation(context).None? && PredictionViolation(row).Some? ==>
                    && r == Err(ContextualFailure + PredictionViolation(row).value)
                    && contexts == old(contexts) + [context] && predictions == old(predictions))
              && (ContextViolation(context).None? && PredictionViolation(row).None? ==>
                    && r == Ok(row)
                    && contexts == old(contexts) + [context]
                    && old(nextId) !in old(predictions) && predictions == old(predictions)[old(nextId) := row]))
    {
      var found := matches.GetMatchById(request.matchId);
      if found.None? {
        return Err(Matches.NotFound(request.matchId));
      }
      var fixture := found.value;
      var sessionId := SessionIdOf(request, generated);
      var prompt := BuildContextualPrompt(fixture, request, RecentContext(contexts, sessionId));
      var reply := llm(prompt);
      if reply.Err? {
        return Err(ContextualFailure + reply.message);
      }
      r := Record(fixture, request, sessionId, reply.value);
    }

    /** The steps after a successful model call: the exchange joins the
        conversation, and the parsed prediction is marked and saved under
        a fresh id; a save that refuses its row stops there, and the
        constraint's message gets the contextual prefix. */
    method Record(fixture: Match, request: ContextualPredictionRequest, sessionId: string, reply: string)
      returns (r: Result<AiPrediction>)
      requires Valid()
      modifies this
      ensures Valid()
      ensures var context := UserContext(fixture, request, sessionId, reply);
              var row := ContextualRow(fixture, request, reply, old(nextId));
        && (ContextViolation(context).Some? ==>
              && r == Err(ContextualFailure + ContextViolation(context).value)
              && contexts == old(contexts) && predictions == old(predictions))
        && (ContextViolation(context).None? && PredictionViolation(row).Some? ==>
              && r == Err(ContextualFailure + PredictionViolation(row).value)
              && contexts == old(contexts) + [context] && predictions == old(predictions))
        && (ContextViolation(context).None? && PredictionViolation(row).None? ==>
              && r == Ok(row)
              && contexts == old(contexts) + [context]
              && old(nextId) !in old(predictions) && predictions == old(predictions)[old(nextId) := row])
    {
      var context := UserContext(fixture, request, sessionId, reply);
      var refused := ContextViolation(context);
      if refused.Some? {
        return Err(ContextualFailure + refused.value);
      }
      StoreContextRow(contexts, context);
      contexts := contexts + [context];
      var parsed := ParseContextualResponse(fixture, reply);
      var prediction := parsed.(id := nextId, modelVersion := Some(ContextualModelVersion),
                                parameters := Some(ParametersJson(request)));
      var violation := PredictionViolation(prediction);
      if violation.Some? {
        return Err(ContextualFailure + violation.value);
      }
      StorePredictionRow(predictions, nextId, prediction);
      predictions := predictions[nextId := prediction];
      nextId := nextId + 1;
      r := Ok(prediction);
    }
  }
}

=== FILE: domain.dfy ===
/** The persisted entities (Team, Match, AiPrediction, ConversationContext),
    the request records, and the fixture lookup that both controllers share.
    A LocalDateTime is its ordering key (`seconds`) together with the text its
    toString produces. */
module Domain {
  import opened Common

  datatype DateTime = DateTime(seconds: int, text: string)

  datatype Team = Team(
    id: int,
    name: string,
    country: string,
    logo: Option<string>,
    foundedYear: Option<int>)

  /** A stored match; `status` may be null after updateMatch copies a null
      status from its details. */
  datatype Match = Match(
    id: int,
    homeTeam: Team,
    awayTeam: Team,
    matchDate: DateTime,
    league: string,
    venue: Option<string>,
    status: Option<string>,
    homeScore: int,
    awayScore: int)

  /** A match as handed to createMatch: teams and status may still be null. */
  datatype MatchDraft = MatchDraft(
    homeTeam: Option<Team>,
    awayTeam: Option<Team>,
    matchDate: DateTime,
    league: string,
    venue: Option<string>,
    status: Option<string>,
    homeScore: int,
    awayScore: int)

  const Scheduled := "SCHEDULED"
  const Finished := "FINISHED"

  /** "FINISHED".equals(m.getStatus()), which is false for a null status. */
  predicate IsFinished(m: Match) {
    m.status == Some(Finished)
  }

  /** The FINISHED matches, in order (a stream filter). */
  function FinishedOnly(ms: seq<Match>): (r: seq<Match>)
    ensures |r| <= |ms|
    ensures forall m :: m in r <==> m in ms && IsFinished(m)
    ensures forall m :: multiset(r)[m] == if IsFinished(m) then multiset(ms)[m] else 0
  {
    if ms == [] then []
    else
      var last := ms[|ms| - 1];
      var r := FinishedOnly(ms[..|ms| - 1]);
      assert ms == ms[..|ms| - 1] + [last];
      assert forall m :: m in ms <==> m in ms[..|ms| - 1] || m == last;
      if IsFinished(last) then r + [last] else r
  }

  /** The filter keeps the input order: one more match at the end of the
      input is one more at the end of the result when it is FINISHED, and
      nothing otherwise. */
  lemma FinishedOnlySnoc(ms: seq<Match>, m: Match)
    ensures FinishedOnly(ms + [m]) == FinishedOnly(ms) + (if IsFinished(m) then [m] else [])
  {
    assert (ms + [m])[..|ms + [m]| - 1] == ms;
  }

  /** Hibernate Validator's @NotBlank, which tests that trim() is not
      empty: some character is above a space. */
  predicate NotBlank(s: string) {
    exists i :: 0 <= i < |s| && s[i] > ' '
  }

  /** The bean-validation constraints of Team (Team.java), checked when the
      row is saved: the message of the first one violated, in field order,
      or None when the row may be stored. */
  function TeamViolation(t: Team): (r: Option<string>)
    ensures r.None? <==> NotBlank(t.name) && |t.name| <= 100 && NotBlank(t.country) && |t.country| <= 50
    ensures !NotBlank(t.name) ==> r == Some("Team name is required")
  {
    if !NotBlank(t.name) then Some("Team name is required")
    else if |t.name| > 100 then Some("Team name cannot exceed 100 characters")
    else if !NotBlank(t.country) then Some("Country is required")
    else if |t.country| > 50 then Some("Country name cannot exceed 50 chracters")
    else None
  }

  /** The bean-validation constraints of Match (Match.java) on the fields a
      row can get wrong: a league that is blank or over 100 characters, and a
      venue over 100 characters. */
  function MatchViolation(m: Match): (r: Option<string>)
    ensures r.None? <==> NotBlank(m.league) && |m.league| <= 100 && (m.venue.Some? ==> |m.venue.value| <= 100)
    ensures !NotBlank(m.league) ==> r == Some("League is required")
  {
    if !NotBlank(m.league) then Some("League is required")
    else if |m.league| > 100 then Some("League name cannot exceed 100 characters")
    else if m.venue.Some? && |m.venue.value| > 100 then Some("Venue name cannot exceed 100 characters")
    else None
  }

  /** A probability as AiPrediction constrains it: 0.00 to 100.00. */
  predicate Percentage(v: real) {
    0.0 <= v <= 100.0
  }

  /** The bean-validation constraints of AiPrediction (AiPrediction.java):
      each probability within 0.00..100.00, a reasoning that is not blank,
      and a confidence, when given, within 0.00..1.00. */
  function PredictionViolation(p: AiPrediction): (r: Option<string>)
    ensures r.None? <==> && Percentage(p.homeWin) && Percentage(p.draw) && Percentage(p.awayWin)
                         && NotBlank(p.reasoning)
                         && (p.confidence.Some? ==> 0.0 <= p.confidence.value <= 1.0)
  {
    if p.homeWin < 0.0 then Some("Home win probability must be at least 0.00")
    else if p.homeWin > 100.0 then Some("Home win probability must not exceed 100.00")
    else if p.draw < 0.0 then Some("Draw probability must be at least 0.00")
    else if p.draw > 100.0 then Some("Draw probability must not exceed 100.00")
    else if p.awayWin < 0.0 then Some("Away win probability must be at least 0.00")
    else if p.awayWin > 100.0 then Some("Away win probability must not exceed 100.00")
    else if !NotBlank(p.reasoning) then Some("Reasoning is required")
    else if p.confidence.Some? && p.confidence.value < 0.0 then Some("Confidence score must be at least 0.00")
    else if p.confidence.Some? && p.confidence.value > 1.0 then Some("Confidence score must not exceed 1.00")
    else None
  }

  /** The bean-validation constraints of ConversationContext
      (ConversationContext.java): a session id and a user message that are
      not blank. */
  function ContextViolation(c: ConversationContext): (r: Option<string>)
    ensures r.None? <==> NotBlank(c.sessionId) && NotBlank(c.userMessage)
    ensures !NotBlank(c.sessionId) ==> r == Some("Session ID is required")
  {
    if !NotBlank(c.sessionId) then Some("Session ID is required")
    else if !NotBlank(c.userMessage) then Some("User message is required")
    else None
  }

  /** Every saved prediction meets the entity's constraints. */
  predicate PredictionsStorable(rows: map<int, AiPrediction>) {
    forall id :: id in rows ==> PredictionViolation(rows[id]).None?
  }

  /** Saving a prediction that meets the constraints keeps every row storable. */
  lemma StorePredictionRow(rows: map<int, AiPrediction>, id: int, p: AiPrediction)
    requires PredictionsStorable(rows) && PredictionViolation(p).None?
    ensures PredictionsStorable(rows[id := p])
  {
  }

  /** Every saved conversation row meets the entity's constraints. */
  predicate ContextsStorable(rows: seq<ConversationContext>) {
    forall i :: 0 <= i < |rows| ==> ContextViolation(rows[i]).None?
  }

  /** Saving a conversation row that meets the constraints keeps every row
      storable. */
  lemma StoreContextRow(rows: seq<ConversationContext>, c: ConversationContext)
    requires ContextsStorable(rows) && ContextViolation(c).None?
    ensures ContextsStorable(rows + [c])
  {
  }

  /** A stored AI prediction for `fixture`. Probabilities and confidence are
      BigDecimal values, held exactly; parameters, confidence, model version
      and the evaluation may be null. */
  datatype AiPrediction = AiPrediction(
    id: int,
    fixture: Match,
    homeWin: real,
    draw: real,
    awayWin: real,
    reasoning: string,
    parameters: Option<string>,
    confidence: Option<real>,
    modelVersion: Option<string>,
    isCorrect: Option<bool>)

  datatype ConversationContext = ConversationContext(
    sessionId: string,
    userMessage: string,
    aiResponse: Option<string>,
    tone: Option<string>,
    role: Option<string>,
    matchId: int)

  datatype ContextualPredictionRequest = ContextualPredictionRequest(
    matchId: int,
    sessionId: Option<string>,
    tone: Option<string>,
    role: Option<string>,
    additionalContext: Option<string>)

  /** The match is a fixture between the teams with ids `a` and `b`, in
      either orientation. */
  predicate PairsTeams(m: Match, a: int, b: int) {
    || (m.homeTeam.id == a && m.awayTeam.id == b)
    || (m.homeTeam.id == b && m.awayTeam.id == a)
  }

  /** The first match of `ms` between the two teams, in either orientation
      (stream().filter(...).findFirst()). */
  function FindFixtureBetween(ms: seq<Match>, a: int, b: int): (r: Option<Match>)
    ensures r.None? <==> forall i :: 0 <= i < |ms| ==> !PairsTeams(ms[i], a, b)
    ensures r.Some? ==> exists i :: 0 <= i < |ms| && ms[i] == r.value && PairsTeams(ms[i], a, b)
                                  && forall j :: 0 <= j < i ==> !PairsTeams(ms[j], a, b)
  {
    if ms == [] then None
    else if PairsTeams(ms[0], a, b) then Some(ms[0])
    else
      var r := FindFixtureBetween(ms[1..], a, b);
      assert forall i :: 1 <= i < |ms| ==> ms[i] == ms[1..][i - 1];
      r
  }

  /** Swapping the two teams finds the same fixture. */
  lemma {:induction false} FindFixtureSymmetric(ms: seq<Match>, a: int, b: int)
    ensures FindFixtureBetween(ms, a, b) == FindFixtureBetween(ms, b, a)
  {
    if ms != [] {
      assert PairsTeams(ms[0], a, b) == PairsTeams(ms[0], b, a);
      FindFixtureSymmetric(ms[1..], a, b);
    }
  }
}

=== FILE: java_string.dfy ===
/** The java.lang.String operations the services rely on, with the edge cases
    of their Java definitions: `trim` strips every char up to U+0020, `isBlank`
    tests Character.isWhitespace, `replace` rewrites every non-overlapping
    occurrence from the left, and `split` drops trailing empty pieces but
    returns the whole string when the separator does not occur. */
module JavaString {

  /** Character.isWhitespace: the ASCII separators U+0009..U+000D, U+001C..U+001F
      and the space, plus the Unicode space, line and paragraph separators
      except the no-break spaces U+00A0, U+2007 and U+202F. */
  predicate IsJavaWhitespace(c: char) {
    || ('\t' <= c <= '\r')
    || ('\U{1C}' <= c <= ' ')
    || c == '\U{1680}'
    || ('\U{2000}' <= c <= '\U{2006}')
    || ('\U{2008}' <= c <= '\U{200A}')
    || c == '\U{2028}' || c == '\U{2029}' || c == '\U{205F}' || c == '\U{3000}'
  }

  /** String.isBlank: empty or whitespace only. */
  predicate IsBlank(s: string) {
    forall i :: 0 <= i < |s| ==> IsJavaWhitespace(s[i])
  }

  /** Removes the leading chars that String.trim removes. */
  function StripLeading(s: string): (r: string)
    ensures |r| <= |s| && r == s[|s| - |r|..]
    ensures r == [] || r[0] > ' '
    ensures forall k :: 0 <= k < |s| - |r| ==> s[k] <= ' '
  {
    if s == [] || s[0] > ' ' then s
    else
      var r := StripLeading(s[1..]);
      assert forall k :: 1 <= k < |s| - |r| ==> s[k] == s[1..][k - 1];
      r
  }

  /** Removes the trailing chars that String.trim removes. */
  function StripTrailing(s: string): (r: string)
    ensures |r| <= |s| && r == s[..|r|]
    ensures r == [] || r[|r| - 1] > ' '
    ensures forall k :: |r| <= k < |s| ==> s[k] <= ' '
  {
    if s == [] || s[|s| - 1] > ' ' then s
    else
      var r := StripTrailing(s[..|s| - 1]);
      assert forall k :: |r| <= k < |s| - 1 ==> s[k] == s[..|s| - 1][k];
      r
  }

  /** `r` is the part of `s` from `i`, with only chars up to U+0020 cut
      off before it and after it. */
  predicate StrippedFrom(s: string, r: string, i: int) {
    && 0 <= i && i + |r| <= |s| && s[i..i + |r|] == r
    && (forall k :: 0 <= k < i ==> s[k] <= ' ')
    && (forall k :: i + |r| <= k < |s| ==> s[k] <= ' ')
  }

  /** String.trim. */
  function Trim(s: string): (r: string)
    ensures |r| <= |s|
    ensures r == [] || (r[0] > ' ' && r[|r| - 1] > ' ')
    ensures exists i :: StrippedFrom(s, r, i)
    ensures (forall k :: 0 <= k < |s| ==> s[k] > ' ') ==> r == s
  {
    StripsBothEnds(s);
    StripTrailing(StripLeading(s))
  }

  lemma StripsBothEnds(s: string)
    ensures StrippedFrom(s, StripTrailing(StripLeading(s)), |s| - |StripLeading(s)|)
  {
    var lead := StripLeading(s);
    StrippedInTwoSteps(s, lead, StripTrailing(lead), |s| - |lead|);
  }

  /** Cutting blanks off the front and then off the back strips both ends. */
  lemma StrippedInTwoSteps(s: string, lead: string, r: string, i: int)
    requires 0 <= i <= |s| && lead == s[i..] && forall k :: 0 <= k < i ==> s[k] <= ' '
    requires |r| <= |lead| && r == lead[..|r|] && forall k :: |r| <= k < |lead| ==> lead[k] <= ' '
    ensures StrippedFrom(s, r, i)
  {
    assert s[i..i + |r|] == r;
    forall k | i + |r| <= k < |s|
      ensures s[k] <= ' '
    {
      assert s[k] == lead[k - i];
    }
  }



  lemma TrimIdempotent(s: string)
    ensures Trim(Trim(s)) == Trim(s)
  {
    var t := Trim(s);
    if t != [] {
      assert StripLeading(t) == t;
      assert StripTrailing(t) == t;
    }
  }

  predicate StartsWith(s: string, prefix: string) {
    |prefix| <= |s| && s[..|prefix|] == prefix
  }

  /** A concatenation starts with its first part and ends with its second. */
  lemma Framed(a: string, b: string)
    ensures StartsWith(a + b, a) && EndsWith(a + b, b)
  {
    assert (a + b)[..|a|] == a;
    assert (a + b)[|a|..] == b;
  }

  /** Equal strings with the same prefix have equal rests. */
  lemma DropCommonPrefix(p: string, x: string, y: string)
    requires p + x == p + y
    ensures x == y
  {
    assert x == (p + x)[|p|..] && y == (p + y)[|p|..];
  }

  predicate EndsWith(s: string, suffix: string) {
    |suffix| <= |s| && s[|s| - |suffix|..] == suffix
  }

  /** `t` occurs in `s` starting at position `k`. */
  predicate OccursAt(s: string, t: string, k: int) {
    0 <= k && k + |t| <= |s| && s[k..k + |t|] == t
  }

  /** String.indexOf: the first position where `t` occurs in `s`, or -1. */
  function IndexOf(s: string, t: string): (r: int)
    ensures r == -1 || OccursAt(s, t, r)
    ensures r == -1 ==> forall k :: !OccursAt(s, t, k)
    ensures forall k :: 0 <= k < r ==> !OccursAt(s, t, k)
  {
    if StartsWith(s, t) then 0
    else if s == [] then -1
    else
      var i := IndexOf(s[1..], t);
      assert forall k :: 1 <= k ==> (OccursAt(s, t, k) <==> OccursAt(s[1..], t, k - 1)) by {
        forall k | 1 <= k ensures OccursAt(s, t, k) <==> OccursAt(s[1..], t, k - 1) {
          OccursInTail(s, t, k);
        }
      }
      assert !OccursAt(s, t, 0);
      if i < 0 then -1 else i + 1
  }

  /** Past the first character, occurrences in `s` are those in its tail. */
  lemma OccursInTail(s: string, t: string, k: int)
    requires 1 <= k && s != []
    ensures OccursAt(s, t, k) <==> OccursAt(s[1..], t, k - 1)
  {
    if k + |t| <= |s| {
      var tail := s[1..];
      forall j | k <= j < k + |t| ensures s[j] == tail[j - 1] {
      }
      assert tail[k - 1..k - 1 + |t|] == s[k..k + |t|];
    }
  }

  /** Strings that start with different characters cannot both be
      prefixes of one string. */
  lemma StartsWithDiffers(s: string, t: string, u: string)
    requires StartsWith(s, t) && t != [] && u != [] && t[0] != u[0]
    ensures !StartsWith(s, u)
  {
    assert s[0] == s[..|t|][0];
  }

  /** String.contains. */
  predicate Contains(s: string, t: string) {
    IndexOf(s, t) >= 0
  }

  lemma ContainsAt(s: string, t: string, k: int)
    requires OccursAt(s, t, k)
    ensures Contains(s, t)
  {
  }

  /** Replacing one character by another rewrites exactly the places that
      held it and keeps the length. */
  lemma {:induction false} ReplaceChar(s: string, c: char, d: char)
    ensures |Replace(s, [c], [d])| == |s|
    ensures forall k :: 0 <= k < |s| ==> Replace(s, [c], [d])[k] == if s[k] == c then d else s[k]
    decreases |s|
  {
    var i := IndexOf(s, [c]);
    FirstCharAt(s, c, i);
    if i >= 0 {
      ReplaceChar(s[i + 1..], c, d);
      ReplaceFirst(s, [c], [d], i);
      SpliceReplaced(s, i, c, d, Replace(s[i + 1..], [c], [d]));
    }
  }

  /** The first place a one-character pattern occurs holds that character,
      and no earlier place does; when it does not occur, no place holds it. */
  lemma {:induction false} FirstCharAt(s: string, c: char, i: int)
    requires i == IndexOf(s, [c])
    ensures i < 0 ==> forall k :: 0 <= k < |s| ==> s[k] != c
    ensures i >= 0 ==> i < |s| && forall k :: 0 <= k <= i ==> (s[k] == c <==> k == i)
  {
    forall k | 0 <= k < |s| {
      OccursCharAt(s, c, k);
    }
  }

  /** Replace rewrites the first occurrence and carries on after it. */
  lemma {:induction false} ReplaceFirst(s: string, t: string, u: string, i: int)
    requires |t| > 0 && i == IndexOf(s, t) && i >= 0
    ensures Replace(s, t, u) == s[..i] + u + Replace(s[i + |t|..], t, u)
  {
  }

  /** A one-character pattern occurs exactly where that character is. */
  lemma OccursCharAt(s: string, c: char, k: int)
    requires 0 <= k < |s|
    ensures OccursAt(s, [c], k) <==> s[k] == c
  {
    assert s[k..k + 1] == [s[k]];
  }

  /** The first `c` replaced by `d`, in front of a tail whose later `c`s are
      already replaced. */
  lemma SpliceReplaced(s: string, i: int, c: char, d: char, tail: string)
    requires 0 <= i < |s|
    requires forall k :: 0 <= k <= i ==> (s[k] == c <==> k == i)
    requires |tail| == |s| - i - 1
    requires forall k :: 0 <= k < |tail| ==> tail[k] == if s[i + 1 + k] == c then d else s[i + 1 + k]
    ensures |s[..i] + [d] + tail| == |s|
    ensures forall k :: 0 <= k < |s| ==> (s[..i] + [d] + tail)[k] == if s[k] == c then d else s[k]
  {
    var r := s[..i] + [d] + tail;
    forall k | i < k < |s| ensures r[k] == if s[k] == c then d else s[k] {
      assert r[k] == tail[k - i - 1];
    }
  }

  /** Containment is transitive. */
  lemma ContainsTransitive(s: string, t: string, u: string)
    requires Contains(s, t) && Contains(t, u)
    ensures Contains(s, u)
  {
    var i, j := IndexOf(s, t), IndexOf(t, u);
    assert OccursAt(s, t, i) && OccursAt(t, u, j);
    assert s[i..i + |t|] == t;
    forall k | 0 <= k < |u| ensures s[i + j + k] == u[k] {
      assert s[i + j + k] == s[i..i + |t|][j + k] == t[j + k];
      assert t[j..j + |u|][k] == t[j + k];
    }
    assert s[i + j..i + j + |u|] == u;
    ContainsAt(s, u, i + j);
  }

  /** A concatenation starts with its first piece. */
  lemma StartsWithFirst(a: string, b: string, c: string, d: string)
    ensures StartsWith(a + b + c + d, a)
  {
    assert (a + b + c + d)[..|a|] == a;
  }

  /** A text contains the prefix of every infix it is built from. */
  lemma ContainsInfixPrefix(a: string, b: string, c: string, t: string)
    requires StartsWith(b, t)
    ensures Contains(a + b + c, t)
  {
    assert (a + b + c)[|a|..|a| + |t|] == b[..|t|];
    ContainsAt(a + b + c, t, |a|);
  }

  /** A text contains every infix it is built from. */
  lemma ContainsInfix(a: string, b: string, c: string)
    ensures Contains(a + b + c, b)
  {
    assert (a + b + c)[|a|..|a| + |b|] == b;
    ContainsAt(a + b + c, b, |a|);
  }

  /** String.replace(target, replacement): every non-overlapping occurrence of
      `t`, scanning from the left, is replaced by `u`. */
  function Replace(s: string, t: string, u: string): (r: string)
    requires |t| > 0
    ensures !Contains(s, t) ==> r == s
    ensures u == [] ==> |r| <= |s|
    decreases |s|
  {
    var i := IndexOf(s, t);
    if i < 0 then s
    else s[..i] + u + Replace(s[i + |t|..], t, u)
  }

  /** Replacing a character by nothing leaves none of it. */
  lemma {:induction false} ReplaceRemovesChar(s: string, c: char)
    ensures c !in Replace(s, [c], [])
    decreases |s|
  {
    var i := IndexOf(s, [c]);
    FirstCharAt(s, c, i);
    if i >= 0 {
      ReplaceRemovesChar(s[i + 1..], c);
      ReplaceFirst(s, [c], [], i);
      assert forall k :: 0 <= k < i ==> s[..i][k] != c;
    }
  }

  /** Length of the first separator of `seps` that starts `s`, or -1. */
  function SeparatorAt(s: string, seps: seq<string>): (n: int)
    ensures n == -1 || (exists j :: 0 <= j < |seps| && n == |seps[j]| && StartsWith(s, seps[j]))
    ensures n == -1 ==> forall j :: 0 <= j < |seps| ==> !StartsWith(s, seps[j])
  {
    if seps == [] then -1
    else if StartsWith(s, seps[0]) then |seps[0]|
    else SeparatorAt(s, seps[1..])
  }

  /** The leftmost position where one of `seps` occurs, with that separator's
      length (the first alternative in list order), as a regex alternation
      `a|b` finds it; (-1, 0) when none occurs. */
  function FindSeparator(s: string, seps: seq<string>): (r: (int, int))
    requires forall j :: 0 <= j < |seps| ==> |seps[j]| > 0
    ensures r.0 == -1 || (0 <= r.0 && 0 < r.1 && r.0 + r.1 <= |s| && SeparatorAt(s[r.0..], seps) == r.1)
    ensures r.0 == -1 ==> r.1 == 0
  {
    var n := SeparatorAt(s, seps);
    if n >= 0 then (0, n)
    else if s == [] then (-1, 0)
    else
      var (i, m) := FindSeparator(s[1..], seps);
      if i < 0 then (-1, 0)
      else
        assert s[1..][i..] == s[i + 1..];
        (i + 1, m)
  }

  /** All pieces between separator occurrences, trailing empty pieces kept. */
  function SplitAll(s: string, seps: seq<string>): (r: seq<string>)
    requires forall j :: 0 <= j < |seps| ==> |seps[j]| > 0
    ensures |r| >= 1
    ensures FindSeparator(s, seps).0 == -1 <==> |r| == 1
    decreases |s|
  {
    var p := FindSeparator(s, seps);
    if p.0 < 0 then [s]
    else [s[..p.0]] + SplitAll(s[p.0 + p.1..], seps)
  }

  function DropTrailingEmpty(xs: seq<string>): (r: seq<string>)
    ensures |r| <= |xs| && r == xs[..|r|]
    ensures r == [] || r[|r| - 1] != []
    ensures forall k :: |r| <= k < |xs| ==> xs[k] == []
  {
    if xs == [] || xs[|xs| - 1] != [] then xs
    else
      var r := DropTrailingEmpty(xs[..|xs| - 1]);
      assert forall k :: |r| <= k < |xs| - 1 ==> xs[k] == xs[..|xs| - 1][k];
      r
  }

  /** String.split(regex) with limit 0, for a regex that is a list of literal
      alternatives: when nothing matches the result is the string itself;
      otherwise trailing empty pieces are removed. */
  function Split(s: string, seps: seq<string>): (r: seq<string>)
    requires forall j :: 0 <= j < |seps| ==> |seps[j]| > 0
    ensures FindSeparator(s, seps).0 == -1 ==> r == [s]
    ensures FindSeparator(s, seps).0 != -1 ==> r == DropTrailingEmpty(SplitAll(s, seps))
  {
    var all := SplitAll(s, seps);
    if |all| == 1 then all else DropTrailingEmpty(all)
  }

  /** The number of separator occurrences a left-to-right scan finds. */
  function Occurrences(s: string, seps: seq<string>): nat
    requires forall j :: 0 <= j < |seps| ==> |seps[j]| > 0
    decreases |s|
  {
    var p := FindSeparator(s, seps);
    if p.0 < 0 then 0 else 1 + Occurrences(s[p.0 + p.1..], seps)
  }

  /** SplitAll yields one piece more than there are occurrences. */
  lemma {:induction false} SplitAllCount(s: string, seps: seq<string>)
    requires forall j :: 0 <= j < |seps| ==> |seps[j]| > 0
    ensures |SplitAll(s, seps)| == Occurrences(s, seps) + 1
    decreases |s|
  {
    var p := FindSeparator(s, seps);
    if p.0 >= 0 {
      var rest := s[p.0 + p.1..];
      SplitAllCount(rest, seps);
      assert Occurrences(s, seps) == 1 + Occurrences(rest, seps);
      assert SplitAll(s, seps) == [s[..p.0]] + SplitAll(rest, seps);
    }
  }

  /** Split keeps one piece more than there are occurrences, less the
      trailing empty pieces it drops; when the last piece is not empty it
      keeps them all. */
  lemma SplitCountsOccurrences(s: string, seps: seq<string>)
    requires forall j :: 0 <= j < |seps| ==> |seps[j]| > 0
    ensures |Split(s, seps)| <= Occurrences(s, seps) + 1
    ensures SplitAll(s, seps)[|SplitAll(s, seps)| - 1] != [] ==>
              |Split(s, seps)| == Occurrences(s, seps) + 1
  {
    SplitAllCount(s, seps);
    var all := SplitAll(s, seps);
    if |all| != 1 && all[|all| - 1] != [] {
      assert DropTrailingEmpty(all) == all;
    }
  }


  /** Splitting on a separator that does not occur yields the input alone. */
  lemma SplitWithoutSeparator(s: string, sep: string)
    requires |sep| > 0 && !Contains(s, sep)
    ensures Split(s, [sep]) == [s]
  {
    forall i | 0 <= i <= |s| ensures !StartsWith(s[i..], sep) {
      assert !OccursAt(s, sep, i);
      if i + |sep| <= |s| {
        assert s[i..][..|sep|] == s[i..i + |sep|];
      }
    }
    var r := FindSeparator(s, [sep]);
    assert r.0 == -1;
  }

  /** Joining the pieces with the separator gives the string back. */
  lemma {:induction false} SplitAllJoins(s: string, sep: string)
    requires |sep| > 0
    ensures Join(SplitAll(s, [sep]), sep) == s
    decreases |s|
  {
    var p := FindSeparator(s, [sep]);
    if p.0 >= 0 {
      var rest := s[p.0 + p.1..];
      SplitAllJoins(rest, sep);
      SingleSeparator(s[p.0..], sep);
      Reassemble(s, p.0, sep);
      var pieces := SplitAll(rest, [sep]);
      assert SplitAll(s, [sep]) == [s[..p.0]] + pieces;
      JoinCons(s[..p.0], pieces, sep);
    }
  }

  /** The one separator of a single-alternative list is found with its own
      length. */
  lemma SingleSeparator(s: string, sep: string)
    requires SeparatorAt(s, [sep]) != -1
    ensures SeparatorAt(s, [sep]) == |sep| && StartsWith(s, sep)
  {
  }

  /** A string is its part before an occurrence, the occurrence and the
      rest. */
  lemma Reassemble(s: string, i: nat, sep: string)
    requires i <= |s| && StartsWith(s[i..], sep)
    ensures s == s[..i] + sep + s[i + |sep|..]
  {
    assert s[i..][..|sep|] == s[i..i + |sep|];
  }

  lemma JoinCons(x: string, xs: seq<string>, sep: string)
    requires xs != []
    ensures Join([x] + xs, sep) == x + sep + Join(xs, sep)
  {
    assert ([x] + xs)[1..] == xs;
  }


  /** `n` copies of `sep`. */
  function Repeated(sep: string, n: nat): string {
    if n == 0 then [] else sep + Repeated(sep, n - 1)
  }

  /** `n` empty strings. */
  function Empties(n: nat): (r: seq<string>)
    ensures |r| == n && forall k :: 0 <= k < n ==> r[k] == []
  {
    seq(n, k => [])
  }

  /** Joining `n + 1` empty pieces leaves `n` separators. */
  lemma {:induction false} JoinEmpties(n: nat, sep: string)
    ensures Join(Empties(n + 1), sep) == Repeated(sep, n)
  {
    if n > 0 {
      JoinEmpties(n - 1, sep);
      assert Empties(n + 1)[1..] == Empties(n);
      assert Join(Empties(n + 1), sep) == [] + sep + Join(Empties(n), sep);
    }
  }

  /** Joining with `n` empty pieces after the others adds `n` separators. */
  lemma {:induction false} JoinThenEmpties(xs: seq<string>, n: nat, sep: string)
    requires xs != []
    ensures Join(xs + Empties(n), sep) == Join(xs, sep) + Repeated(sep, n)
  {
    if |xs| == 1 {
      if n == 0 {
        assert xs + Empties(0) == xs;
      } else {
        JoinEmpties(n - 1, sep);
        assert (xs + Empties(n))[1..] == Empties(n);
        assert Repeated(sep, n) == sep + Repeated(sep, n - 1);
      }
    } else {
      JoinThenEmpties(xs[1..], n, sep);
      assert (xs + Empties(n))[1..] == xs[1..] + Empties(n);
    }
  }

  /** Split on one separator loses only the trailing separators: joining the
      pieces back and adding one separator per dropped empty piece restores
      the string, and a string of separators only splits into nothing. */
  lemma SplitRestores(s: string, sep: string)
    requires |sep| > 0
    ensures |Split(s, [sep])| <= Occurrences(s, [sep]) + 1
    ensures Split(s, [sep]) != [] ==>
      s == Join(Split(s, [sep]), sep) + Repeated(sep, Occurrences(s, [sep]) + 1 - |Split(s, [sep])|)
    ensures Split(s, [sep]) == [] ==> s == Repeated(sep, Occurrences(s, [sep]))
  {
    var all := SplitAll(s, [sep]);
    var r := Split(s, [sep]);
    SplitAllJoins(s, sep);
    SplitAllCount(s, [sep]);
    KeptPieces(all, r);
    var occurrences := Occurrences(s, [sep]);
    RestoredFromPieces(s, sep, all, r, occurrences + 1 - |r|, occurrences);
  }

  /** Split keeps a prefix of SplitAll's pieces and drops only empty ones. */
  lemma {:induction false} KeptPieces(all: seq<string>, r: seq<string>)
    requires r == if |all| == 1 then all else DropTrailingEmpty(all)
    ensures |r| <= |all| && all == r + Empties(|all| - |r|)
  {
    if |all| == 1 {
      assert all == r + Empties(0);
    } else {
      TrailingEmpties(all);
    }
  }

  /** Pieces that join to `s`, of which the last ones are empty, give `s`
      back as the others joined and one separator per empty piece. */
  lemma RestoredFromPieces(s: string, sep: string, all: seq<string>, r: seq<string>, dropped: nat, gaps: nat)
    requires |all| >= 1 && |r| <= |all| && Join(all, sep) == s && all == r + Empties(|all| - |r|)
    requires dropped == |all| - |r| && gaps == |all| - 1
    ensures r != [] ==> s == Join(r, sep) + Repeated(sep, dropped)
    ensures r == [] ==> s == Repeated(sep, gaps)
  {
    if r == [] {
      assert all == Empties(|all|);
      JoinEmpties(|all| - 1, sep);
    } else {
      JoinThenEmpties(r, |all| - |r|, sep);
    }
  }


  /** The dropped pieces are all empty. */
  lemma TrailingEmpties(xs: seq<string>)
    ensures xs == DropTrailingEmpty(xs) + Empties(|xs| - |DropTrailingEmpty(xs)|)
  {
    var r := DropTrailingEmpty(xs);
    assert xs == xs[..|r|] + xs[|r|..];
    assert xs[|r|..] == Empties(|xs| - |r|);
  }


  /** Collectors.joining(sep). */
  function Join(xs: seq<string>, sep: string): (r: string)
    ensures xs == [] ==> r == []
    ensures |xs| == 1 ==> r == xs[0]
  {
    if xs == [] then []
    else if |xs| == 1 then xs[0]
    else xs[0] + sep + Join(xs[1..], sep)
  }

  /** Concatenation of all the strings, as repeated StringBuilder.append does. */
  function Concat(xs: seq<string>): string {
    if xs == [] then [] else Concat(xs[..|xs| - 1]) + xs[|xs| - 1]
  }

  function LowerChar(c: char): char {
    if 'A' <= c <= 'Z' then (c as int + 32) as char else c
  }

  function UpperChar(c: char): char {
    if 'a' <= c <= 'z' then (c as int - 32) as char else c
  }

  /** String.toLowerCase on the ASCII letters. */
  function ToLower(s: string): (r: string)
    ensures |r| == |s| && forall i :: 0 <= i < |s| ==> r[i] == LowerChar(s[i])
  {
    seq(|s|, i requires 0 <= i < |s| => LowerChar(s[i]))
  }

  /** String.toUpperCase on the ASCII letters. */
  function ToUpper(s: string): (r: string)
    ensures |r| == |s| && forall i :: 0 <= i < |s| ==> r[i] == UpperChar(s[i])
  {
    seq(|s|, i requires 0 <= i < |s| => UpperChar(s[i]))
  }

  /** Lowercasing twice changes nothing more than lowercasing once. */
  lemma ToLowerIdempotent(s: string)
    ensures ToLower(ToLower(s)) == ToLower(s)
  {
  }

  /** Lower-casing forgets an earlier upper-casing. */
  lemma LowerOfUpper(s: string)
    ensures ToLower(ToUpper(s)) == ToLower(s)
  {
    var a, b := ToLower(ToUpper(s)), ToLower(s);
    assert forall i :: 0 <= i < |s| ==> a[i] == b[i];
  }

  /** a.compareTo(b) <= 0: lexicographic order on chars, a proper prefix first. */
  predicate LexLessEq(a: string, b: string) {
    a == [] || (b != [] && (a[0] < b[0] || (a[0] == b[0] && LexLessEq(a[1..], b[1..]))))
  }

  lemma {:induction false} LexTotal(a: string, b: string)
    ensures LexLessEq(a, b) || LexLessEq(b, a)
  {
    if a != [] && b != [] && a[0] == b[0] {
      LexTotal(a[1..], b[1..]);
    }
  }

  lemma {:induction false} LexTransitive(a: string, b: string, c: string)
    requires LexLessEq(a, b) && LexLessEq(b, c)
    ensures LexLessEq(a, c)
  {
    if a != [] && a[0] == b[0] && b[0] == c[0] {
      LexTransitive(a[1..], b[1..], c[1..]);
    }
  }
}

=== FILE: match_service.dfy ===
/** MatchService over the match table: creation with its two validation
    rules and the SCHEDULED default, the eight-field update, recording a
    result, and deletion by id. */
module Matches {
  import opened Common
  import opened Numbers
  import opened Domain

  const TeamsRequired := "Home team and away team are required"
  const TeamsMustDiffer := "Home team and away team must be different"

  /** Every row meets the entity's constraints. */
  predicate Storable(matches: map<int, Match>) {
    forall id :: id in matches ==> MatchViolation(matches[id]).None?
  }

  /** Storing a row that meets the constraints keeps every row storable. */
  lemma StoreRow(matches: map<int, Match>, id: int, m: Match)
    requires Storable(matches) && MatchViolation(m).None?
    ensures Storable(matches[id := m])
  {
  }

  /** The row createMatch saves from an accepted draft: status SCHEDULED
      when none was given, every other field as drafted. */
  function Drafted(draft: MatchDraft, id: int): Match
    requires draft.homeTeam.Some? && draft.awayTeam.Some?
  {
    Match(id, draft.homeTeam.value, draft.awayTeam.value, draft.matchDate, draft.league, draft.venue,
          Some(if draft.status.None? then Scheduled else draft.status.value), draft.homeScore, draft.awayScore)
  }

  function NotFound(id: int): string {
    "Match not found with id: " + IntToString(id)
  }

  /** The createMatch validation, in its order: both teams present, then
      different ids. */
  function CreateMatchError(draft: MatchDraft): (r: Option<string>)
    ensures r == None <==> draft.homeTeam.Some? && draft.awayTeam.Some?
                           && draft.homeTeam.value.id != draft.awayTeam.value.id
    ensures draft.homeTeam.None? || draft.awayTeam.None? ==> r == Some(TeamsRequired)
  {
    if draft.homeTeam.None? || draft.awayTeam.None? then Some(TeamsRequired)
    else if draft.homeTeam.value.id == draft.awayTeam.value.id then Some(TeamsMustDiffer)
    else None
  }

  class MatchService {
    var matches: map<int, Match>
    var nextId: int

    /** Every row is stored under its own id, below the next id to hand out,
        and meets the entity's constraints (a save that breaks them fails). */
    ghost predicate Valid()
      reads this
    {
      && nextId >= 1
      && (forall id :: id in matches ==> matches[id].id == id && 1 <= id < nextId)
      && Storable(matches)
    }

    constructor()
      ensures Valid() && matches == map[]
    {
      matches := map[];
      nextId := 1;
    }

    /** getMatchById. */
    function GetMatchById(id: int): (r: Option<Match>)
      reads this
      ensures r.Some? <==> id in matches
      ensures r.Some? ==> r.value == matches[id]
    {
      if id in matches then Some(matches[id]) else None
    }

    /** createMatch: a refused draft leaves the table unchanged; so does a
        row breaking the entity's constraints, which fails at the save; an
        accepted one is saved under a fresh id, with status SCHEDULED when
        none was given and every other field as drafted. */
    method CreateMatch(draft: MatchDraft) returns (r: Result<Match>)
      requires Valid()
      modifies this
      ensures Valid()
      ensures CreateMatchError(draft).Some? ==>
        r == Err(CreateMatchError(draft).value) && matches == old(matches)
      ensures CreateMatchError(draft).None? && MatchViolation(Drafted(draft, old(nextId))).Some? ==>
        r == Err(MatchViolation(Drafted(draft, old(nextId))).value) && matches == old(matches)
      ensures CreateMatchError(draft).None? && MatchViolation(Drafted(draft, old(nextId))).None? ==>
        && r.Ok?
        && r.value == Match(old(nextId), draft.homeTeam.value, draft.awayTeam.value,
                            draft.matchDate, draft.league, draft.venue,
                            Some(if draft.status.None? then Scheduled else draft.status.value),
                            draft.homeScore, draft.awayScore)
        && old(nextId) !in old(matches)
        && matches == old(matches)[old(nextId) := r.value]
    {
      var error := CreateMatchError(draft);
      if error.Some? {
        return Err(error.value);
      }
      var saved := Drafted(draft, nextId);
      var violation := MatchViolation(saved);
      if violation.Some? {
        return Err(violation.value);
      }
      StoreRow(matches, nextId, saved);
      matches := matches[nextId := saved];
      nextId := nextId + 1;
      r := Ok(saved);
    }

    /** updateMatch: copies teams, date, league, venue, status and scores from
        `details` and keeps the id; the teams are not re-checked, and a row
        breaking the entity's constraints fails at the save and nothing
        changes. */
    method UpdateMatch(id: int, details: Match) returns (r: Result<Match>)
      requires Valid()
      modifies this
      ensures Valid()
      ensures id !in old(matches) ==> r == Err(NotFound(id)) && matches == old(matches)
      ensures id in old(matches) && MatchViolation(details).Some? ==>
        r == Err(MatchViolation(details).value) && matches == old(matches)
      ensures id in old(matches) && MatchViolation(details).None? ==>
        && r == Ok(details.(id := id))
        && matches == old(matches)[id := r.value]
    {
      if id !in matches {
        return Err(NotFound(id));
      }
      var m := matches[id];
      m := m.(homeTeam := details.homeTeam, awayTeam := details.awayTeam,
              matchDate := details.matchDate, league := details.league,
              venue := details.venue, status := details.status,
              homeScore := details.homeScore, awayScore := details.awayScore);
      var violation := MatchViolation(m);
      assert MatchViolation(m) == MatchViolation(details);
      if violation.Some? {
        return Err(violation.value);
      }
      StoreRow(matches, id, m);
      matches := matches[id := m];
      r := Ok(m);
    }

    /** updateMatchResult: sets both scores and status FINISHED; every other
        field keeps its value. */
    method UpdateMatchResult(id: int, homeScore: int, awayScore: int) returns (r: Result<Match>)
      requires Valid()
      modifies this
      ensures Valid()
      ensures id !in old(matches) ==> r == Err(NotFound(id)) && matches == old(matches)
      ensures id in old(matches) ==>
        && r == Ok(old(matches)[id].(homeScore := homeScore, awayScore := awayScore,
                                     status := Some(Finished)))
        && matches == old(matches)[id := r.value]
        && IsFinished(r.value)
    {
      if id !in matches {
        return Err(NotFound(id));
      }
      var m := matches[id].(homeScore := homeScore, awayScore := awayScore,
                            status := Some(Finished));
      assert MatchViolation(m) == MatchViolation(matches[id]);
      StoreRow(matches, id, m);
      matches := matches[id := m];
      r := Ok(m);
    }

    /** deleteMatch: a missing id is refused and nothing changes; otherwise
        exactly that row is removed. */
    method DeleteMatch(id: int) returns (r: Result<()>)
      requires Valid()
      modifies this
      ensures Valid()
      ensures id !in old(matches) ==> r == Err(NotFound(id)) && matches == old(matches)
      ensures id in old(matches) ==> r == Ok(()) && matches == old(matches) - {id}
    {
      if id !in matches {
        return Err(NotFound(id));
      }
      matches := matches - {id};
      r := Ok(());
    }
  }
}

=== FILE: match_stats.dfy ===
/** The database statistics the RAG prompt quotes: the head-to-head record of
    the two teams of a fixture and each team's form over its five latest
    finished matches (AiPredictionService.getHeadToHeadStats, getTeamForm,
    getTeamFormStats). The two repository queries are filters over the match
    table. */
module MatchStats {
  import opened JavaString
  import opened Numbers
  import opened Domain

  // ---------------------------------------------------------------------
  // The repository queries
  // ---------------------------------------------------------------------

  /** findMatchesBetweenTeams: the matches between the two teams, in either
      orientation. */
  function Between(ms: seq<Match>, a: int, b: int): (r: seq<Match>)
    ensures |r| <= |ms|
    ensures forall m :: m in r <==> m in ms && PairsTeams(m, a, b)
  {
    if ms == [] then []
    else
      var last := ms[|ms| - 1];
      var r := Between(ms[..|ms| - 1], a, b);
      assert forall m :: m in ms <==> m in ms[..|ms| - 1] || m == last;
      if PairsTeams(last, a, b) then r + [last] else r
  }

  /** The team plays in the match, at home or away. */
  predicate Plays(m: Match, teamId: int) {
    m.homeTeam.id == teamId || m.awayTeam.id == teamId
  }

  /** findByTeam: the matches the team plays in. */
  function Involving(ms: seq<Match>, teamId: int): (r: seq<Match>)
    ensures |r| <= |ms|
    ensures forall m :: m in r <==> m in ms && Plays(m, teamId)
  {
    if ms == [] then []
    else
      var last := ms[|ms| - 1];
      var r := Involving(ms[..|ms| - 1], teamId);
      assert forall m :: m in ms <==> m in ms[..|ms| - 1] || m == last;
      if Plays(last, teamId) then r + [last] else r
  }

  // ---------------------------------------------------------------------
  // Win / draw / loss records
  // ---------------------------------------------------------------------

  /** The score of a match from one side: that side's goals first. The side
      is the home side when the home team has the id, else the away side. */
  function Side(m: Match, teamId: int): (int, int) {
    if m.homeTeam.id == teamId then (m.homeScore, m.awayScore) else (m.awayScore, m.homeScore)
  }

  datatype Record = Record(wins: nat, draws: nat, losses: nat, goalsFor: int, goalsAgainst: int)

  function Played(r: Record): nat {
    r.wins + r.draws + r.losses
  }

  /** The record seen from the other side. */
  function Mirror(r: Record): Record {
    Record(r.losses, r.draws, r.wins, r.goalsAgainst, r.goalsFor)
  }

  /** One iteration of the counting loops: a FINISHED match adds a win, a
      draw or a loss and its goals; any other match is skipped. */
  function Recorded(r: Record, m: Match, teamId: int): Record {
    if !IsFinished(m) then r
    else
      var own := Side(m, teamId).0;
      var against := Side(m, teamId).1;
      var r := r.(goalsFor := r.goalsFor + own, goalsAgainst := r.goalsAgainst + against);
      if own > against then r.(wins := r.wins + 1)
      else if own < against then r.(losses := r.losses + 1)
      else r.(draws := r.draws + 1)
  }

  /** The record of the team over the matches, in order. */
  function Tally(ms: seq<Match>, teamId: int): Record {
    if ms == [] then Record(0, 0, 0, 0, 0)
    else Recorded(Tally(ms[..|ms| - 1], teamId), ms[|ms| - 1], teamId)
  }

  /** Every FINISHED match is counted exactly once, and nothing else is. */
  lemma {:induction false} TallyCountsFinished(ms: seq<Match>, teamId: int)
    ensures Played(Tally(ms, teamId)) == |FinishedOnly(ms)| <= |ms|
  {
    if ms != [] {
      TallyCountsFinished(ms[..|ms| - 1], teamId);
    }
  }

  /** When every match is between teams `a` and `b`, the record of `b` is the
      record of `a` mirrored: a's wins are b's losses and the goals swap. */
  lemma {:induction false} TallyMirrors(ms: seq<Match>, a: int, b: int)
    requires a != b
    requires forall i :: 0 <= i < |ms| ==> PairsTeams(ms[i], a, b)
    ensures Tally(ms, b) == Mirror(Tally(ms, a))
  {
    if ms != [] {
      TallyMirrors(ms[..|ms| - 1], a, b);
    }
  }

  // ---------------------------------------------------------------------
  // Head to head
  // ---------------------------------------------------------------------

  const HeadToHeadTitle := "\nHEAD-TO-HEAD"
  const NoHeadToHead := HeadToHeadTitle + "\nNo previous matches found.\n\n"
  const HeadToHeadHeader := HeadToHeadTitle + " STATISTICS\n"

  /** `%.0f%%` of n * 100 / total. */
  function Percent(n: nat, total: nat): string
    requires total > 0
  {
    FormatFixed(n * 100, total, 0)
  }

  /** The lines after "Total matches": shares of the fixture's home team, of
      draws and of the away team, then the average goals; nothing when no
      match between them is FINISHED. */
  function HeadToHeadShares(fixture: Match, r: Record): string {
    var total := Played(r);
    if total == 0 then ""
    else
      var home := fixture.homeTeam.name;
      var away := fixture.awayTeam.name;
      home + ": " + IntToString(r.wins) + " wins (" + Percent(r.wins, total) + "%)\n"
      + "Draws: " + IntToString(r.draws) + " (" + Percent(r.draws, total) + "%)\n"
      + away + ": " + IntToString(r.losses) + " wins (" + Percent(r.losses, total) + "%)\n"
      + "Average goals: " + home + " " + FormatFixed(r.goalsFor, total, 1)
      + " - " + FormatFixed(r.goalsAgainst, total, 1) + " " + away + "\n\n"
  }

  /** The head-to-head text for the fixture, given what findMatchesBetweenTeams
      returned. "Total matches" counts every match found; the shares count
      only the FINISHED ones, seen from the fixture's home team. */
  function HeadToHeadText(fixture: Match, h2h: seq<Match>): (r: string)
    ensures h2h == [] ==> r == NoHeadToHead
    ensures h2h != [] ==> StartsWith(r, HeadToHeadHeader) && r != NoHeadToHead
    ensures h2h != [] ==> StartsWith(r, HeadToHeadHeader + TotalLine(|h2h|))
    ensures h2h != [] ==> EndsWith(r, HeadToHeadShares(fixture, Tally(h2h, fixture.homeTeam.id)))
    ensures |r| > 0
  {
    if h2h == [] then NoHeadToHead
    else
      var shares := HeadToHeadShares(fixture, Tally(h2h, fixture.homeTeam.id));
      var head := HeadToHeadHeader + TotalLine(|h2h|);
      HeaderLeads(TotalLine(|h2h|), shares);
      Framed(head, shares);
      head + shares
  }

  /** The line counting every match found, FINISHED or not. */
  function TotalLine(n: nat): string {
    "Total matches: " + IntToString(n) + "\n"
  }

  /** Whatever follows the header, the text is not the no-matches text. */
  lemma HeaderLeads(total: string, shares: string)
    ensures StartsWith(HeadToHeadHeader + total + shares, HeadToHeadHeader)
    ensures HeadToHeadHeader + total + shares != NoHeadToHead
  {
    var r := HeadToHeadHeader + total + shares;
    assert r[..|HeadToHeadHeader|] == HeadToHeadHeader;
    assert r[|HeadToHeadTitle|] == ' ' != NoHeadToHead[|HeadToHeadTitle|];
  }

  /** Both forms of the head-to-head text open with its title. */
  lemma HeadToHeadOpensWithTitle(fixture: Match, h2h: seq<Match>)
    ensures StartsWith(HeadToHeadText(fixture, h2h), HeadToHeadTitle)
  {
    var r := HeadToHeadText(fixture, h2h);
    if h2h == [] {
      assert r[..|HeadToHeadTitle|] == HeadToHeadTitle;
    } else {
      assert r[..|HeadToHeadTitle|] == HeadToHeadHeader[..|HeadToHeadTitle|];
    }
  }

  /** The share lines appear exactly when some match found is FINISHED. */
  lemma SharesIffFinished(fixture: Match, h2h: seq<Match>)
    ensures HeadToHeadShares(fixture, Tally(h2h, fixture.homeTeam.id)) == [] <==> FinishedOnly(h2h) == []
  {
    TallyCountsFinished(h2h, fixture.homeTeam.id);
  }

  /** getHeadToHeadStats: the counting loop, proved to build HeadToHeadText. */
  method HeadToHeadStats(fixture: Match, h2h: seq<Match>) returns (text: string)
    ensures text == HeadToHeadText(fixture, h2h)
  {
    if h2h == [] {
      return NoHeadToHead;
    }
    var record := Record(0, 0, 0, 0, 0);
    for i := 0 to |h2h|
      invariant record == Tally(h2h[..i], fixture.homeTeam.id)
    {
      assert h2h[..i + 1][..i] == h2h[..i];
      record := RecordMatch(record, h2h[i], fixture.homeTeam.id);
    }
    assert h2h[..|h2h|] == h2h;
    text := HeadToHeadHeader + ("Total matches: " + IntToString(|h2h|) + "\n"
            + HeadToHeadShares(fixture, record));
  }

  /** One iteration of getHeadToHeadStats's loop, seen from team1. */
  method RecordMatch(record: Record, m: Match, teamId: int) returns (r: Record)
    ensures r == Recorded(record, m, teamId)
  {
    r := record;
    if IsFinished(m) {
      var homeIsTeam1 := m.homeTeam.id == teamId;
      var team1Score := if homeIsTeam1 then m.homeScore else m.awayScore;
      var team2Score := if homeIsTeam1 then m.awayScore else m.homeScore;
      r := r.(goalsFor := r.goalsFor + team1Score, goalsAgainst := r.goalsAgainst + team2Score);
      if team1Score > team2Score {
        r := r.(wins := r.wins + 1);
      } else if team1Score < team2Score {
        r := r.(losses := r.losses + 1);
      } else {
        r := r.(draws := r.draws + 1);
      }
    }
  }

  // ---------------------------------------------------------------------
  // Recent form
  // ---------------------------------------------------------------------

  /** Latest match first. */
  predicate NewestFirst(ms: seq<Match>) {
    forall i, j :: 0 <= i < j < |ms| ==> ms[i].matchDate.seconds >= ms[j].matchDate.seconds
  }

  /** A match no older than every match of a newest-first list can go in
      front of it. */
  lemma NewestCons(m: Match, rest: seq<Match>)
    requires NewestFirst(rest)
    requires forall j :: 0 <= j < |rest| ==> m.matchDate.seconds >= rest[j].matchDate.seconds
    ensures NewestFirst([m] + rest)
  {
    var r := [m] + rest;
    forall i, j | 0 <= i < j < |r| ensures r[i].matchDate.seconds >= r[j].matchDate.seconds {
      assert r[j] == rest[j - 1];
      if i > 0 { assert r[i] == rest[i - 1]; }
    }
  }

  /** Places `m` after every match not older than it, so matches on the same
      date keep their order. */
  function InsertByDate(s: seq<Match>, m: Match): (r: seq<Match>)
    requires NewestFirst(s)
    ensures NewestFirst(r)
    ensures multiset(r) == multiset(s) + multiset{m}
  {
    if s == [] then [m]
    else if s[0].matchDate.seconds < m.matchDate.seconds then
      NewestCons(m, s);
      [m] + s
    else
      var rest := InsertByDate(s[1..], m);
      assert s == [s[0]] + s[1..];
      forall j | 0 <= j < |rest| ensures s[0].matchDate.seconds >= rest[j].matchDate.seconds {
        assert rest[j] in multiset(rest);
        assert rest[j] == m || rest[j] in multiset(s[1..]);
      }
      NewestCons(s[0], rest);
      [s[0]] + rest
  }

  /** The stable sort by match date, latest first: matches on the same
      date stay in the order they came in. */
  function SortNewestFirst(ms: seq<Match>): (r: seq<Match>)
    ensures NewestFirst(r)
    ensures multiset(r) == multiset(ms)
    ensures forall d :: OnDate(r, d) == OnDate(ms, d)
  {
    if ms == [] then []
    else
      var init := ms[..|ms| - 1];
      var last := ms[|ms| - 1];
      var r := InsertByDate(SortNewestFirst(init), last);
      assert ms == init + [last];
      InsertKeepsDateOrder(SortNewestFirst(init), last);
      OnDateSnoc(init, last);
      r
  }

  /** The matches on date `d`, in order. */
  function OnDate(s: seq<Match>, d: int): seq<Match> {
    if s == [] then []
    else (if s[0].matchDate.seconds == d then [s[0]] else []) + OnDate(s[1..], d)
  }

  /** Adding a match at the end adds it to its own date only. */
  lemma {:induction false} OnDateSnoc(a: seq<Match>, m: Match)
    ensures forall d :: OnDate(a + [m], d) == OnDate(a, d) + (if m.matchDate.seconds == d then [m] else [])
  {
    if a == [] {
      assert a + [m] == [m];
      forall d ensures OnDate([m], d) == (if m.matchDate.seconds == d then [m] else []) {
        assert [m][1..] == [];
      }
    } else {
      OnDateSnoc(a[1..], m);
      assert (a + [m])[1..] == a[1..] + [m];
      assert (a + [m])[0] == a[0];
    }
  }

  /** A newest-first list holds nothing on a date later than its first. */
  lemma {:induction false} NothingLater(s: seq<Match>, d: int)
    requires NewestFirst(s) && s != [] && s[0].matchDate.seconds < d
    ensures OnDate(s, d) == []
  {
    if |s| > 1 {
      NothingLater(s[1..], d);
    }
  }

  /** Inserting puts `m` after the matches of its own date already there,
      and leaves every other date alone. */
  lemma {:induction false} InsertKeepsDateOrder(s: seq<Match>, m: Match)
    requires NewestFirst(s)
    ensures forall d :: OnDate(InsertByDate(s, m), d)
                        == OnDate(s, d) + (if m.matchDate.seconds == d then [m] else [])
  {
    if s == [] {
    } else if s[0].matchDate.seconds < m.matchDate.seconds {
      assert InsertByDate(s, m) == [m] + s;
      assert ([m] + s)[1..] == s;
      NothingLater(s, m.matchDate.seconds);
    } else {
      InsertKeepsDateOrder(s[1..], m);
      var r := InsertByDate(s, m);
      assert r == [s[0]] + InsertByDate(s[1..], m);
      assert r[1..] == InsertByDate(s[1..], m);
    }
  }

  const FormLength := 5

  /** The team's at most five latest FINISHED matches, latest first, each a
      FINISHED match of the input. */
  function RecentFinished(ms: seq<Match>): (r: seq<Match>)
    ensures |r| == if |FinishedOnly(ms)| < FormLength then |FinishedOnly(ms)| else FormLength
    ensures NewestFirst(r)
    ensures forall m :: m in r ==> m in ms && IsFinished(m)
  {
    var finished := FinishedOnly(ms);
    var s := SortNewestFirst(finished);
    var r := if |s| <= FormLength then s else s[..FormLength];
    assert |s| == |multiset(s)| == |multiset(finished)| == |finished|;
    forall m | m in r ensures m in ms && IsFinished(m) {
      assert m in multiset(s);
    }
    r
  }

  /** No FINISHED match left out of the form is later than one kept in it. */
  lemma RecentAreLatest(ms: seq<Match>)
    ensures forall m, x :: m in ms && IsFinished(m) && m !in RecentFinished(ms) && x in RecentFinished(ms) ==>
                             x.matchDate.seconds >= m.matchDate.seconds
  {
    var finished := FinishedOnly(ms);
    var s := SortNewestFirst(finished);
    var r := RecentFinished(ms);
    assert r == if |s| <= FormLength then s else s[..FormLength];
    forall m, x | m in ms && IsFinished(m) && m !in r && x in r
      ensures x.matchDate.seconds >= m.matchDate.seconds
    {
      assert m in multiset(finished);
      var k :| 0 <= k < |s| && s[k] == m;
      var i :| 0 <= i < |r| && r[i] == x;
      assert k >= |r|;
    }
  }

  function ResultMark(own: int, against: int): char {
    if own > against then 'W' else if own < against then 'L' else 'D'
  }

  /** The opponent of the team in the match. */
  function Opponent(m: Match, teamId: int): string {
    if m.homeTeam.id == teamId then m.awayTeam.name else m.homeTeam.name
  }

  /** "  vs %s: %d-%d (%c)\n" */
  function FormLine(opponent: string, own: int, against: int, mark: char): string {
    "  vs " + opponent + ": " + IntToString(own) + "-" + IntToString(against) + " (" + [mark] + ")\n"
  }

  /** The line of one match in the team's form. */
  function MatchLine(m: Match, teamId: int): string {
    var own := Side(m, teamId).0;
    var against := Side(m, teamId).1;
    FormLine(Opponent(m, teamId), own, against, ResultMark(own, against))
  }

  const FormHeading := "Last 5 matches:\n"

  /** The text and the counts getTeamForm has built after the matches: the
      heading and one line a match, and the wins, draws and losses. */
  datatype FormState = FormState(text: string, wins: nat, draws: nat, losses: nat)

  function FormScan(ms: seq<Match>, teamId: int): FormState {
    if ms == [] then FormState(FormHeading, 0, 0, 0)
    else FormStep(FormScan(ms[..|ms| - 1], teamId), ms[|ms| - 1], teamId)
  }

  /** One match more: its line, and one more win, draw or loss. */
  function FormStep(st: FormState, m: Match, teamId: int): FormState {
    var mark := ResultMark(Side(m, teamId).0, Side(m, teamId).1);
    FormState(st.text + MatchLine(m, teamId),
              st.wins + (if mark == 'W' then 1 else 0),
              st.draws + (if mark == 'D' then 1 else 0),
              st.losses + (if mark == 'L' then 1 else 0))
  }

  /** Scanning one more match is one more step. */
  lemma FormNext(ms: seq<Match>, i: nat, teamId: int)
    requires i < |ms|
    ensures FormScan(ms[..i + 1], teamId) == FormStep(FormScan(ms[..i], teamId), ms[i], teamId)
  {
    assert ms[..i + 1][..i] == ms[..i];
  }

  /** Every match of the form is a win, a draw or a loss, and the counts
      agree with the head-to-head tally of the same matches. */
  lemma {:induction false} FormScanCounts(ms: seq<Match>, teamId: int)
    requires forall m :: m in ms ==> IsFinished(m)
    ensures var st := FormScan(ms, teamId);
            var r := Tally(ms, teamId);
            && st.wins + st.draws + st.losses == |ms|
            && st.wins == r.wins && st.draws == r.draws && st.losses == r.losses
  {
    if ms != [] {
      assert ms[|ms| - 1] in ms;
      FormScanCounts(ms[..|ms| - 1], teamId);
    }
  }

  /** Three points a win, one a draw. */
  function Points(wins: nat, draws: nat): nat {
    3 * wins + draws
  }

  const NoRecentMatches := "No recent matches available.\n\n"

  /** The form block over the recent matches: one line a match, then the
      counts and the points. */
  function FormBlock(recent: seq<Match>, teamId: int): string {
    var st := FormScan(recent, teamId);
    st.text + FormSummary(st.wins, st.draws, st.losses)
  }

  /** The closing line of a form: the counts and the points they are worth. */
  function FormSummary(wins: nat, draws: nat, losses: nat): string {
    "Form: " + IntToString(wins) + "W-" + IntToString(draws) + "D-"
    + IntToString(losses) + "L (" + IntToString(Points(wins, draws)) + " points from 15)\n\n"
  }

  /** The form text of one team, given the matches findByTeam returned. */
  function TeamFormText(team: Team, played: seq<Match>): string {
    var recent := RecentFinished(played);
    if recent == [] then NoRecentMatches else FormBlock(recent, team.id)
  }

  /** getTeamForm: selects the recent matches and formats them. */
  method TeamForm(team: Team, played: seq<Match>) returns (text: string)
    ensures text == TeamFormText(team, played)
  {
    var recent := RecentFinished(played);
    if recent == [] {
      return NoRecentMatches;
    }
    text := FormOf(team, recent);
  }

  /** The loop of getTeamForm over the recent matches, proved to build
      FormBlock. */
  method FormOf(team: Team, recent: seq<Match>) returns (text: string)
    ensures text == FormBlock(recent, team.id)
  {
    var st := FormState(FormHeading, 0, 0, 0);
    for i := 0 to |recent|
      invariant st == FormScan(recent[..i], team.id)
    {
      FormNext(recent, i, team.id);
      st := FormMatch(st, recent[i], team.id);
    }
    assert recent[..|recent|] == recent;
    text := st.text + FormSummary(st.wins, st.draws, st.losses);
  }

  /** One iteration of getTeamForm's loop: the scores from the team's side,
      the line, and the count of the result. */
  method FormMatch(st: FormState, m: Match, teamId: int) returns (r: FormState)
    ensures r == FormStep(st, m, teamId)
  {
    var isHome := m.homeTeam.id == teamId;
    var teamScore := if isHome then m.homeScore else m.awayScore;
    var opponentScore := if isHome then m.awayScore else m.homeScore;
    var opponent := if isHome then m.awayTeam.name else m.homeTeam.name;
    var wins, draws, losses := st.wins, st.draws, st.losses;
    var result: char;
    if teamScore > opponentScore {
      wins := wins + 1;
      result := 'W';
    } else if teamScore < opponentScore {
      losses := losses + 1;
      result := 'L';
    } else {
      draws := draws + 1;
      result := 'D';
    }
    r := FormState(st.text + FormLine(opponent, teamScore, opponentScore, result), wins, draws, losses);
  }

  /** The form covers every recent match, at most five, so it is worth at
      most 15 points. */
  lemma FormPointsBound(team: Team, played: seq<Match>)
    ensures var recent := RecentFinished(played);
            var st := FormScan(recent, team.id);
            st.wins + st.draws + st.losses == |recent| <= FormLength
            && Points(st.wins, st.draws) <= 15
  {
    FormScanCounts(RecentFinished(played), team.id);
  }

  /** getTeamFormStats: the home team's form, then the away team's. The two
      headers carry no team name, and only the first has a space before the
      line break. */
  function TeamFormStats(fixture: Match, table: seq<Match>): string {
    "RECENT FORM \n" + TeamFormText(fixture.homeTeam, Involving(table, fixture.homeTeam.id))
    + "RECENT FORM\n" + TeamFormText(fixture.awayTeam, Involving(table, fixture.awayTeam.id))
  }

  /** getTeamFormStats with both form queries run; proved to build
      TeamFormStats. */
  method FormStats(fixture: Match, table: seq<Match>) returns (text: string)
    ensures text == TeamFormStats(fixture, table)
  {
    var homeForm := TeamForm(fixture.homeTeam, Involving(table, fixture.homeTeam.id));
    var awayForm := TeamForm(fixture.awayTeam, Involving(table, fixture.awayTeam.id));
    text := "RECENT FORM \n" + homeForm + "RECENT FORM\n" + awayForm;
  }
}

=== FILE: numbers.dfy ===
/** Decimal text of integers (Integer.toString, `%d`), the grammar that
    `new BigDecimal(String)` accepts, and the half-up rounding that `%.Nf`
    applies. BigDecimal values are exact reals here; their scale is not kept. */
module Numbers {
  import opened Common
  import opened JavaString

  predicate IsDigit(c: char) {
    '0' <= c <= '9'
  }

  predicate AllDigits(s: string) {
    forall i :: 0 <= i < |s| ==> IsDigit(s[i])
  }

  function DigitChar(d: nat): (c: char)
    requires d < 10
    ensures IsDigit(c)
  {
    ('0' as int + d) as char
  }

  function DigitValue(c: char): (d: nat)
    requires IsDigit(c)
    ensures d < 10
  {
    c as int - '0' as int
  }

  /** Integer.toString of a non-negative value: no sign, no leading zero. */
  function NatToString(n: nat): (r: string)
    ensures |r| >= 1 && AllDigits(r)
    ensures r[0] == '0' ==> n == 0
  {
    if n < 10 then [DigitChar(n)] else NatToString(n / 10) + [DigitChar(n % 10)]
  }

  /** The value of a string of decimal digits, most significant first. */
  function DigitsValue(s: string): nat
    requires AllDigits(s)
  {
    if s == [] then 0 else DigitsValue(s[..|s| - 1]) * 10 + DigitValue(s[|s| - 1])
  }

  /** Reading back the digits that NatToString writes gives the number. */
  lemma {:induction false} DigitsRoundTrip(n: nat)
    ensures DigitsValue(NatToString(n)) == n
  {
    if n >= 10 {
      DigitsRoundTrip(n / 10);
      var s := NatToString(n);
      assert s[..|s| - 1] == NatToString(n / 10);
    }
  }

  function Magnitude(i: int): nat {
    if i < 0 then -i else i
  }

  /** Integer.toString with a leading '-' for negative values. */
  function IntToString(i: int): (r: string)
    ensures |r| >= 1
    ensures r[0] == '-' <==> i < 0
    ensures forall k :: 0 <= k < |r| ==> r[k] == '-' || IsDigit(r[k])
  {
    if i < 0 then "-" + NatToString(-i) else NatToString(i)
  }

  /** Two integer texts each followed by a tail that opens with a space
      are equal exactly when both texts and both tails are. */
  lemma IntTextsBeforeSpace(a: int, b: int, s: string, t: string)
    requires s != [] && s[0] == ' ' && t != [] && t[0] == ' '
    requires IntToString(a) + s == IntToString(b) + t
    ensures a == b && s == t
  {
    var x, y := IntToString(a), IntToString(b);
    var m := if |x| < |y| then |x| else |y|;
    assert (x + s)[m] == (y + t)[m];
    assert |x| == |y|;
    assert x == (x + s)[..|x|] && y == (y + t)[..|y|];
    assert s == (x + s)[|x|..] && t == (y + t)[|y|..];
    IntToStringInjective(a, b);
  }

  /** Different integers have different decimal texts, so ids rendered with
      IntToString never collide. */
  lemma IntToStringInjective(a: int, b: int)
    ensures IntToString(a) == IntToString(b) ==> a == b
  {
    if IntToString(a) == IntToString(b) {
      var (m, n) := (Magnitude(a), Magnitude(b));
      assert NatToString(m) == NatToString(n) by {
        if a < 0 {
          assert NatToString(m) == IntToString(a)[1..];
          assert NatToString(n) == IntToString(b)[1..];
        }
      }
      DigitsRoundTrip(m);
      DigitsRoundTrip(n);
    }
  }

  function Pow10(k: nat): (r: nat)
    ensures r >= 1
  {
    if k == 0 then 1 else 10 * Pow10(k - 1)
  }

  /** 10 raised to an integer power, as an exact real. */
  function Scale10(e: int): (r: real)
    ensures r > 0.0
  {
    if e >= 0 then Pow10(e) as real else 1.0 / (Pow10(-e) as real)
  }

  function NonNegativeProduct(m: nat, f: real): (r: real)
    requires f > 0.0
    ensures r == (m as real) * f && r >= 0.0
  {
    var p := (m as real) * f;
    assert m == 0 ==> p == 0.0;
    p
  }

  /** Significand of a BigDecimal string: digits, optionally a '.' and more
      digits, with at least one digit in all. Gives the digits' value and the
      number of fraction digits. */
  function ParseSignificand(s: string): Option<(nat, nat)> {
    var dot := IndexOf(s, ".");
    if dot < 0 then
      if s != [] && AllDigits(s) then Some((DigitsValue(s), 0)) else None
    else
      var ip, fp := s[..dot], s[dot + 1..];
      if (ip != [] || fp != []) && AllDigits(ip) && AllDigits(fp)
      then Some((DigitsValue(ip + fp), |fp|))
      else None
  }

  /** Exponent of a BigDecimal string: an optional sign and at least one digit. */
  function ParseExponent(s: string): Option<int> {
    if s != [] && (s[0] == '+' || s[0] == '-') then
      var d := s[1..];
      if d != [] && AllDigits(d)
      then Some(if s[0] == '-' then -(DigitsValue(d) as int) else DigitsValue(d))
      else None
    else if s != [] && AllDigits(s) then Some(DigitsValue(s))
    else None
  }

  function ParseUnsigned(s: string): (r: Option<real>)
    ensures r.Some? ==> r.value >= 0.0
  {
    var (e, _) := FindSeparator(s, ["e", "E"]);
    var sig := ParseSignificand(if e < 0 then s else s[..e]);
    var exp := if e < 0 then Some(0) else ParseExponent(s[e + 1..]);
    if sig.None? || exp.None? then None
    else Some(NonNegativeProduct(sig.value.0, Scale10(exp.value - sig.value.1)))
  }

  /** new BigDecimal(s): None where the constructor throws
      NumberFormatException. */
  function ParseDecimal(s: string): (r: Option<real>)
    ensures s == [] ==> r == None
    ensures r.Some? && s[0] == '-' ==> r.value <= 0.0
    ensures r.Some? && s[0] != '-' ==> r.value >= 0.0
  {
    if s == [] then None
    else if s[0] == '-' || s[0] == '+' then
      match ParseUnsigned(s[1..])
      case None => None
      case Some(v) => Some(if s[0] == '-' then -v else v)
    else ParseUnsigned(s)
  }

  /** BigDecimal of plain decimal text "ip.fp": the digits' value scaled
      down by one power of ten per fraction digit, so "45.5" is 45.5. */
  lemma ParsePointText(ip: string, fp: string)
    requires AllDigits(ip) && AllDigits(fp) && (ip != [] || fp != [])
    ensures AllDigits(ip + fp)
    ensures ParseDecimal(ip + "." + fp) == Some((DigitsValue(ip + fp) as real) / (Pow10(|fp|) as real))
  {
    var s := ip + "." + fp;
    PointTextShape(ip, fp);
    NoLetterNoSeparator(s);
    PointSignificand(ip, fp);
    PlainDecimal(s, DigitsValue(ip + fp), |fp|);
  }

  /** Unsigned text without an exponent marker whose significand has value m
      and k fraction digits is m / 10^k. */
  lemma PlainDecimal(s: string, m: nat, k: nat)
    requires s != [] && s[0] != '-' && s[0] != '+'
    requires FindSeparator(s, ["e", "E"]).0 == -1
    requires ParseSignificand(s) == Some((m, k))
    ensures ParseDecimal(s) == Some((m as real) / (Pow10(k) as real))
  {
    UnsignedWithoutExponent(s);
    UnsignedText(s);
    ScaleDown(m, k);
  }

  /** The significand of "ip.fp" is the digits ip + fp with |fp| fraction digits. */
  lemma PointSignificand(ip: string, fp: string)
    requires AllDigits(ip) && AllDigits(fp) && (ip != [] || fp != [])
    ensures AllDigits(ip + fp)
    ensures ParseSignificand(ip + "." + fp) == Some((DigitsValue(ip + fp), |fp|))
  {
    DigitsAppend(ip, fp);
    DotAt(ip, fp);
  }

  /** Unsigned text without an exponent marker is its significand scaled
      down by its fraction digits. */
  lemma UnsignedWithoutExponent(s: string)
    requires FindSeparator(s, ["e", "E"]).0 == -1
    requires ParseSignificand(s).Some?
    ensures var (m, k) := ParseSignificand(s).value;
            ParseUnsigned(s) == Some(NonNegativeProduct(m, Scale10(0 - k)))
  {
  }

  /** Text that opens with neither sign is read as unsigned. */
  lemma UnsignedText(s: string)
    requires s != [] && s[0] != '-' && s[0] != '+'
    ensures ParseDecimal(s) == ParseUnsigned(s)
  {
  }

  /** Decimal text has no sign and no exponent marker. */
  lemma PointTextShape(ip: string, fp: string)
    requires AllDigits(ip) && AllDigits(fp)
    ensures var s := ip + "." + fp;
            && s[0] != '-' && s[0] != '+'
            && forall k :: 0 <= k < |s| ==> s[k] != 'e' && s[k] != 'E'
  {
    var s := ip + "." + fp;
    assert forall k :: 0 <= k < |s| ==> s[k] == '.' || IsDigit(s[k]);
  }

  /** The first '.' of decimal text is the one after the integer digits. */
  lemma DotAt(ip: string, fp: string)
    requires AllDigits(ip)
    ensures var s := ip + "." + fp;
            IndexOf(s, ".") == |ip| && s[..|ip|] == ip && s[|ip| + 1..] == fp
  {
    var s := ip + "." + fp;
    var dot := IndexOf(s, ".");
    assert OccursAt(s, ".", |ip|) by {
      assert s[|ip|..|ip| + 1] == ".";
    }
    forall k | 0 <= k < |ip|
      ensures !OccursAt(s, ".", k)
    {
      assert s[k..k + 1][0] == s[k] == ip[k];
    }
    assert s[..|ip|] == ip && s[|ip| + 1..] == fp;
  }

  /** Scaling by 10^-k divides by 10^k. */
  lemma ScaleDown(m: nat, k: nat)
    ensures NonNegativeProduct(m, Scale10(0 - k)) == (m as real) / (Pow10(k) as real)
  {
    var p := Pow10(k) as real;
    if k > 0 {
      assert Scale10(0 - k) == 1.0 / p;
    }
  }


  /** Every integer that `%d` or Integer.toString writes parses back to
      itself, so "HOME_WIN: 55" yields exactly 55. */
  lemma ParseIntText(i: int)
    ensures ParseDecimal(IntToString(i)) == Some(i as real)
  {
    var n: nat := if i < 0 then -i else i;
    ParseNatText(n);
    if i < 0 {
      assert IntToString(i)[1..] == NatToString(n);
    }
  }

  /** The digits of a natural number parse back to it. */
  lemma ParseNatText(n: nat)
    ensures ParseUnsigned(NatToString(n)) == Some(n as real)
  {
    var digits := NatToString(n);
    DigitsRoundTrip(n);
    NoLetterNoSeparator(digits);
    assert IndexOf(digits, ".") == -1 by {
      forall k | 0 <= k && k + 1 <= |digits| ensures !OccursAt(digits, ".", k) {
        assert digits[k..k + 1] == [digits[k]];
      }
    }
    assert ParseSignificand(digits) == Some((n, 0));
  }

  /** A string without 'e' or 'E' holds no exponent marker. */
  lemma NoLetterNoSeparator(s: string)
    requires forall k :: 0 <= k < |s| ==> s[k] != 'e' && s[k] != 'E'
    ensures FindSeparator(s, ["e", "E"]).0 == -1
  {
    if s != [] {
      assert s[..1] == [s[0]];
      assert !StartsWith(s, "e") && !StartsWith(s, "E");
      NoLetterNoSeparator(s[1..]);
    }
  }

  /** Rounds a / d to the nearest integer, halves upward (RoundingMode.HALF_UP
      on a non-negative value). */
  function RoundHalfUp(a: nat, d: nat): (q: nat)
    requires d > 0
    ensures 2 * q * d <= 2 * a + d < 2 * (q + 1) * d
  {
    (2 * a + d) / (2 * d)
  }

  function ZeroPad(s: string, width: nat): (r: string)
    ensures |r| >= width && |r| >= |s|
    ensures |s| <= width ==> |r| == width
    ensures AllDigits(s) ==> AllDigits(r) && DigitsValue(r) == DigitsValue(s)
    decreases width - |s|
  {
    if |s| >= width then s
    else
      assert AllDigits(s) ==> DigitsValue("0" + s) == DigitsValue(s) by {
        if AllDigits(s) {
          DigitsAppend("0", s);
        }
      }
      ZeroPad("0" + s, width)
  }

  /** The value of two digit strings one after the other. */
  lemma {:induction false} DigitsAppend(a: string, b: string)
    requires AllDigits(a) && AllDigits(b)
    ensures AllDigits(a + b)
    ensures DigitsValue(a + b) == DigitsValue(a) * Pow10(|b|) + DigitsValue(b)
  {
    if b == [] {
      assert a + b == a;
    } else {
      var b0 := b[..|b| - 1];
      DigitsAppend(a, b0);
      assert (a + b)[..|a + b| - 1] == a + b0;
      assert DigitsValue(a + b) == DigitsValue(a + b0) * 10 + DigitValue(b[|b| - 1]);
      assert DigitsValue(b) == DigitsValue(b0) * 10 + DigitValue(b[|b| - 1]);
      assert Pow10(|b|) == 10 * Pow10(|b0|);
      TimesTen(DigitsValue(a), Pow10(|b0|));
    }
  }

  lemma TimesTen(x: nat, p: nat)
    ensures x * (10 * p) == (x * p) * 10
  {
  }

  /** A number below 10^k takes at most k digits. */
  lemma {:induction false} NatToStringLength(n: nat, k: nat)
    requires k >= 1 && n < Pow10(k)
    ensures |NatToString(n)| <= k
  {
    if n >= 10 {
      assert k >= 2;
      assert n / 10 < Pow10(k - 1);
      NatToStringLength(n / 10, k - 1);
    }
  }

  /** The digits of q / 10^places with exactly `places` fraction digits. */
  function FixedDigits(q: nat, places: nat): (r: string)
    ensures |r| >= 1 && IsDigit(r[0])
  {
    var unit := Pow10(places);
    DivisionOfNat(q, unit);
    var whole := NatToString(q / unit);
    var fraction := if places == 0 then "" else "." + ZeroPad(NatToString(q % unit), places);
    assert (whole + fraction)[0] == whole[0];
    whole + fraction
  }

  /** The digits FixedDigits writes read back as q / 10^places. */
  lemma FixedDigitsValue(q: nat, places: nat)
    ensures ParseDecimal(FixedDigits(q, places)) == Some((q as real) / (Pow10(places) as real))
  {
    var unit := Pow10(places);
    DivisionOfNat(q, unit);
    if places == 0 {
      assert q / unit == q;
      assert FixedDigits(q, places) == NatToString(q) == IntToString(q);
      ParseIntText(q);
    } else {
      var whole := NatToString(q / unit);
      var padded := ZeroPad(NatToString(q % unit), places);
      assert FixedDigits(q, places) == whole + "." + padded;
      SplitDigitsValue(q, places);
      ParsePointText(whole, padded);
    }
  }

  /** The whole digits and the zero-padded fraction digits of q / 10^places
      read together as q. */
  lemma SplitDigitsValue(q: nat, places: nat)
    requires places > 0
    ensures var unit := Pow10(places);
            q / unit >= 0 && q % unit >= 0
    ensures var unit := Pow10(places);
            var whole := NatToString(q / unit);
            var padded := ZeroPad(NatToString(q % unit), places);
            AllDigits(padded) && |padded| == places && DigitsValue(whole + padded) == q
  {
    var unit := Pow10(places);
    DivisionOfNat(q, unit);
    var whole := NatToString(q / unit);
    var frac := NatToString(q % unit);
    NatToStringLength(q % unit, places);
    var padded := ZeroPad(frac, places);
    DigitsRoundTrip(q / unit);
    DigitsRoundTrip(q % unit);
    DigitsAppend(whole, padded);
  }

  /** Quotient and remainder of a natural number are natural. */
  lemma DivisionOfNat(n: nat, d: nat)
    requires d > 0
    ensures n / d >= 0 && n % d >= 0
    ensures (n / d) * d + n % d == n
  {
  }

  /** `%.Nf` of the exact quotient num / den: half-up rounding to `places`
      fraction digits, a '-' for a negative quotient. */
  function FormatFixed(num: int, den: nat, places: nat): (r: string)
    requires den > 0
    ensures |r| >= 1
    ensures r[0] == '-' <==> num < 0
  {
    var digits := RoundedDigits(num, den, places);
    if num < 0 then "-" + digits else digits
  }

  /** v is within half of 1 / unit of num / den:
      |v - num / den| <= 1 / (2 * unit). */
  predicate WithinHalfUnit(v: real, num: int, den: nat, unit: nat) {
    -(den as real) <= 2.0 * (unit as real) * (v * (den as real) - (num as real)) <= den as real
  }

  /** The text `%.Nf` writes parses back to within half a unit in its last
      place of num / den. */
  lemma FormatFixedParsesBack(num: int, den: nat, places: nat)
    requires den > 0
    ensures ParseDecimal(FormatFixed(num, den, places)).Some?
    ensures WithinHalfUnit(ParseDecimal(FormatFixed(num, den, places)).value, num, den, Pow10(places))
  {
    var a := Magnitude(num);
    var unit := Pow10(places);
    var u := RoundedMagnitude(num, den, places);
    var v := ParseDecimal(FormatFixed(num, den, places));
    FormatFixedValue(num, den, places);
    RoundingError(a, unit, den);
    if num < 0 {
      NegatedWithinHalfUnit(u, a, v.value, num, den, unit);
    } else {
      assert v.value == u && num == a;
    }
  }

  /** |num| / den rounded half-up to `places` fraction digits, as an exact value. */
  function RoundedMagnitude(num: int, den: nat, places: nat): real
    requires den > 0
  {
    (RoundHalfUp(Magnitude(num) * Pow10(places), den) as real) / (Pow10(places) as real)
  }

  /** `%.Nf` text reads back as the rounded magnitude, negated for a
      negative quotient. */
  lemma FormatFixedValue(num: int, den: nat, places: nat)
    requires den > 0
    ensures num < 0 ==> ParseDecimal(FormatFixed(num, den, places)) == Some(-RoundedMagnitude(num, den, places))
    ensures num >= 0 ==> ParseDecimal(FormatFixed(num, den, places)) == Some(RoundedMagnitude(num, den, places))
  {
    if num < 0 {
      NegativeFormatValue(num, den, places);
    } else {
      RoundedDigitsValue(num, den, places);
    }
  }

  lemma NegativeFormatValue(num: int, den: nat, places: nat)
    requires den > 0 && num < 0
    ensures ParseDecimal(FormatFixed(num, den, places)) == Some(-RoundedMagnitude(num, den, places))
  {
    var digits := RoundedDigits(num, den, places);
    RoundedDigitsValue(num, den, places);
    NegatedText(digits, RoundedMagnitude(num, den, places));
  }

  /** The digits `%.Nf` writes for |num| / den. */
  function RoundedDigits(num: int, den: nat, places: nat): string
    requires den > 0
  {
    FixedDigits(RoundHalfUp(Magnitude(num) * Pow10(places), den), places)
  }

  lemma RoundedDigitsValue(num: int, den: nat, places: nat)
    requires den > 0
    ensures ParseDecimal(RoundedDigits(num, den, places)) == Some(RoundedMagnitude(num, den, places))
  {
    FixedDigitsValue(RoundHalfUp(Magnitude(num) * Pow10(places), den), places);
  }

  /** A '-' before digit text negates its value. */
  lemma NegatedText(digits: string, u: real)
    requires digits != [] && IsDigit(digits[0])
    requires ParseDecimal(digits) == Some(u)
    ensures ParseDecimal("-" + digits) == Some(-u)
  {
    assert ("-" + digits)[1..] == digits;
  }

  /** Negating both the value and the quotient keeps the distance. */
  lemma NegatedWithinHalfUnit(v: real, num: int, w: real, m: int, den: nat, unit: nat)
    requires WithinHalfUnit(v, num, den, unit)
    requires w == -v && m == -num
    ensures WithinHalfUnit(w, m, den, unit)
  {
    var d := v * (den as real) - (num as real);
    assert w * (den as real) - (m as real) == -d;
  }

  /** Half-up rounding of a * unit / den is off by at most half of 1 / unit. */
  lemma RoundingError(a: nat, unit: nat, den: nat)
    requires unit >= 1 && den >= 1
    ensures WithinHalfUnit((RoundHalfUp(a * unit, den) as real) / (unit as real), a, den, unit)
  {
    var q := RoundHalfUp(a * unit, den);
    var u := (q as real) / (unit as real);
    var e: int := 2 * ((q * den) as int - (a * unit) as int);
    assert -(den as int) <= e <= den;
    assert u * (unit as real) == q as real;
    assert 2.0 * (unit as real) * (u * (den as real) - (a as real)) == e as real;
  }
}

=== FILE: rag_parser.dfy ===
/** The reply parser of the RAG pipeline (AiPredictionService.parseAiResponse).
    It scans the reply line by line; a trimmed line that starts with
    "HOME_WIN:", "DRAW:" or "AWAY_WIN:" (case-sensitive) sets that
    probability, "REASONING:" starts the reasoning, and later lines that are
    not field lines are appended to it. A field value that is not a BigDecimal
    makes the whole parse fail. */
module RagParser {
  import opened Common
  import opened JavaString
  import opened Numbers
  import opened Domain

  const HomeWinPrefix := "HOME_WIN:"
  const DrawPrefix := "DRAW:"
  const AwayWinPrefix := "AWAY_WIN:"
  const ReasoningPrefix := "REASONING:"
  const NoReasoning := "AI did not provide explicit reasoning. Full response: "

  /** The three probabilities before any field line is read. */
  const DefaultHomeWin := 33.33
  const DefaultDraw := 33.34
  const DefaultAwayWin := 33.33

  /** The three probabilities a reply line can set. */
  datatype FieldName = HomeWin | Draw | AwayWin

  /** The prefix of a line that sets the field. */
  function Prefix(field: FieldName): (r: string)
    ensures |r| > 0
  {
    match field
    case HomeWin => HomeWinPrefix
    case Draw => DrawPrefix
    case AwayWin => AwayWinPrefix
  }

  /** The field a trimmed line sets, by the first prefix it starts with. */
  function FieldOf(line: string): (r: Option<FieldName>)
    ensures r.Some? ==> StartsWith(line, Prefix(r.value))
    ensures r.None? ==> !StartsWith(line, HomeWinPrefix) && !StartsWith(line, DrawPrefix)
                        && !StartsWith(line, AwayWinPrefix)
  {
    if StartsWith(line, HomeWinPrefix) then Some(HomeWin)
    else if StartsWith(line, DrawPrefix) then Some(Draw)
    else if StartsWith(line, AwayWinPrefix) then Some(AwayWin)
    else None
  }

  /** line.replace(prefix, "").replace("%", "").trim() */
  function FieldValue(line: string, prefix: string): string
    requires |prefix| > 0
  {
    Trim(Replace(Replace(line, prefix, ""), "%", ""))
  }

  /** The trimmed line is a field line whose value BigDecimal rejects. */
  predicate Malformed(rawLine: string) {
    var line := Trim(rawLine);
    FieldOf(line).Some? && ParseDecimal(FieldValue(line, Prefix(FieldOf(line).value))).None?
  }

  /** The variables of the scanning loop. */
  datatype ScanState = ScanState(
    homeWin: real,
    draw: real,
    awayWin: real,
    reasoning: string,
    inReasoning: bool)

  const Initial := ScanState(DefaultHomeWin, DefaultDraw, DefaultAwayWin, "", false)

  function Field(st: ScanState, field: FieldName): real {
    match field
    case HomeWin => st.homeWin
    case Draw => st.draw
    case AwayWin => st.awayWin
  }

  function SetField(st: ScanState, field: FieldName, v: real): (r: ScanState)
    ensures Field(r, field) == v && r.reasoning == st.reasoning && r.inReasoning == st.inReasoning
    ensures forall other :: other != field ==> Field(r, other) == Field(st, other)
  {
    match field
    case HomeWin => st.(homeWin := v)
    case Draw => st.(draw := v)
    case AwayWin => st.(awayWin := v)
  }

  /** One loop iteration on a raw line. A field line changes only its field;
      a malformed one fails with the rejected text. */
  function Step(st: ScanState, rawLine: string): (r: Result<ScanState>)
    ensures r.Err? <==> Malformed(rawLine)
    ensures r.Ok? && FieldOf(Trim(rawLine)).Some? ==>
              r.value.reasoning == st.reasoning && r.value.inReasoning == st.inReasoning
    ensures FieldOf(Trim(rawLine)).None? && !StartsWith(Trim(rawLine), ReasoningPrefix) && !st.inReasoning ==>
              r == Ok(st)
    ensures FieldOf(Trim(rawLine)).None? ==> r == Ok(TextStep(st, Trim(rawLine)))
  {
    var line := Trim(rawLine);
    match FieldOf(line)
    case Some(field) => FieldStep(st, field, line)
    case None => Ok(TextStep(st, line))
  }

  /** A field line: the parsed value replaces the field, or the text that
      BigDecimal rejects is the error. */
  function FieldStep(st: ScanState, field: FieldName, line: string): (r: Result<ScanState>)
    ensures r.Err? <==> ParseDecimal(FieldValue(line, Prefix(field))).None?
    ensures r.Ok? ==> Some(Field(r.value, field)) == ParseDecimal(FieldValue(line, Prefix(field)))
    ensures r.Ok? ==> forall other :: other != field ==> Field(r.value, other) == Field(st, other)
    ensures r.Ok? ==> r.value.reasoning == st.reasoning && r.value.inReasoning == st.inReasoning
  {
    var text := FieldValue(line, Prefix(field));
    match ParseDecimal(text)
    case None => Err(text)
    case Some(v) => Ok(SetField(st, field, v))
  }

  /** A trimmed line that sets no field: "REASONING:" starts the reasoning
      with the rest of the line, a later line joins it after a space, and
      before the reasoning any other line is ignored. */
  function TextStep(st: ScanState, line: string): (r: ScanState)
    ensures Field(r, HomeWin) == st.homeWin && Field(r, Draw) == st.draw && Field(r, AwayWin) == st.awayWin
    ensures r.inReasoning <==> st.inReasoning || StartsWith(line, ReasoningPrefix)
    ensures r.reasoning == st.reasoning + (if r.inReasoning then TextPiece(line) else "")
    ensures !StartsWith(line, ReasoningPrefix) && !st.inReasoning ==> r == st
  {
    if StartsWith(line, ReasoningPrefix) then
      st.(inReasoning := true, reasoning := st.reasoning + Trim(Replace(line, ReasoningPrefix, "")))
    else if st.inReasoning then
      st.(reasoning := st.reasoning + " " + line)
    else st
  }

  /** What a trimmed line that sets no field adds to the reasoning once it
      is collected: a REASONING line its text without the marker, trimmed;
      any other line a space and the line. */
  function TextPiece(line: string): string {
    if StartsWith(line, ReasoningPrefix) then Trim(Replace(line, ReasoningPrefix, ""))
    else " " + line
  }

  /** A field line sets its own field to the value it carries; any other
      line leaves that field alone. */
  lemma StepField(st: ScanState, rawLine: string, field: FieldName)
    requires Step(st, rawLine).Ok?
    ensures FieldOf(Trim(rawLine)) == Some(field) ==>
      Some(Field(Step(st, rawLine).value, field)) == ParseDecimal(FieldValue(Trim(rawLine), Prefix(field)))
    ensures FieldOf(Trim(rawLine)) != Some(field) ==>
      Field(Step(st, rawLine).value, field) == Field(st, field)
  {
  }

  /** The loop state after the lines, or the first rejected value. */
  function Scan(lines: seq<string>): Result<ScanState> {
    if lines == [] then Ok(Initial)
    else
      match Scan(lines[..|lines| - 1])
      case Err(text) => Err(text)
      case Ok(st) => Step(st, lines[|lines| - 1])
  }

  /** The reasoning parseAiResponse settles on: the collected text, trimmed,
      or the fallback with the whole reply when that is blank. */
  function FinalReasoning(collected: string, reply: string): (r: string)
    ensures !IsBlank(r)
    ensures !IsBlank(Trim(collected)) ==> r == Trim(collected)
    ensures IsBlank(Trim(collected)) ==> r == NoReasoning + reply
  {
    var reasoning := Trim(collected);
    if IsBlank(reasoning) then
      assert NoReasoning[20] == 'x' && (NoReasoning + reply)[20] == 'x';
      NoReasoning + reply
    else reasoning
  }

  /** What parseAiResponse yields for a reply, before the pipeline sets the
      model version and parameters; Err carries the value text that
      BigDecimal rejected. */
  function RagPrediction(fixture: Match, reply: string): (r: Result<AiPrediction>)
    ensures r.Err? <==> exists i :: 0 <= i < |Split(reply, ["\n"])| && Malformed(Split(reply, ["\n"])[i])
    ensures r.Ok? ==> !IsBlank(r.value.reasoning) && r.value.confidence == Some(0.75)
    ensures r.Ok? ==> r.value.fixture == fixture
    ensures r.Ok? ==>
      var lines := Split(reply, ["\n"]);
      && Carries(LastFieldText(lines, HomeWin), r.value.homeWin, DefaultHomeWin)
      && Carries(LastFieldText(lines, Draw), r.value.draw, DefaultDraw)
      && Carries(LastFieldText(lines, AwayWin), r.value.awayWin, DefaultAwayWin)
      && r.value.reasoning == FinalReasoning(Collected(lines), reply)
  {
    var lines := Split(reply, ["\n"]);
    ScanFailsIffMalformed(lines);
    match Scan(lines)
    case Err(text) => Err(text)
    case Ok(st) =>
      ScanCarries(lines);
      ScanCollects(lines);
      Ok(AiPrediction(0, fixture, st.homeWin, st.draw, st.awayWin,
                      FinalReasoning(st.reasoning, reply), None, Some(0.75), None, None))
  }

  /** A probability read from its last field line's text, or the default
      when no line sets it. */
  predicate Carries(text: Option<string>, v: real, default: real) {
    if text.None? then v == default else ParseDecimal(text.value) == Some(v)
  }

  /** parseAiResponse: the loop over the reply's lines, proved to compute
      RagPrediction. */
  method ParseAiResponse(fixture: Match, reply: string) returns (r: Result<AiPrediction>)
    ensures r == RagPrediction(fixture, reply)
  {
    var st := Initial;
    var lines := Split(reply, ["\n"]);
    for i := 0 to |lines|
      invariant Scan(lines[..i]) == Ok(st)
    {
      ScanNext(lines, i);
      var next := ScanLine(st, lines[i]);
      if next.Err? {
        ScanErrorSticks(lines, i + 1);
        return Err(next.message);
      }
      st := next.value;
    }
    assert lines[..|lines|] == lines;
    var reasoning := Trim(st.reasoning);
    if IsBlank(reasoning) {
      reasoning := NoReasoning + reply;
    }
    assert reasoning == FinalReasoning(st.reasoning, reply);
    r := Ok(AiPrediction(0, fixture, st.homeWin, st.draw, st.awayWin, reasoning, None, Some(0.75), None, None));
  }

  /** Scanning one more line is one more step. */
  lemma ScanNext(lines: seq<string>, i: nat)
    requires i < |lines| && Scan(lines[..i]).Ok?
    ensures Scan(lines[..i + 1]) == Step(Scan(lines[..i]).value, lines[i])
  {
    assert lines[..i + 1][..i] == lines[..i];
  }

  /** The body of the loop on one line: the first field prefix the trimmed
      line starts with sets that field, else a REASONING line starts the
      reasoning, else a line inside the reasoning is appended to it; proved
      to take Step. */
  method ScanLine(st: ScanState, rawLine: string) returns (r: Result<ScanState>)
    ensures r == Step(st, rawLine)
  {
    var line := Trim(rawLine);
    if StartsWith(line, HomeWinPrefix) {
      var v := ParseDecimal(FieldValue(line, HomeWinPrefix));
      if v.None? {
        return Err(FieldValue(line, HomeWinPrefix));
      }
      r := Ok(st.(homeWin := v.value));
    } else if StartsWith(line, DrawPrefix) {
      var v := ParseDecimal(FieldValue(line, DrawPrefix));
      if v.None? {
        return Err(FieldValue(line, DrawPrefix));
      }
      r := Ok(st.(draw := v.value));
    } else if StartsWith(line, AwayWinPrefix) {
      var v := ParseDecimal(FieldValue(line, AwayWinPrefix));
      if v.None? {
        return Err(FieldValue(line, AwayWinPrefix));
      }
      r := Ok(st.(awayWin := v.value));
    } else if StartsWith(line, ReasoningPrefix) {
      r := Ok(st.(inReasoning := true, reasoning := st.reasoning + Trim(Replace(line, ReasoningPrefix, ""))));
    } else if st.inReasoning {
      r := Ok(st.(reasoning := st.reasoning + " " + line));
    } else {
      r := Ok(st);
    }
  }

  /** Once a prefix of the lines fails, the whole scan fails the same way. */
  lemma {:induction false} ScanErrorSticks(lines: seq<string>, n: nat)
    requires n <= |lines| && Scan(lines[..n]).Err?
    ensures Scan(lines) == Scan(lines[..n])
    decreases |lines| - n
  {
    if n == |lines| {
      assert lines[..n] == lines;
    } else {
      assert lines[..n + 1][..n] == lines[..n];
      ScanErrorSticks(lines, n + 1);
    }
  }

  /** Some line of `lines` satisfies `p`, scanning from the last line. */
  predicate AnyLine(lines: seq<string>, p: string -> bool) {
    lines != [] && (AnyLine(lines[..|lines| - 1], p) || p(lines[|lines| - 1]))
  }

  lemma {:induction false} AnyLineAt(lines: seq<string>, p: string -> bool)
    ensures AnyLine(lines, p) <==> exists i :: 0 <= i < |lines| && p(lines[i])
  {
    if lines != [] {
      var init := lines[..|lines| - 1];
      AnyLineAt(init, p);
      if exists i :: 0 <= i < |lines| && p(lines[i]) {
        var i :| 0 <= i < |lines| && p(lines[i]);
        if i < |init| {
          assert init[i] == lines[i];
        }
      }
      if exists i :: 0 <= i < |init| && p(init[i]) {
        var i :| 0 <= i < |init| && p(init[i]);
        assert lines[i] == init[i];
      }
    }
  }

  /** The parse fails exactly when some field line carries a value that is
      not a number. */
  lemma {:induction false} ScanFailsIffMalformed(lines: seq<string>)
    ensures Scan(lines).Err? <==> exists i :: 0 <= i < |lines| && Malformed(lines[i])
  {
    ScanFailsIffAny(lines);
    AnyLineAt(lines, Malformed);
  }

  lemma {:induction false} ScanFailsIffAny(lines: seq<string>)
    ensures Scan(lines).Err? <==> AnyLine(lines, Malformed)
  {
    if lines != [] {
      var init := lines[..|lines| - 1];
      ScanFailsIffAny(init);
      match Scan(init)
      case Err(_) =>
      case Ok(st) =>
        assert Scan(lines) == Step(st, lines[|lines| - 1]);
    }
  }

  /** The value text of the last line (trimmed) that sets the field of
      `field`, if any. */
  function LastFieldText(lines: seq<string>, field: FieldName): Option<string> {
    if lines == [] then None
    else
      var line := Trim(lines[|lines| - 1]);
      if FieldOf(line) == Some(field) then Some(FieldValue(line, Prefix(field)))
      else LastFieldText(lines[..|lines| - 1], field)
  }

  function Default(field: FieldName): real {
    match field
    case HomeWin => DefaultHomeWin
    case Draw => DefaultDraw
    case AwayWin => DefaultAwayWin
  }

  /** Each probability is the value on the last line that sets it, or its
      default when no line does; nothing rescales the three. */
  lemma {:induction false} LastFieldLineWins(lines: seq<string>, field: FieldName)
    requires Scan(lines).Ok?
    ensures LastFieldText(lines, field).None? ==> Field(Scan(lines).value, field) == Default(field)
    ensures LastFieldText(lines, field).Some? ==>
      ParseDecimal(LastFieldText(lines, field).value) == Some(Field(Scan(lines).value, field))
  {
    if lines != [] {
      var init := lines[..|lines| - 1];
      var st := Scan(init).value;
      assert Scan(lines) == Step(st, lines[|lines| - 1]);
      LastFieldLineWins(init, field);
      StepField(st, lines[|lines| - 1], field);
    }
  }

  /** The trimmed line starts the reasoning: it sets no field and carries
      the REASONING marker. */
  predicate Opens(rawLine: string) {
    FieldOf(Trim(rawLine)).None? && StartsWith(Trim(rawLine), ReasoningPrefix)
  }

  /** The index of the first line satisfying `p`, or |lines|. */
  function FirstIndex(lines: seq<string>, p: string -> bool): (r: nat)
    ensures r <= |lines|
    ensures forall i :: 0 <= i < r ==> !p(lines[i])
    ensures r < |lines| ==> p(lines[r])
  {
    if lines == [] then 0
    else if p(lines[0]) then 0
    else
      var r := 1 + FirstIndex(lines[1..], p);
      assert forall i :: 1 <= i < |lines| ==> lines[i] == lines[1..][i - 1];
      r
  }

  /** What each line adds once the reasoning has started: nothing for a
      field line, TextPiece for any other. */
  function Piece(rawLine: string): string {
    var line := Trim(rawLine);
    if FieldOf(line).Some? then "" else TextPiece(line)
  }

  function Pieces(lines: seq<string>): string {
    if lines == [] then "" else Pieces(lines[..|lines| - 1]) + Piece(lines[|lines| - 1])
  }

  /** The text the loop collects: the pieces of the lines from the first
      REASONING line on, and nothing before it. */
  function Collected(lines: seq<string>): string {
    Pieces(lines[FirstIndex(lines, Opens)..])
  }

  /** One step enters the reasoning on an opening line, and once inside it
      appends the line's piece. */
  lemma StepEntersReasoning(st: ScanState, rawLine: string)
    requires Step(st, rawLine).Ok?
    ensures Step(st, rawLine).value.inReasoning <==> st.inReasoning || Opens(rawLine)
  {
  }

  lemma StepCollects(st: ScanState, rawLine: string)
    requires Step(st, rawLine).Ok?
    ensures !Step(st, rawLine).value.inReasoning ==> Step(st, rawLine).value.reasoning == st.reasoning
    ensures Step(st, rawLine).value.inReasoning ==>
              Step(st, rawLine).value.reasoning == st.reasoning + Piece(rawLine)
  {
    if FieldOf(Trim(rawLine)).Some? {
      FieldLineKeepsReasoning(st, Step(st, rawLine).value, rawLine);
    } else {
      TextLineCollects(st, rawLine);
    }
  }

  lemma FieldLineKeepsReasoning(st: ScanState, next: ScanState, rawLine: string)
    requires FieldOf(Trim(rawLine)).Some? && next.reasoning == st.reasoning
    ensures next.reasoning == st.reasoning + Piece(rawLine)
  {
    assert Piece(rawLine) == "";
    assert st.reasoning + "" == st.reasoning;
  }

  lemma TextLineCollects(st: ScanState, rawLine: string)
    requires FieldOf(Trim(rawLine)).None?
    ensures var next := Step(st, rawLine).value;
            && (!next.inReasoning ==> next.reasoning == st.reasoning)
            && (next.inReasoning ==> next.reasoning == st.reasoning + Piece(rawLine))
  {
    var line := Trim(rawLine);
    assert Step(st, rawLine) == Ok(TextStep(st, line));
    assert Piece(rawLine) == TextPiece(line);
  }

  /** The scan collects exactly Collected, and is inside the reasoning
      exactly when some line started it. */
  lemma {:induction false} ScanCollects(lines: seq<string>)
    requires Scan(lines).Ok?
    ensures Scan(lines).value.reasoning == Collected(lines)
    ensures Scan(lines).value.inReasoning <==> FirstIndex(lines, Opens) < |lines|
  {
    if lines != [] {
      var init := lines[..|lines| - 1];
      var last := lines[|lines| - 1];
      var st := Scan(init).value;
      assert Scan(lines) == Step(st, last);
      ScanCollects(init);
      StepEntersReasoning(st, last);
      StepCollects(st, last);
      FirstIndexSnoc(lines, Opens);
      CollectedSnoc(lines);
    }
  }

  /** A new line adds its piece to what was collected once a REASONING line
      has been seen, and starts the collection when it is that line. */
  lemma CollectedSnoc(lines: seq<string>)
    requires lines != []
    ensures var init := lines[..|lines| - 1];
            var last := lines[|lines| - 1];
            && (FirstIndex(init, Opens) == |init| ==> Collected(init) == "")
            && (FirstIndex(init, Opens) < |init| ==> Collected(lines) == Collected(init) + Piece(last))
            && (FirstIndex(init, Opens) == |init| && Opens(last) ==> Collected(lines) == Piece(last))
            && (FirstIndex(init, Opens) == |init| && !Opens(last) ==> Collected(lines) == "")
  {
    var n := |lines|;
    var init := lines[..n - 1];
    var k0 := FirstIndex(init, Opens);
    FirstIndexSnoc(lines, Opens);
    if k0 < n - 1 {
      PiecesSnoc(lines, k0);
    } else if Opens(lines[n - 1]) {
      assert init[n - 1..] == [];
      PiecesSnoc(lines, n - 1);
    } else {
      assert lines[n..] == [] && init[n - 1..] == [];
    }
  }

  /** Adding a line moves the first match only when there was none. */
  lemma FirstIndexSnoc(lines: seq<string>, p: string -> bool)
    requires lines != []
    ensures var init := lines[..|lines| - 1];
            FirstIndex(lines, p)
            == if FirstIndex(init, p) < |init| || p(lines[|lines| - 1]) then FirstIndex(init, p) else |lines|
  {
    var init := lines[..|lines| - 1];
    var k0 := FirstIndex(init, p);
    var k := FirstIndex(lines, p);
    assert forall i :: 0 <= i < |init| ==> init[i] == lines[i];
  }

  /** The pieces from `k` on gain the last line's piece. */
  lemma PiecesSnoc(lines: seq<string>, k: nat)
    requires k < |lines|
    ensures Pieces(lines[k..]) == Pieces(lines[..|lines| - 1][k..]) + Piece(lines[|lines| - 1])
  {
    assert lines[k..][..|lines[k..]| - 1] == lines[..|lines| - 1][k..];
  }

  /** The three probabilities of a successful scan, each carried by its
      last field line or left at its default. */
  lemma ScanCarries(lines: seq<string>)
    requires Scan(lines).Ok?
    ensures Carries(LastFieldText(lines, HomeWin), Scan(lines).value.homeWin, DefaultHomeWin)
    ensures Carries(LastFieldText(lines, Draw), Scan(lines).value.draw, DefaultDraw)
    ensures Carries(LastFieldText(lines, AwayWin), Scan(lines).value.awayWin, DefaultAwayWin)
  {
    LastFieldLineWins(lines, HomeWin);
    LastFieldLineWins(lines, Draw);
    LastFieldLineWins(lines, AwayWin);
  }

  /** A reply without any field line keeps the defaults 33.33 / 33.34 /
      33.33, which sum to exactly 100. */
  lemma DefaultsSumToHundred(reply: string, fixture: Match)
    requires forall line :: line in Split(reply, ["\n"]) ==> FieldOf(Trim(line)).None?
    ensures RagPrediction(fixture, reply).Ok?
    ensures var p := RagPrediction(fixture, reply).value;
            p.homeWin == 33.33 && p.draw == 33.34 && p.awayWin == 33.33
            && p.homeWin + p.draw + p.awayWin == 100.0
  {
    var lines := Split(reply, ["\n"]);
    ScanFailsIffMalformed(lines);
    NoFieldLineNoText(lines, HomeWin);
    NoFieldLineNoText(lines, Draw);
    NoFieldLineNoText(lines, AwayWin);
    LastFieldLineWins(lines, HomeWin);
    LastFieldLineWins(lines, Draw);
    LastFieldLineWins(lines, AwayWin);
  }

  lemma {:induction false} NoFieldLineNoText(lines: seq<string>, field: FieldName)
    requires forall line :: line in lines ==> FieldOf(Trim(line)).None?
    ensures LastFieldText(lines, field).None?
  {
    if lines != [] {
      assert lines[|lines| - 1] in lines;
      NoFieldLineNoText(lines[..|lines| - 1], field);
    }
  }

  /** Without a REASONING line nothing is collected, so the reasoning is the
      fallback text followed by the whole reply. */
  lemma {:induction false} NoReasoningLineFallback(reply: string, fixture: Match)
    requires RagPrediction(fixture, reply).Ok?
    requires forall line :: line in Split(reply, ["\n"]) ==> !StartsWith(Trim(line), ReasoningPrefix)
    ensures RagPrediction(fixture, reply).value.reasoning == NoReasoning + reply
  {
    NoOpeningNothingCollected(Split(reply, ["\n"]));
    assert Trim("") == "";
  }

  lemma NoOpeningNothingCollected(lines: seq<string>)
    requires forall line :: line in lines ==> !StartsWith(Trim(line), ReasoningPrefix)
    ensures Collected(lines) == ""
  {
    var k := FirstIndex(lines, Opens);
    forall i | 0 <= i < |lines|
      ensures !Opens(lines[i])
    {
      assert lines[i] in lines;
    }
    assert lines[k..] == [];
  }

  lemma {:induction false} NothingCollected(lines: seq<string>)
    requires Scan(lines).Ok?
    requires forall line :: line in lines ==> !StartsWith(Trim(line), ReasoningPrefix)
    ensures Scan(lines).value.reasoning == "" && !Scan(lines).value.inReasoning
  {
    if lines != [] {
      var init := lines[..|lines| - 1];
      assert lines[|lines| - 1] in lines;
      NothingCollected(init);
    }
  }

}

=== FILE: rag_pipeline.dfy ===
/** The retrieval-augmented prediction of AiPredictionService: the context
    gathered from the vector store and the match table, the prompt built
    around it, the count of retrieved matches recorded with the prediction,
    generatePrediction itself, and the accuracy line of getPredictionStats.
    The language model is a function from prompt to reply (Err standing for
    a failed call); the vector store is the ChromaDb model's VectorStore. */
module RagPipeline {
  import opened Common
  import opened JavaString
  import opened Numbers
  import opened Domain
  import opened ChromaDb
  import opened MatchStats
  import opened RagParser
  import Matches

  // ---------------------------------------------------------------------
  // Step 1: retrieval
  // ---------------------------------------------------------------------

  /** The historical context as getHistoricalContext answers it when the
      service is connected, kept only when it does not contain "No relevant". */
  function ChromaSection(fixture: Match, store: VectorStore): (r: string)
    ensures r == [] || StartsWith(r, HistoryHeader)
  {
    var docs := store.query(MatchHistoryCollection, HistoryQuery(fixture.homeTeam.name, fixture.awayTeam.name), 5);
    var c := if docs.None? || docs.value == [] then NoRelevantContext else HistoryHeader + HistoryBlocks(docs.value);
    if Contains(c, NoRelevant) then []
    else
      assert c != NoRelevantContext by {
        ContainsInfix([], NoRelevant, " historical context found.");
      }
      assert c[..|HistoryHeader|] == HistoryHeader;
      c
  }

  function SimilarQuery(fixture: Match): string {
    "predictions for " + fixture.homeTeam.name + " vs " + fixture.awayTeam.name
    + " or similar matchups in " + fixture.league
  }

  const SimilarHeader := "\n=== SIMILAR PAST PREDICTIONS ===\n"

  /** One numbered line, "%d. %s\n". */
  function NumberedLine(n: nat, doc: string): string {
    IntToString(n) + ". " + doc + "\n"
  }

  /** The documents numbered from 1, one to a line. */
  function NumberedLines(docs: seq<string>): string {
    if docs == [] then []
    else NumberedLines(docs[..|docs| - 1]) + NumberedLine(|docs|, docs[|docs| - 1])
  }

  /** The similar predictions the store returns for the fixture (at most 3
      asked for), listed only when there is at least one and the first does
      not contain "not connected". */
  function SimilarSection(fixture: Match, store: VectorStore): (r: string)
    ensures r == [] || StartsWith(r, SimilarHeader)
  {
    var found := store.query(PredictionCollection, SimilarQuery(fixture), 3);
    var docs := if found.None? then [] else found.value;
    if docs != [] && !Contains(docs[0], "not connected") then
      var r := SimilarHeader + NumberedLines(docs);
      assert r[..|SimilarHeader|] == SimilarHeader;
      r
    else []
  }

  /** retrieveRelevantContext: the vector-store history (when connected),
      the head-to-head statistics, both teams' form, then the similar
      predictions (when connected). */
  function RelevantContext(fixture: Match, connected: bool, store: VectorStore, table: seq<Match>): string {
    var chromaPart := if connected then ChromaSection(fixture, store) else [];
    var similarPart := if connected then SimilarSection(fixture, store) else [];
    chromaPart + HeadToHeadText(fixture, Between(table, fixture.homeTeam.id, fixture.awayTeam.id))
    + TeamFormStats(fixture, table) + similarPart
  }

  /** The retrieved context is never empty, since the head-to-head part never
      is; it always carries the head-to-head title, and without the vector
      store it starts with it. */
  lemma ContextCarriesHeadToHead(fixture: Match, connected: bool, store: VectorStore, table: seq<Match>)
    ensures |RelevantContext(fixture, connected, store, table)| > 0
    ensures Contains(RelevantContext(fixture, connected, store, table), HeadToHeadTitle)
    ensures !connected ==> StartsWith(RelevantContext(fixture, connected, store, table), HeadToHeadTitle)
  {
    var h2h := HeadToHeadText(fixture, Between(table, fixture.homeTeam.id, fixture.awayTeam.id));
    var before := if connected then ChromaSection(fixture, store) else [];
    HeadToHeadOpensWithTitle(fixture, Between(table, fixture.homeTeam.id, fixture.awayTeam.id));
    TitleInSecondPiece(before, h2h, TeamFormStats(fixture, table),
                       if connected then SimilarSection(fixture, store) else [], HeadToHeadTitle);
  }

  /** A title opening the second of four pieces is in their concatenation,
      and opens it when the first piece is empty. */
  lemma TitleInSecondPiece(a: string, b: string, c: string, d: string, t: string)
    requires StartsWith(b, t)
    ensures |a + b + c + d| > 0 || t == []
    ensures Contains(a + b + c + d, t)
    ensures a == [] ==> StartsWith(a + b + c + d, t)
  {
    assert a + b + c + d == a + b + (c + d);
    ContainsInfixPrefix(a, b, c + d, t);
    if a == [] {
      assert (a + b + c + d)[..|t|] == b[..|t|];
    }
  }

  /** The retrieval with the service and its store; proved to build
      RelevantContext. */
  method RetrieveRelevantContext(fixture: Match, chroma: ChromaDbService, store: VectorStore, table: seq<Match>)
    returns (context: string)
    ensures context == RelevantContext(fixture, chroma.connected, store, table)
  {
    context := HistoryPart(fixture, chroma, store);
    var h2hStats := HeadToHeadStats(fixture, Between(table, fixture.homeTeam.id, fixture.awayTeam.id));
    context := context + h2hStats;
    var forms := FormStats(fixture, table);
    context := context + forms;
    var listed := SimilarPart(fixture, chroma, store);
    context := context + listed;
  }

  /** Step 1 of the retrieval: the historical context, kept when it does not
      say "No relevant". */
  method HistoryPart(fixture: Match, chroma: ChromaDbService, store: VectorStore) returns (part: string)
    ensures part == if chroma.connected then ChromaSection(fixture, store) else []
  {
    part := [];
    if chroma.connected {
      var chromaContext := chroma.GetHistoricalContext(fixture.homeTeam.name, fixture.awayTeam.name, store);
      if !Contains(chromaContext, NoRelevant) {
        part := chromaContext;
      }
    }
  }

  /** Step 4 of the retrieval: the similar past predictions. */
  method SimilarPart(fixture: Match, chroma: ChromaDbService, store: VectorStore) returns (part: string)
    ensures part == if chroma.connected then SimilarSection(fixture, store) else []
  {
    part := [];
    if chroma.connected {
      var similar := chroma.SearchSimilarPredictions(SimilarQuery(fixture), 3, store);
      part := Similar(similar);
    }
  }


  /** The numbering loop over the similar predictions, proved to build the
      section SimilarSection describes. */
  method Similar(docs: seq<string>) returns (text: string)
    ensures text == if docs != [] && !Contains(docs[0], "not connected")
                    then SimilarHeader + NumberedLines(docs) else []
  {
    if docs == [] || Contains(docs[0], "not connected") {
      return [];
    }
    var listed := [];
    for i := 0 to |docs|
      invariant listed == NumberedLines(docs[..i])
    {
      NumberedNext(docs, i);
      listed := listed + NumberedLine(i + 1, docs[i]);
    }
    assert docs[..|docs|] == docs;
    text := SimilarHeader + listed;
  }

  /** Numbering one more document adds its line. */
  lemma NumberedNext(docs: seq<string>, i: nat)
    requires i < |docs|
    ensures NumberedLines(docs[..i + 1]) == NumberedLines(docs[..i]) + NumberedLine(i + 1, docs[i])
  {
    assert docs[..i + 1][..i] == docs[..i];
  }

  // ---------------------------------------------------------------------
  // Step 2: the augmented prompt
  // ---------------------------------------------------------------------

  const NoDataNote := "No historical data available for these teams. Base prediction on general patterns."

  /** The prompt's opening lines, before the fixture. */
  const IntroLines := [
    "You are a professional football analyst using RAG (Retrieval-Augmented Generation).\n",
    "You have access to REAL HISTORICAL DATA retrieved from our database.\n",
    "\n",
    "MATCH TO PREDICT:\n"
  ]

  const PromptIntro := Concat(IntroLines)

  /** The instructions and the reply format asked of the model, line by line. */
  const TaskLines := [
    "\n",
    "YOUR TASK:\n",
    "Based on the RETRIEVED HISTORICAL DATA above (not general knowledge), predict:\n",
    "1. Home Win Probability (0-100)\n",
    "2. Draw Probability (0-100)\n",
    "3. Away Win Probability (0-100)\n",
    "4. Reasoning that SPECIFICALLY REFERENCES the retrieved data\n",
    "\n",
    "CRITICAL REQUIREMENTS:\n",
    "- Your prediction MUST cite specific facts from the retrieved context\n",
    "- Example: \"Based on the 3-1 head-to-head advantage shown in the data...\"\n",
    "- Do NOT use general football knowledge - ONLY use the retrieved context\n",
    "- If no relevant data was retrieved, state this clearly\n",
    "- Probabilities must sum to exactly 100\n",
    "\n",
    "Format your response as:\n",
    "HOME_WIN: [percentage]\n",
    "DRAW: [percentage]\n",
    "AWAY_WIN: [percentage]\n",
    "REASONING: [analysis citing specific retrieved data points]\n"
  ]

  const PromptTask := Concat(TaskLines)

  /** The fixture lines of the prompt; a missing venue reads "TBD". */
  function FixtureLines(fixture: Match): string {
    "Home Team: " + fixture.homeTeam.name + " (" + fixture.homeTeam.country + ")\n"
    + "Away Team: " + fixture.awayTeam.name + " (" + fixture.awayTeam.country + ")\n"
    + "League: " + fixture.league + "\n"
    + "Venue: " + (if fixture.venue.Some? then fixture.venue.value else "TBD") + "\n"
    + "Date: " + fixture.matchDate.text + "\n"
  }

  /** What fills the context slot: the retrieved context, or the note when it
      is empty. */
  function ContextSlot(context: string): (r: string)
    ensures context != [] ==> r == context
    ensures context == [] ==> r == NoDataNote
  {
    if context == [] then NoDataNote else context
  }

  const ContextMarker := "\nRETRIEVED CONTEXT (from our database)\n"

  /** createRAGPrompt: the opening and the fixture, the context marker, the
      context slot, then the instructions to the model. */
  function RagPrompt(fixture: Match, context: string): string {
    PromptIntro + FixtureLines(fixture) + ContextMarker + ContextSlot(context) + ("\n" + PromptTask)
  }

  /** The prompt opens with the fixture's details and quotes the context
      slot. */
  lemma PromptFrame(fixture: Match, context: string)
    ensures StartsWith(RagPrompt(fixture, context), PromptIntro + FixtureLines(fixture))
    ensures Contains(RagPrompt(fixture, context), ContextSlot(context))
  {
    var opening := PromptIntro + FixtureLines(fixture);
    ContainsInfix(opening + ContextMarker, ContextSlot(context), "\n" + PromptTask);
    StartsWithFirst(opening, ContextMarker, ContextSlot(context), "\n" + PromptTask);
  }


  /** The "no historical data" note never reaches the model: the retrieved
      context is never empty, so the prompt always quotes it. */
  lemma PromptQuotesRetrievedContext(fixture: Match, connected: bool, store: VectorStore, table: seq<Match>)
    ensures var context := RelevantContext(fixture, connected, store, table);
            ContextSlot(context) == context && Contains(RagPrompt(fixture, context), context)
  {
    ContextCarriesHeadToHead(fixture, connected, store, table);
    PromptFrame(fixture, RelevantContext(fixture, connected, store, table));
  }

  // ---------------------------------------------------------------------
  // Step 3: generation
  // ---------------------------------------------------------------------

  /** The pieces split off by "Match|match". */
  const MatchWords := ["Match", "match"]

  /** countRetrievedMatches: the number of pieces split on "Match|match", less
      one. Split drops trailing empty pieces, so the count never exceeds the
      number of occurrences, and it is that number whenever the text does
      not end in a dropped empty piece; a text made only of occurrences
      gives -1. */
  function CountRetrievedMatches(context: string): (r: int)
    ensures -1 <= r <= Occurrences(context, MatchWords)
    ensures SplitAll(context, MatchWords)[|SplitAll(context, MatchWords)| - 1] != [] ==>
              r == Occurrences(context, MatchWords)
  {
    SplitCountsOccurrences(context, MatchWords);
    |Split(context, MatchWords)| - 1
  }

  const ParametersPrefix := "{\"rag_enabled\":true,\"context_sources\":\"chromadb\",\"retrieved_matches\":"

  /** The parameters JSON recorded with a RAG prediction. */
  function ParametersJson(retrieved: int): (r: string)
    ensures StartsWith(r, ParametersPrefix) && r[|r| - 1] == '}'
  {
    var r := ParametersPrefix + IntToString(retrieved) + "}";
    assert r[..|ParametersPrefix|] == ParametersPrefix;
    r
  }

  /** The recorded parameters tell the retrieved count back exactly. */
  lemma ParametersInjective(a: int, b: int)
    ensures ParametersJson(a) == ParametersJson(b) ==> a == b
  {
    if ParametersJson(a) == ParametersJson(b) {
      var x, y := ParametersJson(a), ParametersJson(b);
      assert IntToString(a) == x[|ParametersPrefix|..|x| - 1];
      assert IntToString(b) == y[|ParametersPrefix|..|y| - 1];
      IntToStringInjective(a, b);
    }
  }

  const RagModelVersion := "llama3.2-RAG"
  const RagFailure := "Error generating RAG prediction: "

  /** The work inside generatePrediction's try block once the model has
      answered the prompt with `reply`: parse it and mark the prediction as
      RAG-made. Err carries the failure's message: the model call's, or the
      value text BigDecimal rejected. */
  function Generated(fixture: Match, context: string, reply: Result<string>): (r: Result<AiPrediction>)
    ensures r.Ok? ==> && r.value.fixture == fixture
                      && r.value.modelVersion == Some(RagModelVersion)
                      && r.value.confidence == Some(0.75)
                      && !IsBlank(r.value.reasoning)
                      && r.value.parameters == Some(ParametersJson(CountRetrievedMatches(context)))
    ensures r.Ok? <==> reply.Ok? && RagPrediction(fixture, reply.value).Ok?
    ensures reply.Err? ==> r == Err(reply.message)
  {
    if reply.Err? then Err(reply.message)
    else
      match RagPrediction(fixture, reply.value)
      case Err(text) => Err(text)
      case Ok(p) =>
        Ok(p.(modelVersion := Some(RagModelVersion),
              parameters := Some(ParametersJson(CountRetrievedMatches(context)))))
  }

  // ---------------------------------------------------------------------
  // The service
  // ---------------------------------------------------------------------

  /** What generatePrediction returns for a stored fixture: the prediction
      saved under `id`, or the failure with its RAG prefix; a parsed
      prediction that breaks the entity's constraints (a probability outside
      0..100) fails at the save, inside the try block. */
  function Generation(fixture: Match, connected: bool, store: VectorStore, table: seq<Match>,
                      llm: string -> Result<string>, id: int): (r: Result<AiPrediction>)
    ensures r.Ok? ==> r.value.fixture == fixture && r.value.id == id && PredictionViolation(r.value).None?
    ensures r.Err? ==> StartsWith(r.message, RagFailure)
  {
    var context := RelevantContext(fixture, connected, store, table);
    var outcome := Generated(fixture, context, llm(RagPrompt(fixture, context)));
    if outcome.Err? then Err(RagFailure + outcome.message)
    else if PredictionViolation(outcome.value).Some? then Err(RagFailure + PredictionViolation(outcome.value).value)
    else Ok(outcome.value.(id := id))
  }

  class AiPredictionService {
    /** The saved predictions by id. */
    var saved: map<int, AiPrediction>
    var nextId: int

    /** Every row is saved under its own id, below the next id to hand
        out, and meets the entity's constraints. */
    ghost predicate Valid()
      reads this
    {
      && nextId >= 1
      && (forall id :: id in saved ==> saved[id].id == id && 1 <= id < nextId)
      && PredictionsStorable(saved)
    }

    constructor()
      ensures Valid() && saved == map[]
    {
      saved := map[];
      nextId := 1;
    }

    /** generatePrediction: an unknown match id fails before anything else;
        otherwise the context is retrieved, the prompt built and the model
        asked; a failure inside the try block is reported with the RAG
        prefix and nothing is saved; a success is saved under a fresh id and
        then sent to the vector store (which keeps it only when connected). */
    method GeneratePrediction(matchId: int, matches: Matches.MatchService, table: seq<Match>,
                              chroma: ChromaDbService, store: VectorStore, llm: string -> Result<string>)
      returns (r: Result<AiPrediction>)
      requires Valid()
      modifies this, chroma
      ensures Valid()
      ensures chroma.connected == old(chroma.connected)
      ensures matchId !in matches.matches ==>
        r == Err(Matches.NotFound(matchId)) && saved == old(saved) && chroma.added == old(chroma.added)
      ensures matchId in matches.matches ==>
        && r == Generation(matches.matches[matchId], old(chroma.connected), store, table, llm, old(nextId))
        && (r.Err? ==> saved == old(saved) && chroma.added == old(chroma.added))
        && (r.Ok? ==>
              && old(nextId) !in old(saved)
              && saved == old(saved)[old(nextId) := r.value]
              && chroma.added == old(chroma.added) + (if chroma.connected then [PredictionEntry(r.value)] else []))
    {
      var found := matches.GetMatchById(matchId);
      if found.None? {
        return Err(Matches.NotFound(matchId));
      }
      r := PredictFixture(found.value, chroma, store, table, llm);
    }

    /** The try block of generatePrediction for a stored fixture. */
    method PredictFixture(fixture: Match, chroma: ChromaDbService, store: VectorStore, table: seq<Match>,
                          llm: string -> Result<string>)
      returns (r: Result<AiPrediction>)
      requires Valid()
      modifies this, chroma
      ensures Valid()
      ensures chroma.connected == old(chroma.connected)
      ensures r == Generation(fixture, old(chroma.connected), store, table, llm, old(nextId))
      ensures r.Err? ==> saved == old(saved) && chroma.added == old(chroma.added)
      ensures r.Ok? ==>
        && old(nextId) !in old(saved)
        && saved == old(saved)[old(nextId) := r.value]
        && chroma.added == old(chroma.added) + (if chroma.connected then [PredictionEntry(r.value)] else [])
    {
      var context := RetrieveRelevantContext(fixture, chroma, store, table);
      var outcome := Generate(fixture, context, llm);
      assert context == RelevantContext(fixture, old(chroma.connected), store, table);
      if outcome.Err? {
        return Err(RagFailure + outcome.message);
      }
      r := Save(outcome.value, chroma);
      if r.Err? {
        r := Err(RagFailure + r.message);
      }
    }

    /** Saves the prediction under a fresh id, then hands the saved row to
        the vector store; a prediction breaking the entity's constraints is
        refused by the save, and neither store changes. */
    method Save(p: AiPrediction, chroma: ChromaDbService) returns (r: Result<AiPrediction>)
      requires Valid()
      modifies this, chroma
      ensures Valid()
      ensures chroma.connected == old(chroma.connected)
      ensures PredictionViolation(p).Some? ==>
        r == Err(PredictionViolation(p).value) && saved == old(saved) && chroma.added == old(chroma.added)
      ensures PredictionViolation(p).None? ==>
        && r == Ok(p.(id := old(nextId)))
        && old(nextId) !in old(saved) && saved == old(saved)[old(nextId) := r.value]
        && chroma.added == old(chroma.added) + (if chroma.connected then [PredictionEntry(r.value)] else [])
    {
      var violation := PredictionViolation(p);
      if violation.Some? {
        return Err(violation.value);
      }
      var row := p.(id := nextId);
      assert PredictionViolation(row) == violation;
      StorePredictionRow(saved, nextId, row);
      saved := saved[nextId := row];
      nextId := nextId + 1;
      chroma.StorePrediction(row);
      r := Ok(row);
    }
  }

  /** The try block of generatePrediction up to the save: prompt, model
      call, parse, and the RAG marks; proved to compute Generated. */
  method Generate(fixture: Match, context: string, llm: string -> Result<string>) returns (r: Result<AiPrediction>)
    ensures r == Generated(fixture, context, llm(RagPrompt(fixture, context)))
  {
    var prompt := RagPrompt(fixture, context);
    var reply := llm(prompt);
    if reply.Err? {
      return Err(reply.message);
    }
    var parsed := ParseAiResponse(fixture, reply.value);
    if parsed.Err? {
      return Err(parsed.message);
    }
    r := Ok(parsed.value.(modelVersion := Some(RagModelVersion),
                          parameters := Some(ParametersJson(CountRetrievedMatches(context)))));
  }

  // ---------------------------------------------------------------------
  // getPredictionStats
  // ---------------------------------------------------------------------

  const NoEvaluatedPredictions := "No evaluated predictions yet"
  const AccuracyPrefix := "Accuracy: "

  /** getPredictionStats, given the repository's counts of correct and of
      evaluated predictions: no accuracy without an evaluated prediction,
      otherwise the percentage with two decimals and both counts. */
  function PredictionStats(correct: nat, total: nat): (r: string)
    ensures total == 0 <==> r == NoEvaluatedPredictions
    ensures total > 0 ==> StartsWith(r, AccuracyPrefix) && |r| > |AccuracyPrefix| && r[|AccuracyPrefix|] != '-'
  {
    if total == 0 then NoEvaluatedPredictions
    else
      var percent := FormatFixed(correct * 100, total, 2);
      var counts := "% (" + IntToString(correct) + " correct out of " + IntToString(total) + " predictions)";
      AccuracyLeads(percent, counts);
      AccuracyPrefix + percent + counts
  }

  /** The accuracy line opens with its prefix, then the percentage. */
  lemma AccuracyLeads(percent: string, counts: string)
    requires percent != []
    ensures var r := AccuracyPrefix + percent + counts;
            StartsWith(r, AccuracyPrefix) && |r| > |AccuracyPrefix| && r[|AccuracyPrefix|] == percent[0]
            && r != NoEvaluatedPredictions
  {
    var r := AccuracyPrefix + percent + counts;
    assert r[..|AccuracyPrefix|] == AccuracyPrefix;
    assert r[0] != NoEvaluatedPredictions[0];
  }

  /** With no more correct than evaluated predictions, the two-decimal
      accuracy rounds to at most 100.00. */
  lemma AccuracyAtMostHundred(correct: nat, total: nat)
    requires 0 < total && correct <= total
    ensures RoundHalfUp(correct * 100 * Pow10(2), total) <= 100 * Pow10(2)
  {
    assert Pow10(2) == 100 by { assert Pow10(1) == 10; }
    var q := RoundHalfUp(correct * 10000, total);
    assert correct * 10000 <= total * 10000 by { ScaleAtMost(correct, total, 10000); }
    QuotientBound(q, 10000, total);
  }

  /** a <= b scales to a * k <= b * k. */
  lemma ScaleAtMost(a: nat, b: nat, k: nat)
    requires a <= b
    ensures a * k <= b * k
  {
    assert b * k - a * k == (b - a) * k;
  }

  /** A quotient q with 2qd <= 2kd + d is at most k. */
  lemma QuotientBound(q: nat, k: nat, d: nat)
    requires d > 0 && 2 * q * d <= 2 * k * d + d
    ensures q <= k
  {
    if q > k {
      ScaleAtMost(k + 1, q, 2 * d);
    }
  }
}

=== FILE: simple_chat.dfy ===
/** SimpleChatController: a keyword chat over the team list (ordered by
    name) and the upcoming matches. The message is lowercased once and run
    through an ordered cascade of rules; the first rule that applies
    answers. Both lists are the repository's answers and are passed in. */
module SimpleChat {
  import opened Common
  import opened JavaString
  import opened Numbers
  import opened Domain

  const EmptyMessageReply := "Please ask me about a match prediction!"
  const GreetingReply := "Hello! I'm your AI football prediction assistant. Ask me about any upcoming match!"
  const HelpReply :=
    "I can help you with match predictions! Try asking:\n"
    + "- 'Real Madrid vs Barcelona'\n"
    + "- 'Who will win Liverpool vs Chelsea?'\n"
    + "- 'Show me upcoming matches'\n"
    + "- 'List all teams'"
  const NoTeamsReply := "No teams found in the database. Please add some teams first!"
  const NoMatchesReply := "No upcoming matches scheduled. Please create some matches first!"
  const FallbackReply :=
    "I'm not sure I understand. Try asking about:\n"
    + "- Specific matches (e.g., 'Real Madrid vs Barcelona')\n"
    + "- 'Show upcoming matches'\n"
    + "- 'List all teams'\n"
    + "- Type 'help' for more options"

  /** How many teams, matches and suggested names a reply lists at most. */
  const TeamsListed := 10
  const MatchesListed := 5
  const NamesSuggested := 5

  // ---------------------------------------------------------------------
  // Searching
  // ---------------------------------------------------------------------

  /** stream().filter(p).findFirst(): the first element satisfying `p`. */
  function FirstWhere<T>(xs: seq<T>, p: T -> bool): (r: Option<T>)
    ensures r.None? <==> forall i :: 0 <= i < |xs| ==> !p(xs[i])
    ensures r.Some? ==> exists i :: 0 <= i < |xs| && xs[i] == r.value && p(xs[i])
                                  && forall j :: 0 <= j < i ==> !p(xs[j])
  {
    if xs == [] then None
    else if p(xs[0]) then Some(xs[0])
    else
      var r := FirstWhere(xs[1..], p);
      assert forall i :: 1 <= i < |xs| ==> xs[i] == xs[1..][i - 1];
      r
  }

  /** Two conditions that agree on every element find the same one. */
  lemma {:induction false} FirstWhereAgrees<T>(xs: seq<T>, p: T -> bool, q: T -> bool)
    requires forall i :: 0 <= i < |xs| ==> p(xs[i]) == q(xs[i])
    ensures FirstWhere(xs, p) == FirstWhere(xs, q)
  {
    if xs != [] && !p(xs[0]) {
      FirstWhereAgrees(xs[1..], p, q);
    }
  }

  /** The lookup of generatePredictionResponse: the team's lowercased name
      contains the lowercased query, or the query contains the name. */
  predicate Resembles(t: Team, query: string) {
    Contains(ToLower(t.name), ToLower(query)) || Contains(ToLower(query), ToLower(t.name))
  }

  function FindTeam(teams: seq<Team>, query: string): Option<Team> {
    FirstWhere(teams, (t: Team) => Resembles(t, query))
  }

  /** The first team whose lowercased name occurs in the message. */
  function FirstMentioned(message: string, teams: seq<Team>): Option<Team> {
    FirstWhere(teams, (t: Team) => Contains(message, ToLower(t.name)))
  }

  /** The for-each loop of generateResponse that looks for a team name in
      the message. */
  method MentionedTeam(message: string, teams: seq<Team>) returns (r: Option<Team>)
    ensures r == FirstMentioned(message, teams)
  {
    var i := 0;
    while i < |teams|
      invariant 0 <= i <= |teams|
      invariant FirstMentioned(message, teams) == FirstMentioned(message, teams[i..])
    {
      assert teams[i..][1..] == teams[i + 1..];
      if Contains(message, ToLower(teams[i].name)) {
        return Some(teams[i]);
      }
      i := i + 1;
    }
    r := None;
  }

  // ---------------------------------------------------------------------
  // Listings
  // ---------------------------------------------------------------------

  function TeamEntry(t: Team): string {
    t.name + " (" + t.country + ")"
  }

  /** The "list teams" reply: the first ten teams, joined by ", ", and how
      many were left out when there are more. */
  function TeamListing(teams: seq<Team>): (r: string)
    ensures teams == [] <==> r == NoTeamsReply
    ensures teams != [] ==> StartsWith(r, TeamsOpening)
    ensures forall k :: 0 <= k < |teams| && k < TeamsListed ==> Contains(r, TeamEntry(teams[k]))
    ensures |teams| > TeamsListed ==> EndsWith(r, " and " + IntToString(|teams| - TeamsListed) + " more...")
    ensures 0 < |teams| <= TeamsListed ==> EndsWith(r, TeamEntry(teams[|teams| - 1]))
    ensures teams != [] ==>
      r == TeamsOpening + Join(TeamEntries(teams), ", ")
           + (if |teams| > TeamsListed then " and " + IntToString(|teams| - TeamsListed) + " more..." else "")
  {
    if teams == [] then NoTeamsReply
    else
      TeamListingShape(teams);
      EmptyRepliesEnd();
      TeamsOpening + Join(TeamEntries(teams), ", ") + MoreTeams(teams)
  }

  /** The tail telling how many teams were left out, if any. */
  function MoreTeams(teams: seq<Team>): string {
    if |teams| > TeamsListed then " and " + IntToString(|teams| - TeamsListed) + " more..." else ""
  }

  /** A non-empty team listing opens with its header, holds the first ten
      entries, ends with the tail or the last entry shown, and so never ends
      in '!'. */
  lemma TeamListingShape(teams: seq<Team>)
    requires teams != []
    ensures var r := TeamsOpening + Join(TeamEntries(teams), ", ") + MoreTeams(teams);
            && StartsWith(r, TeamsOpening)
            && (forall k :: 0 <= k < |teams| && k < TeamsListed ==> Contains(r, TeamEntry(teams[k])))
            && EndsWith(r, MoreTeams(teams))
            && (|teams| <= TeamsListed ==> EndsWith(r, TeamEntry(teams[|teams| - 1])))
            && r[|r| - 1] != '!'
  {
    var entries := TeamEntries(teams);
    var more := MoreTeams(teams);
    var r := TeamsOpening + Join(entries, ", ") + more;
    ListingShape(TeamsOpening, entries, ", ", more);
    assert forall k :: 0 <= k < |teams| && k < TeamsListed ==> entries[k] == TeamEntry(teams[k]);
    if more == [] {
      EndsWithLast(r, entries[|entries| - 1]);
    } else {
      EndsWithLast(r, more);
    }
  }

  const TeamsOpening := "Available teams: "

  /** The entries of the first ten teams. */
  function TeamEntries(teams: seq<Team>): (r: seq<string>)
    ensures |r| == if |teams| < TeamsListed then |teams| else TeamsListed
    ensures forall k :: 0 <= k < |r| ==> r[k] == TeamEntry(teams[k])
  {
    var shown := teams[..if |teams| < TeamsListed then |teams| else TeamsListed];
    seq(|shown|, i requires 0 <= i < |shown| => TeamEntry(shown[i]))
  }

  function MatchEntry(m: Match): string {
    m.homeTeam.name + " vs " + m.awayTeam.name + " (" + m.league + ")"
  }

  const MatchesOpening := "Upcoming matches:\n"

  /** The "upcoming matches" reply: the first five, one per line, ending
      with the fifth (or the last when there are fewer). */
  function MatchListing(upcoming: seq<Match>): (r: string)
    ensures upcoming == [] <==> r == NoMatchesReply
    ensures upcoming != [] ==> StartsWith(r, MatchesOpening)
    ensures forall k :: 0 <= k < |upcoming| && k < MatchesListed ==> Contains(r, MatchEntry(upcoming[k]))
    ensures upcoming != [] ==>
      EndsWith(r, MatchEntry(upcoming[(if |upcoming| < MatchesListed then |upcoming| else MatchesListed) - 1]))
    ensures upcoming != [] ==> r == MatchesOpening + Join(MatchEntries(upcoming), "\n")
  {
    if upcoming == [] then NoMatchesReply
    else
      MatchListingShape(upcoming);
      EmptyRepliesEnd();
      MatchesOpening + Join(MatchEntries(upcoming), "\n")
  }

  /** A non-empty match listing opens with its header, holds the first five
      entries, ends with the last one shown, and so never ends in '!'. */
  lemma MatchListingShape(upcoming: seq<Match>)
    requires upcoming != []
    ensures var r := MatchesOpening + Join(MatchEntries(upcoming), "\n");
            && StartsWith(r, MatchesOpening)
            && (forall k :: 0 <= k < |upcoming| && k < MatchesListed ==> Contains(r, MatchEntry(upcoming[k])))
            && EndsWith(r, MatchEntry(upcoming[(if |upcoming| < MatchesListed then |upcoming| else MatchesListed) - 1]))
            && r[|r| - 1] != '!'
  {
    var entries := MatchEntries(upcoming);
    var r := MatchesOpening + Join(entries, "\n");
    assert r + "" == r;
    ListingShape(MatchesOpening, entries, "\n", "");
    assert forall k :: 0 <= k < |upcoming| && k < MatchesListed ==> entries[k] == MatchEntry(upcoming[k]);
    EndsWithLast(r, entries[|entries| - 1]);
  }

  /** The entries of the first five matches. */
  function MatchEntries(upcoming: seq<Match>): (r: seq<string>)
    ensures |r| == if |upcoming| < MatchesListed then |upcoming| else MatchesListed
    ensures forall k :: 0 <= k < |r| ==> r[k] == MatchEntry(upcoming[k])
  {
    var shown := upcoming[..if |upcoming| < MatchesListed then |upcoming| else MatchesListed];
    seq(|shown|, i requires 0 <= i < |shown| => MatchEntry(shown[i]))
  }

  /** Both empty-table replies end in '!', which no listing does. */
  lemma EmptyRepliesEnd()
    ensures NoTeamsReply != [] && NoTeamsReply[|NoTeamsReply| - 1] == '!'
    ensures NoMatchesReply != [] && NoMatchesReply[|NoMatchesReply| - 1] == '!'
  {
  }

  /** A text ends with the last character of any suffix it ends with. */
  lemma EndsWithLast(s: string, suffix: string)
    requires EndsWith(s, suffix) && suffix != []
    ensures s[|s| - 1] == suffix[|suffix| - 1]
  {
    assert s[|s| - |suffix|..][|suffix| - 1] == s[|s| - 1];
  }

  /** A listing made of an opening, the joined entries and a tail starts
      with the opening, holds every entry, and ends with the tail, or with
      the last entry when the tail is empty. */
  lemma ListingShape(opening: string, entries: seq<string>, sep: string, tail: string)
    requires opening != [] && entries != []
    ensures var r := opening + Join(entries, sep) + tail;
            && StartsWith(r, opening) && r[0] == opening[0]
            && (forall k :: 0 <= k < |entries| ==> Contains(r, entries[k]))
            && EndsWith(r, tail)
            && (tail == [] ==> EndsWith(r, entries[|entries| - 1]))
  {
    var joined := Join(entries, sep);
    var r := opening + joined + tail;
    assert r[..|opening|] == opening;
    JoinEndsWithLast(entries, sep);
    assert r[|r| - |tail|..] == tail;
    forall k | 0 <= k < |entries| ensures Contains(r, entries[k]) {
      JoinContains(entries, sep, k);
      ContainsInfix(opening, joined, tail);
      ContainsTransitive(r, joined, entries[k]);
    }
  }

  /** A joined list ends with its last element. */
  lemma {:induction false} JoinEndsWithLast(xs: seq<string>, sep: string)
    requires xs != []
    ensures |Join(xs, sep)| >= |xs[|xs| - 1]|
    ensures Join(xs, sep)[|Join(xs, sep)| - |xs[|xs| - 1]|..] == xs[|xs| - 1]
  {
    if |xs| > 1 {
      JoinEndsWithLast(xs[1..], sep);
    }
  }

  /** A joined list holds each of its elements. */
  lemma {:induction false} JoinContains(xs: seq<string>, sep: string, k: nat)
    requires k < |xs|
    ensures Contains(Join(xs, sep), xs[k])
  {
    if |xs| == 1 {
      ContainsInfix([], xs[0], []);
      assert [] + xs[0] + [] == xs[0];
    } else if k == 0 {
      ContainsInfix([], xs[0], sep + Join(xs[1..], sep));
      assert [] + xs[0] + (sep + Join(xs[1..], sep)) == Join(xs, sep);
    } else {
      JoinContains(xs[1..], sep, k - 1);
      ContainsInfix(xs[0] + sep, Join(xs[1..], sep), []);
      assert xs[0] + sep + Join(xs[1..], sep) + [] == Join(xs, sep);
      ContainsTransitive(Join(xs, sep), Join(xs[1..], sep), xs[k]);
    }
  }

  // ---------------------------------------------------------------------
  // Prediction replies
  // ---------------------------------------------------------------------

  const ScheduledOpening := "Great! I found the match: "

  /** The reply quoting an upcoming fixture, its home side first. */
  function ScheduledReply(m: Match): (r: string)
    ensures StartsWith(r, ScheduledOpening + m.homeTeam.name + " vs " + m.awayTeam.name + " in " + m.league + ".\n\n")
    ensures StartsWith(r, ScheduledOpening)
  {
    var opening := ScheduledOpening + m.homeTeam.name + " vs " + m.awayTeam.name + " in " + m.league + ".\n\n";
    var rest := "Based on current analysis:\n"
      + "\U{1F3E0} " + m.homeTeam.name + " (home): ~55% chance\n"
      + "\U{2696}\U{FE0F} Draw: ~25% chance\n"
      + "\U{2708}\U{FE0F} " + m.awayTeam.name + " (away): ~20% chance\n\n"
      + "Home advantage typically plays a significant role. "
      + "Click 'Predict' on this match for detailed AI analysis!";
    assert (opening + rest)[..|opening|] == opening;
    assert opening[..|ScheduledOpening|] == ScheduledOpening;
    opening + rest
  }

  const GeneralOpening := "No scheduled match found between "

  /** The line a general analysis opens with: both team names, once each. */
  function GeneralFirstLine(first: Team, second: Team): string {
    GeneralOpening + first.name + " and " + second.name + ", but here's my general analysis:\n\n"
  }

  /** The reply when both teams are known but no upcoming fixture pairs
      them. */
  function GeneralReply(first: Team, second: Team): (r: string)
    ensures StartsWith(r, GeneralFirstLine(first, second))
    ensures !StartsWith(r, ScheduledOpening)
  {
    var opening := GeneralFirstLine(first, second);
    var rest := "\U{1F535} " + first.name + " has a strong record against " + second.name + " historically.\n"
      + "\U{1F4CA} Head-to-head advantage and current form would be key factors.\n"
      + "\U{1F3C6} League standings and recent performances matter significantly.\n\n"
      + "Would you like to create a match between these teams to get a detailed AI prediction?";
    assert (opening + rest)[..|opening|] == opening;
    OtherOpening(opening, rest, 0)
  }

  const UnknownTeamsOpening := "I couldn't find both teams in the database. Available teams: "

  /** The names of the first five teams, in order. */
  function SuggestedNames(teams: seq<Team>): (r: seq<string>)
    ensures |r| == if |teams| < NamesSuggested then |teams| else NamesSuggested
    ensures forall k :: 0 <= k < |r| ==> r[k] == teams[k].name
  {
    var shown := teams[..if |teams| < NamesSuggested then |teams| else NamesSuggested];
    seq(|shown|, i requires 0 <= i < |shown| => shown[i].name)
  }

  /** The reply when a name is not found: the first five team names. */
  function UnknownTeamsReply(teams: seq<Team>): (r: string)
    ensures r == UnknownTeamsOpening + Join(SuggestedNames(teams), ", ")
    ensures StartsWith(r, UnknownTeamsOpening)
    ensures forall k :: 0 <= k < |teams| && k < NamesSuggested ==> Contains(r, teams[k].name)
    ensures !StartsWith(r, ScheduledOpening)
  {
    SuggestionsQuoted(teams);
    UnknownTeamsOpeningDiffers();
    OtherOpening(UnknownTeamsOpening, Join(SuggestedNames(teams), ", "), 20)
  }

  /** The unknown-teams opening and the scheduled one differ at index 20. */
  lemma UnknownTeamsOpeningDiffers()
    ensures |UnknownTeamsOpening| > 20 && |ScheduledOpening| > 20
    ensures UnknownTeamsOpening[20] == ' ' && ScheduledOpening[20] == 'a'
  {
  }

  /** Each suggested name occurs in the unknown-teams reply. */
  lemma SuggestionsQuoted(teams: seq<Team>)
    ensures var r := UnknownTeamsOpening + Join(SuggestedNames(teams), ", ");
            forall k :: 0 <= k < |teams| && k < NamesSuggested ==> Contains(r, teams[k].name)
  {
    var names := SuggestedNames(teams);
    var r := UnknownTeamsOpening + Join(names, ", ");
    assert r + "" == r;
    if names != [] {
      ListingShape(UnknownTeamsOpening, names, ", ", "");
    }
    assert forall k :: 0 <= k < |names| ==> Contains(r, names[k]);
  }

  /** A reply whose opening differs from the scheduled one's at index `k`. */
  function OtherOpening(opening: string, rest: string, k: nat): (r: string)
    requires k < |opening| && k < |ScheduledOpening| && opening[k] != ScheduledOpening[k]
    ensures r == opening + rest
    ensures StartsWith(r, opening)
    ensures !StartsWith(r, ScheduledOpening)
  {
    var r := opening + rest;
    assert r[..|opening|] == opening;
    assert r[k] == opening[k];
    r
  }

  /** Both queries name a team and an upcoming fixture pairs them. */
  predicate Scheduled(first: string, second: string, teams: seq<Team>, upcoming: seq<Match>) {
    && FindTeam(teams, first).Some?
    && FindTeam(teams, second).Some?
    && FindFixtureBetween(upcoming, FindTeam(teams, first).value.id, FindTeam(teams, second).value.id).Some?
  }

  /** generatePredictionResponse: look both names up; quote the upcoming
      fixture between the two teams when there is one, a general analysis
      when there is none, and suggest names when either lookup fails. */
  function PredictionReply(first: string, second: string, teams: seq<Team>, upcoming: seq<Match>): (r: string)
    ensures StartsWith(r, ScheduledOpening) <==> Scheduled(first, second, teams, upcoming)
    ensures Scheduled(first, second, teams, upcoming) ==>
      r == ScheduledReply(FindFixtureBetween(upcoming, FindTeam(teams, first).value.id, FindTeam(teams, second).value.id).value)
    ensures FindTeam(teams, first).Some? && FindTeam(teams, second).Some? && !Scheduled(first, second, teams, upcoming) ==>
      r == GeneralReply(FindTeam(teams, first).value, FindTeam(teams, second).value)
    ensures (FindTeam(teams, first).None? || FindTeam(teams, second).None?) ==> r == UnknownTeamsReply(teams)
  {
    var found1 := FindTeam(teams, first);
    var found2 := FindTeam(teams, second);
    if found1.None? || found2.None? then
      UnknownTeamsReply(teams)
    else
      var fixture := FindFixtureBetween(upcoming, found1.value.id, found2.value.id);
      if fixture.Some? then ScheduledReply(fixture.value)
      else GeneralReply(found1.value, found2.value)
  }

  // ---------------------------------------------------------------------
  // The cascade
  // ---------------------------------------------------------------------

  predicate Greets(message: string) {
    Contains(message, "hello") || Contains(message, "hi") || Contains(message, "hey")
  }

  predicate AsksHelp(message: string) {
    Contains(message, "help")
  }

  predicate AsksTeams(message: string) {
    Contains(message, "teams") || Contains(message, "list teams")
  }

  predicate AsksMatches(message: string) {
    Contains(message, "matches") || Contains(message, "upcoming")
  }

  predicate AsksPrediction(message: string) {
    Contains(message, "vs") || Contains(message, "predict")
  }

  /** message.split("vs"): the pieces around each "vs". */
  function TeamParts(message: string): seq<string> {
    Split(message, ["vs"])
  }

  /** The home-side query: the first part with the question words removed. */
  function FirstQuery(part: string): string {
    Trim(Replace(Replace(Replace(Trim(part), "predict", ""), "who will win", ""), "between", ""))
  }

  /** The away-side query: the second part with its question marks removed. */
  function SecondQuery(part: string): (r: string)
    ensures '?' !in r
  {
    var stripped := Replace(Trim(part), "?", "");
    ReplaceRemovesChar(Trim(part), '?');
    var r := Trim(stripped);
    assert forall c :: c in r ==> c in stripped by {
      var lead := StripLeading(stripped);
      assert r == StripTrailing(lead);
      assert forall c :: c in r ==> c in lead;
      assert forall c :: c in lead ==> c in stripped;
    }
    r
  }

  /** What the cascade decided the message asks for. */
  datatype Intent =
    | Greeting
    | Help
    | TeamList
    | MatchList
    | Prediction(first: string, second: string)
    | Mention(team: Team)
    | Unrecognised

  /** The rules of generateResponse, in their order; a prediction needs the
      message to split around "vs" into exactly two parts, and otherwise the
      cascade goes on. */
  function Classify(message: string, teams: seq<Team>): Intent {
    if Greets(message) then Greeting
    else if AsksHelp(message) then Help
    else if AsksTeams(message) then TeamList
    else if AsksMatches(message) then MatchList
    else if AsksPrediction(message) && |TeamParts(message)| == 2 then
      var parts := TeamParts(message);
      Prediction(FirstQuery(parts[0]), SecondQuery(parts[1]))
    else NameIntent(message, teams)
  }

  function NameIntent(message: string, teams: seq<Team>): Intent {
    match FirstMentioned(message, teams)
    case Some(t) => Mention(t)
    case None => Unrecognised
  }

  function NameReply(message: string, teams: seq<Team>): string {
    match FirstMentioned(message, teams)
    case Some(t) => MentionReply(t)
    case None => FallbackReply
  }

  function MentionReply(t: Team): string {
    "I see you mentioned " + t.name + "! They're from " + t.country
    + " and were founded in " + IntToString(if t.foundedYear.Some? then t.foundedYear.value else 0)
    + ". Would you like to know about their upcoming matches "
    + "or make a prediction?"
  }

  /** The reply generateResponse gives to a lowercased message. */
  function Reply(message: string, teams: seq<Team>, upcoming: seq<Match>): string {
    Respond(Classify(message, teams), teams, upcoming)
  }

  /** The answer each rule gives. */
  function Respond(intent: Intent, teams: seq<Team>, upcoming: seq<Match>): string {
    match intent
    case Greeting => GreetingReply
    case Help => HelpReply
    case TeamList => TeamListing(teams)
    case MatchList => MatchListing(upcoming)
    case Prediction(first, second) => PredictionReply(first, second, teams, upcoming)
    case Mention(t) => MentionReply(t)
    case Unrecognised => FallbackReply
  }

  /** generateResponse, rule by rule. */
  method GenerateResponse(message: string, teams: seq<Team>, upcoming: seq<Match>) returns (r: string)
    ensures r == Reply(message, teams, upcoming)
  {
    ghost var intent := Classify(message, teams);
    if Greets(message) {
      assert intent == Greeting;
      return GreetingReply;
    }
    if AsksHelp(message) {
      assert intent == Help;
      return HelpReply;
    }
    if AsksTeams(message) {
      assert intent == TeamList;
      return TeamListing(teams);
    }
    if AsksMatches(message) {
      assert intent == MatchList;
      return MatchListing(upcoming);
    }
    if AsksPrediction(message) {
      var parts := TeamParts(message);
      if |parts| == 2 {
        assert intent.Prediction? && intent.first == FirstQuery(parts[0]) && intent.second == SecondQuery(parts[1]);
        RespondToPrediction(intent, teams, upcoming);
        return PredictionReply(FirstQuery(parts[0]), SecondQuery(parts[1]), teams, upcoming);
      }
    }
    assert intent == NameIntent(message, teams);
    RespondByName(intent, message, teams, upcoming);
    r := AnswerByName(message, teams);
  }

  /** The answer to a prediction request is about its two queries. */
  lemma RespondToPrediction(intent: Intent, teams: seq<Team>, upcoming: seq<Match>)
    requires intent.Prediction?
    ensures Respond(intent, teams, upcoming) == PredictionReply(intent.first, intent.second, teams, upcoming)
  {
  }

  /** The answer by name is the one the last two rules give. */
  lemma RespondByName(intent: Intent, message: string, teams: seq<Team>, upcoming: seq<Match>)
    requires intent == NameIntent(message, teams)
    ensures Respond(intent, teams, upcoming) == NameReply(message, teams)
  {
    if FirstMentioned(message, teams).Some? {
      assert intent.Mention? && intent.team == FirstMentioned(message, teams).value;
    } else {
      assert intent.Unrecognised?;
    }
  }

  /** The last two rules of generateResponse: a team named in the message,
      else the fallback. */
  method AnswerByName(message: string, teams: seq<Team>) returns (r: string)
    ensures r == NameReply(message, teams)
  {
    var mentioned := MentionedTeam(message, teams);
    if mentioned.Some? {
      return MentionReply(mentioned.value);
    }
    r := FallbackReply;
  }

  /** A missing message, or one that trims to nothing. */
  predicate Unanswerable(message: Option<string>) {
    message.None? || Trim(message.value) == []
  }

  /** sendMessage: an empty request gets the prompt; anything else is
      lowercased and answered by the cascade. */
  method SendMessage(message: Option<string>, teams: seq<Team>, upcoming: seq<Match>) returns (r: string)
    ensures Unanswerable(message) ==> r == EmptyMessageReply
    ensures !Unanswerable(message) ==> r == Reply(ToLower(message.value), teams, upcoming)
  {
    if message.None? || Trim(message.value) == [] {
      return EmptyMessageReply;
    }
    r := GenerateResponse(ToLower(message.value), teams, upcoming);
  }

  // ---------------------------------------------------------------------
  // Properties
  // ---------------------------------------------------------------------

  /** Trimming reaches the same empty or non-empty result whatever the
      letters' case, since case changes only letters. */
  lemma {:induction false} TrimIgnoresCase(s: string)
    ensures Trim(ToUpper(s)) == [] <==> Trim(s) == []
  {
    var u := ToUpper(s);
    assert forall k :: 0 <= k < |s| ==> (u[k] <= ' ' <==> s[k] <= ' ');
    TrimEmptyIffBlank(s);
    TrimEmptyIffBlank(u);
  }

  /** trim() yields "" exactly when every character is at most a space. */
  lemma TrimEmptyIffBlank(s: string)
    ensures Trim(s) == [] <==> forall k :: 0 <= k < |s| ==> s[k] <= ' '
  {
    var lead := StripLeading(s);
    if lead == [] {
      assert Trim(s) == StripTrailing(lead) == [];
    } else {
      var t := StripTrailing(lead);
      assert lead[0] > ' ' && s[|s| - |lead|] == lead[0];
      assert Trim(s) == t != [];
    }
  }

  /** The @NotBlank check the entities use agrees with trim(): a text is
      not blank exactly when trimming leaves something. */
  lemma NotBlankIffTrimmed(s: string)
    ensures NotBlank(s) <==> Trim(s) != []
  {
    TrimEmptyIffBlank(s);
  }

  /** The chat is case-insensitive: shouting a message gets the same reply. */
  lemma ReplyIgnoresCase(message: string, teams: seq<Team>, upcoming: seq<Match>)
    ensures Unanswerable(Some(ToUpper(message))) == Unanswerable(Some(message))
    ensures Reply(ToLower(ToUpper(message)), teams, upcoming) == Reply(ToLower(message), teams, upcoming)
  {
    TrimIgnoresCase(message);
    LowerOfUpper(message);
  }

  /** A prediction is attempted only for a message that really contains
      "vs" (a bare "predict" falls through) and that no earlier rule
      claimed; the away-side query never keeps a question mark. */
  lemma PredictionNeedsVs(message: string, teams: seq<Team>)
    requires Classify(message, teams).Prediction?
    ensures Contains(message, "vs")
    ensures !Greets(message) && !AsksHelp(message) && !AsksTeams(message) && !AsksMatches(message)
    ensures '?' !in Classify(message, teams).second
  {
    if !Contains(message, "vs") {
      SplitWithoutSeparator(message, "vs");
    }
  }

  /** The greeting rule tests substrings, so it shadows every later rule:
      "this" contains "hi". */
  lemma GreetingShadowsPrediction(teams: seq<Team>, upcoming: seq<Match>)
    ensures Reply("who will win this: arsenal vs chelsea", teams, upcoming) == GreetingReply
  {
    var message := "who will win this: arsenal vs chelsea";
    assert message[14] == 'h' && message[15] == 'i';
    ContainsAt(message, "hi", 14);
  }

  /** An empty query resembles every team, so the first team is found. */
  lemma EmptyQueryFindsFirstTeam(teams: seq<Team>)
    requires teams != []
    ensures FindTeam(teams, "") == Some(teams[0])
  {
    assert OccursAt(ToLower(teams[0].name), ToLower(""), 0);
    ContainsAt(ToLower(teams[0].name), ToLower(""), 0);
  }

  /** The lookup ignores the case of the query. */
  lemma FindTeamIgnoresCase(teams: seq<Team>, query: string)
    ensures FindTeam(teams, ToUpper(query)) == FindTeam(teams, query)
  {
    LowerOfUpper(query);
    FirstWhereAgrees(teams, (t: Team) => Resembles(t, ToUpper(query)), (t: Team) => Resembles(t, query));
  }

  /** When both teams are found and a fixture pairs them, naming them in
      the other order gives the same reply: the fixture's own home and away
      sides are quoted. */
  lemma ScheduledReplyIgnoresOrder(first: string, second: string, teams: seq<Team>, upcoming: seq<Match>)
    requires Scheduled(first, second, teams, upcoming)
    ensures PredictionReply(first, second, teams, upcoming) == PredictionReply(second, first, teams, upcoming)
  {
    FindFixtureSymmetric(upcoming, FindTeam(teams, first).value.id, FindTeam(teams, second).value.id);
  }
}

=== FILE: team_prediction.dfy ===
/** TeamPredictionController.predictBetweenTeams: look both teams up, refuse
    a team against itself, reuse the first upcoming fixture between them (in
    either orientation) or create one a week ahead, then run the RAG
    prediction on it. The upcoming-match list is the repository's answer
    and the kickoff of a created fixture (now plus seven days) is supplied
    by the caller. */
module TeamPrediction {
  import opened Common
  import opened Domain
  import opened ChromaDb
  import Teams
  import Matches
  import RagPipeline

  const HomeMissing := "Home team not found"
  const AwayMissing := "Away team not found"
  const SameTeams := "Teams must be different"
  /** The league a created fixture is filed under. */
  const PredictionLeague := "Prediction Request"

  datatype TeamPredictionRequest = TeamPredictionRequest(homeTeamId: int, awayTeamId: int)

  /** The HTTP answer: 200 with the prediction, 400 with a message, or 500
      with "Error: " and the exception's message. */
  datatype Response =
    | Success(prediction: AiPrediction)
    | BadRequest(body: string)
    | ServerError(body: string)

  /** Which fixture the prediction will be about. */
  datatype Plan =
    | Refuse(response: Response)
    | Existing(fixture: Match)
    | Create(draft: MatchDraft)

  /** The match created when no fixture is scheduled: the home side's
      stadium, the default SCHEDULED status and 0-0 scores. */
  function NewFixture(home: Team, away: Team, kickoff: DateTime): MatchDraft {
    MatchDraft(Some(home), Some(away), kickoff, PredictionLeague,
               Some(home.name + " Stadium"), Some(Scheduled), 0, 0)
  }

  /** The steps of predictBetweenTeams before the prediction: both lookups
      (home first), the same-team refusal, then findMatchBetweenTeams. */
  function PlanFor(request: TeamPredictionRequest, teams: map<int, Team>, upcoming: seq<Match>,
                   kickoff: DateTime): (r: Plan)
    ensures r.Refuse? <==> (|| request.homeTeamId !in teams || request.awayTeamId !in teams
                            || teams[request.homeTeamId].id == teams[request.awayTeamId].id)
    ensures request.homeTeamId !in teams ==> r == Refuse(ServerError("Error: " + HomeMissing))
    ensures r.Existing? ==> r.fixture in upcoming
                            && PairsTeams(r.fixture, teams[request.homeTeamId].id, teams[request.awayTeamId].id)
    ensures r.Create? ==> && Matches.CreateMatchError(r.draft).None?
                          && r.draft == NewFixture(teams[request.homeTeamId], teams[request.awayTeamId], kickoff)
                          && FindFixtureBetween(upcoming, teams[request.homeTeamId].id,
                                                teams[request.awayTeamId].id).None?
  {
    if request.homeTeamId !in teams then Refuse(ServerError("Error: " + HomeMissing))
    else if request.awayTeamId !in teams then Refuse(ServerError("Error: " + AwayMissing))
    else
      var home := teams[request.homeTeamId];
      var away := teams[request.awayTeamId];
      if home.id == away.id then Refuse(BadRequest(SameTeams))
      else
        match FindFixtureBetween(upcoming, home.id, away.id)
        case Some(m) => Existing(m)
        case None => Create(NewFixture(home, away, kickoff))
  }

  /** The upcoming list holds stored rows of the match table. */
  predicate StoredRows(upcoming: seq<Match>, table: map<int, Match>) {
    forall i :: 0 <= i < |upcoming| ==> upcoming[i].id in table && table[upcoming[i].id] == upcoming[i]
  }

  /** The answer for a prediction outcome: 200, or 500 with "Error: ". */
  function ToResponse(outcome: Result<AiPrediction>): Response {
    if outcome.Ok? then Success(outcome.value) else ServerError("Error: " + outcome.message)
  }

  /** What the RAG prediction on `fixture` answers. */
  function Answer(fixture: Match, connected: bool, store: VectorStore, history: seq<Match>,
                  llm: string -> Result<string>, id: int): (r: Response)
    ensures r.Success? ==> r.prediction.fixture == fixture && r.prediction.id == id
  {
    ToResponse(RagPipeline.Generation(fixture, connected, store, history, llm, id))
  }

  /** The fixture a plan predicts: the scheduled one, or the match saved
      from the draft under the next match id. */
  function Chosen(plan: Plan, nextId: int): (m: Match)
    requires plan.Existing? || (plan.Create? && Matches.CreateMatchError(plan.draft).None?)
    ensures plan.Create? ==> m.id == nextId && Some(m.homeTeam) == plan.draft.homeTeam
                             && Some(m.awayTeam) == plan.draft.awayTeam
  {
    if plan.Existing? then plan.fixture else Matches.Drafted(plan.draft, nextId)
  }

  /** A created fixture the save refuses: its row breaks the match's
      constraints. */
  predicate Unsaveable(plan: Plan, nextId: int)
    requires plan.Existing? || (plan.Create? && Matches.CreateMatchError(plan.draft).None?)
  {
    plan.Create? && MatchViolation(Chosen(plan, nextId)).Some?
  }

  /** The fixture created for a prediction is refused exactly when the home
      team's name is longer than 92 characters: its venue, the name and
      " Stadium", then exceeds 100 characters, though the team table admits
      names of up to 100. */
  lemma CreatedFixtureNeedsShortName(home: Team, away: Team, kickoff: DateTime, nextId: int)
    requires home.id != away.id
    ensures var plan := Create(NewFixture(home, away, kickoff));
            && (Unsaveable(plan, nextId) <==> |home.name| > 92)
            && (|home.name| > 92 ==>
                  MatchViolation(Chosen(plan, nextId)) == Some("Venue name cannot exceed 100 characters"))
  {
    var m := Chosen(Create(NewFixture(home, away, kickoff)), nextId);
    assert m.league == PredictionLeague && m.league[0] > ' ';
    assert |m.venue.value| == |home.name| + 8;
  }

  /** predictBetweenTeams. A refusal changes nothing; otherwise the fixture
      is reused or created (and saved), and the answer is the RAG
      prediction on it, which is always about the two requested teams. A
      created fixture the save refuses is answered with 500 and nothing
      changes. */
  method PredictBetweenTeams(request: TeamPredictionRequest, teams: Teams.TeamService,
                             matches: Matches.MatchService, ai: RagPipeline.AiPredictionService,
                             chroma: ChromaDbService, store: VectorStore, history: seq<Match>,
                             upcoming: seq<Match>, kickoff: DateTime, llm: string -> Result<string>)
    returns (r: Response)
    requires teams.Valid() && matches.Valid() && ai.Valid()
    requires StoredRows(upcoming, matches.matches)
    modifies matches, ai, chroma
    ensures matches.Valid() && ai.Valid()
    ensures chroma.connected == old(chroma.connected)
    ensures r.Success? ==> PairsTeams(r.prediction.fixture, request.homeTeamId, request.awayTeamId)
    ensures var plan := PlanFor(request, old(teams.teams), upcoming, kickoff);
      && (plan.Refuse? ==>
            && r == plan.response
            && matches.matches == old(matches.matches)
            && ai.saved == old(ai.saved)
            && chroma.added == old(chroma.added))
      && (!plan.Refuse? && Unsaveable(plan, old(matches.nextId)) ==>
            && r == ServerError("Error: " + MatchViolation(Chosen(plan, old(matches.nextId))).value)
            && matches.matches == old(matches.matches)
            && ai.saved == old(ai.saved)
            && chroma.added == old(chroma.added))
      && (plan.Existing? ==> matches.matches == old(matches.matches))
      && (plan.Create? && !Unsaveable(plan, old(matches.nextId)) ==>
            matches.matches == old(matches.matches)[old(matches.nextId) := Chosen(plan, old(matches.nextId))])
      && (!plan.Refuse? && !Unsaveable(plan, old(matches.nextId)) ==>
            && r == Answer(Chosen(plan, old(matches.nextId)), old(chroma.connected), store, history, llm, old(ai.nextId))
            && (r.Success? ==>
                  && old(ai.nextId) !in old(ai.saved)
                  && ai.saved == old(ai.saved)[old(ai.nextId) := r.prediction]
                  && chroma.added == old(chroma.added) + (if chroma.connected then [PredictionEntry(r.prediction)] else []))
            && (!r.Success? ==> ai.saved == old(ai.saved) && chroma.added == old(chroma.added)))
  {
    var plan := PlanFor(request, teams.teams, upcoming, kickoff);
    if plan.Refuse? {
      return plan.response;
    }
    var fixture := ProvideFixture(plan, matches, upcoming);
    if fixture.Err? {
      return ServerError("Error: " + fixture.message);
    }
    assert PairsTeams(fixture.value, request.homeTeamId, request.awayTeamId);
    r := Predict(fixture.value, matches, ai, chroma, store, history, llm);
  }

  /** The fixture findMatchBetweenTeams found, or the one created from the
      draft; either way a stored row. A created row that breaks the match's
      constraints is refused by the save, and the table is unchanged. */
  method ProvideFixture(plan: Plan, matches: Matches.MatchService, upcoming: seq<Match>)
    returns (fixture: Result<Match>)
    requires matches.Valid() && StoredRows(upcoming, matches.matches)
    requires (plan.Existing? && plan.fixture in upcoming)
             || (plan.Create? && Matches.CreateMatchError(plan.draft).None?)
    modifies matches
    ensures matches.Valid()
    ensures Unsaveable(plan, old(matches.nextId)) ==>
      fixture == Err(MatchViolation(Chosen(plan, old(matches.nextId))).value)
      && matches.matches == old(matches.matches)
    ensures !Unsaveable(plan, old(matches.nextId)) ==>
      && fixture == Ok(Chosen(plan, old(matches.nextId)))
      && fixture.value.id in matches.matches && matches.matches[fixture.value.id] == fixture.value
    ensures plan.Existing? ==> matches.matches == old(matches.matches)
    ensures plan.Create? && fixture.Ok? ==> matches.matches == old(matches.matches)[old(matches.nextId) := fixture.value]
  {
    if plan.Existing? {
      fixture := Ok(plan.fixture);
      var k :| 0 <= k < |upcoming| && upcoming[k] == plan.fixture;
    } else {
      fixture := matches.CreateMatch(plan.draft);
    }
  }

  /** The call of generatePrediction on a stored fixture, with its failure
      turned into the 500 answer. */
  method Predict(fixture: Match, matches: Matches.MatchService, ai: RagPipeline.AiPredictionService,
                 chroma: ChromaDbService, store: VectorStore, history: seq<Match>,
                 llm: string -> Result<string>)
    returns (r: Response)
    requires ai.Valid()
    requires fixture.id in matches.matches && matches.matches[fixture.id] == fixture
    modifies ai, chroma
    ensures ai.Valid()
    ensures chroma.connected == old(chroma.connected)
    ensures r == Answer(fixture, old(chroma.connected), store, history, llm, old(ai.nextId))
    ensures r.Success? ==>
      && old(ai.nextId) !in old(ai.saved)
      && ai.saved == old(ai.saved)[old(ai.nextId) := r.prediction]
      && chroma.added == old(chroma.added) + (if chroma.connected then [PredictionEntry(r.prediction)] else [])
    ensures !r.Success? ==> ai.saved == old(ai.saved) && chroma.added == old(chroma.added)
  {
    var prediction := ai.GeneratePrediction(fixture.id, matches, history, chroma, store, llm);
    r := ToResponse(prediction);
  }

  /** Naming the teams in the other order finds the same scheduled fixture. */
  lemma ExistingFixtureIgnoresOrder(request: TeamPredictionRequest, teams: map<int, Team>,
                                    upcoming: seq<Match>, kickoff: DateTime)
    requires PlanFor(request, teams, upcoming, kickoff).Existing?
    ensures PlanFor(TeamPredictionRequest(request.awayTeamId, request.homeTeamId), teams, upcoming, kickoff)
            == PlanFor(request, teams, upcoming, kickoff)
  {
    FindFixtureSymmetric(upcoming, teams[request.homeTeamId].id, teams[request.awayTeamId].id);
  }

  /** In a well-formed team table the same-team check is the request's own
      ids being equal. */
  lemma SameTeamRefused(request: TeamPredictionRequest, service: Teams.TeamService, upcoming: seq<Match>,
                        kickoff: DateTime)
    requires service.Valid()
    requires request.homeTeamId in service.teams && request.homeTeamId == request.awayTeamId
    ensures PlanFor(request, service.teams, upcoming, kickoff) == Refuse(BadRequest(SameTeams))
  {
  }
}

=== FILE: team_service.dfy ===
/** TeamService over the team table: creation with a unique-name check,
    update of the four editable fields, deletion by id, and the listing
    ordered by name. The table maps each generated id to its row. */
module Teams {
  import opened Common
  import opened JavaString
  import opened Numbers
  import opened Domain

  /** Teams in non-decreasing name order (ORDER BY t.name ASC). */
  predicate SortedByName(ts: seq<Team>) {
    forall i, j :: 0 <= i < j < |ts| ==> LexLessEq(ts[i].name, ts[j].name)
  }

  /** Inserts `t` into a name-ordered list, after the names not above it. */
  function InsertByName(ts: seq<Team>, t: Team): (r: seq<Team>)
    requires SortedByName(ts)
    ensures SortedByName(r)
    ensures multiset(r) == multiset(ts) + multiset{t}
  {
    if ts == [] then [t]
    else if LexLessEq(t.name, ts[0].name) then
      forall x | x in ts ensures LexLessEq(t.name, x.name) {
        if x != ts[0] { LexTransitive(t.name, ts[0].name, x.name); }
      }
      PrependSorted(t, ts);
      [t] + ts
    else
      LexTotal(t.name, ts[0].name);
      var rest := InsertByName(ts[1..], t);
      assert ts == [ts[0]] + ts[1..];
      forall x | x in rest ensures LexLessEq(ts[0].name, x.name) {
        assert x in multiset(rest);
        assert x == t || x in ts[1..];
      }
      PrependSorted(ts[0], rest);
      [ts[0]] + rest
  }

  /** A name not above any in a sorted list may go in front of it. */
  lemma PrependSorted(t: Team, ts: seq<Team>)
    requires SortedByName(ts)
    requires forall x :: x in ts ==> LexLessEq(t.name, x.name)
    ensures SortedByName([t] + ts)
  {
    var r := [t] + ts;
    forall i, j | 0 <= i < j < |r| ensures LexLessEq(r[i].name, r[j].name) {
      assert r[j] == ts[j - 1];
      if i > 0 { assert r[i] == ts[i - 1]; } else { assert r[j] in ts; }
    }
  }

  /** Every row meets the entity's constraints. */
  predicate Storable(teams: map<int, Team>) {
    forall id :: id in teams ==> TeamViolation(teams[id]).None?
  }

  /** Storing a row that meets the constraints keeps every row storable. */
  lemma StoreRow(teams: map<int, Team>, id: int, t: Team)
    requires Storable(teams) && TeamViolation(t).None?
    ensures Storable(teams[id := t])
  {
  }

  function NotFound(id: int): string {
    "Team not found with id: " + IntToString(id)
  }

  class TeamService {
    var teams: map<int, Team>
    var nextId: int

    /** Every row is stored under its own id, below the next id to hand out,
        and meets the entity's constraints (a save that breaks them fails). */
    ghost predicate Valid()
      reads this
    {
      && nextId >= 1
      && (forall id :: id in teams ==> teams[id].id == id && 1 <= id < nextId)
      && Storable(teams)
    }

    /** No two rows share a name. */
    ghost predicate UniqueNames()
      reads this
    {
      forall a, b :: a in teams && b in teams && teams[a].name == teams[b].name ==> a == b
    }

    constructor()
      ensures Valid() && UniqueNames()
      ensures teams == map[]
    {
      teams := map[];
      nextId := 1;
    }

    /** existsByName. */
    predicate ExistsByName(name: string)
      reads this
    {
      exists id :: id in teams && teams[id].name == name
    }

    /** getTeamById. */
    function GetTeamById(id: int): (r: Option<Team>)
      reads this
      ensures r.Some? <==> id in teams
      ensures r.Some? ==> r.value == teams[id]
    {
      if id in teams then Some(teams[id]) else None
    }

    /** createTeam: a name already in the table is refused and nothing is
        saved; a team breaking the entity's constraints fails at the save
        and nothing is saved; otherwise the team is saved under a fresh id. */
    method CreateTeam(team: Team) returns (r: Result<Team>)
      requires Valid()
      modifies this
      ensures Valid()
      ensures old(UniqueNames()) ==> UniqueNames()
      ensures old(ExistsByName(team.name)) ==>
        && r == Err("Team with name '" + team.name + "' already exists")
        && teams == old(teams)
      ensures !old(ExistsByName(team.name)) && TeamViolation(team).Some? ==>
        r == Err(TeamViolation(team).value) && teams == old(teams)
      ensures !old(ExistsByName(team.name)) && TeamViolation(team).None? ==>
        && r == Ok(team.(id := old(nextId)))
        && old(nextId) !in old(teams)
        && teams == old(teams)[old(nextId) := r.value]
    {
      if ExistsByName(team.name) {
        return Err("Team with name '" + team.name + "' already exists");
      }
      var violation := TeamViolation(team);
      if violation.Some? {
        return Err(violation.value);
      }
      var saved := team.(id := nextId);
      StoreRow(teams, nextId, saved);
      teams := teams[nextId := saved];
      nextId := nextId + 1;
      r := Ok(saved);
    }

    /** The row updateTeam saves: name, country, logo and founded year from
        the details, the id and everything else kept. */
    function Updated(id: int, details: Team): Team
      requires id in teams
      reads this
    {
      teams[id].(name := details.name, country := details.country,
                 logo := details.logo, foundedYear := details.foundedYear)
    }

    /** updateTeam: copies name, country, logo and founded year onto the row,
        without any duplicate-name check; a row breaking the entity's
        constraints fails at the save and nothing changes. */
    method UpdateTeam(id: int, details: Team) returns (r: Result<Team>)
      requires Valid()
      modifies this
      ensures Valid()
      ensures id !in old(teams) ==> r == Err(NotFound(id)) && teams == old(teams)
      ensures id in old(teams) && TeamViolation(old(Updated(id, details))).Some? ==>
        r == Err(TeamViolation(old(Updated(id, details))).value) && teams == old(teams)
      ensures id in old(teams) && TeamViolation(old(Updated(id, details))).None? ==>
        && r == Ok(old(Updated(id, details)))
        && r.value.id == id
        && r.value.name == details.name && r.value.country == details.country
        && r.value.logo == details.logo && r.value.foundedYear == details.foundedYear
        && teams == old(teams)[id := r.value]
    {
      if id !in teams {
        return Err(NotFound(id));
      }
      var team := Updated(id, details);
      var violation := TeamViolation(team);
      if violation.Some? {
        return Err(violation.value);
      }
      StoreRow(teams, id, team);
      teams := teams[id := team];
      r := Ok(team);
    }

    /** deleteTeam: a missing id is refused and nothing changes; otherwise
        exactly that row is removed. */
    method DeleteTeam(id: int) returns (r: Result<()>)
      requires Valid()
      modifies this
      ensures Valid()
      ensures id !in old(teams) ==> r == Err(NotFound(id)) && teams == old(teams)
      ensures id in old(teams) ==> r == Ok(()) && teams == old(teams) - {id}
    {
      if id !in teams {
        return Err(NotFound(id));
      }
      teams := teams - {id};
      r := Ok(());
    }

    /** getAllTeams: every row exactly once, ordered by name. The table is
        scanned in id order. */
    method GetAllTeams() returns (r: seq<Team>)
      requires Valid()
      ensures SortedByName(r)
      ensures forall id :: id in teams ==> teams[id] in r
      ensures forall i :: 0 <= i < |r| ==> r[i].id in teams && teams[r[i].id] == r[i]
      ensures forall x :: multiset(r)[x] <= 1
    {
      r := [];
      for id := 1 to nextId
        invariant SortedByName(r) && ListedBelow(r, teams, id)
      {
        if id in teams {
          ListRow(r, teams, id);
          r := InsertByName(r, teams[id]);
        }
      }
    }
  }

  /** What the scan of getAllTeams has listed once it has passed the ids below
      `bound`: each of those rows once, and nothing else. */
  ghost predicate ListedBelow(r: seq<Team>, teams: map<int, Team>, bound: int) {
    && (forall k :: k in teams && k < bound ==> teams[k] in r)
    && (forall i :: 0 <= i < |r| ==> r[i].id in teams && r[i].id < bound && teams[r[i].id] == r[i])
    && (forall x :: multiset(r)[x] <= 1)
  }

  /** Listing the row of `id` extends the scan by one id. */
  lemma ListRow(r: seq<Team>, teams: map<int, Team>, id: int)
    requires SortedByName(r) && ListedBelow(r, teams, id)
    requires id in teams && teams[id].id == id
    ensures ListedBelow(InsertByName(r, teams[id]), teams, id + 1)
  {
    InsertKeepsRows(r, teams[id]);
    assert teams[id] !in r;
    var after := InsertByName(r, teams[id]);
    forall i | 0 <= i < |after| ensures after[i].id in teams && after[i].id <= id && teams[after[i].id] == after[i] {
      assert after[i] in after;
      if after[i] != teams[id] {
        var j :| 0 <= j < |r| && r[j] == after[i];
      }
    }
  }

  /** Inserting a team adds exactly that team to the list. */
  lemma InsertKeepsRows(ts: seq<Team>, t: Team)
    requires SortedByName(ts)
    ensures forall x :: x in InsertByName(ts, t) <==> x in ts || x == t
  {
    var r := InsertByName(ts, t);
    forall x ensures x in r <==> x in ts || x == t {
      assert x in r <==> x in multiset(r);
      assert x in ts <==> x in multiset(ts);
    }
  }
}
